=== FILE: README.md ===
# switchr (`sw`) in Dafny

A model of the core of `sw`, a developer tool that finds projects in several
places, merges them into one list, caches that list on disk, and opens the
project the user picks in an editor. The project sources are:

- git repositories under the configured directories;
- the workspace storage of the Cursor editor;
- the user's GitHub repositories, listed through the `gh` tool;
- GitLab repositories, listed through `glab`.

Everything outside the process is passed in as a value, and the rest is pure
functions, a few methods, and lemmas about them. What counts as outside: file
system probes, directory walks, the clock, the process id, subprocess
outcomes, JSON and RFC 3339 timestamp parsing, and the fuzzy matcher.

The modules follow the source files:

| module | source | contents |
|---|---|---|
| `Models` | `src/models.rs` | `Project`, `ProjectList`, the recency sort, filter by source, and the GitHub-behind-local dedup |
| `Codec` | `src/cache.rs` | the binary form of a project list, with round trips in both directions |
| `Configuration` | `src/config.rs` | defaults, validation, editing the directory list, and the config file |
| `Cache` | `src/cache.rs` | the TTL test, loading, the atomic write through a temporary file, the three-attempt retry, and invalidation, all over an abstract file store |
| `LocalScanner` | `src/scanner/local.rs` | the local scanner |
| `CursorScanner` | `src/scanner/cursor.rs` | the Cursor workspace scanner |
| `GitHubScanner` | `src/scanner/github.rs` | the GitHub scanner |
| `GitLabScanner` | `src/scanner/gitlab.rs` | the GitLab scanner |
| `ScanManager` | `src/scanner/mod.rs` | the aggregation loop over the default scanners |
| `ProjectManager` | `src/project_manager.rs` | the cache-or-scan policy |
| `CommandLine` | `src/main.rs` | mode selection and start-up gating |
| `Picker` | `src/tui.rs` | the interactive picker's state machine |
| `Opener` | `src/opener.rs` | cloning and editor launch |
| `Operations` | `src/operations.rs` | lookup by name, and the fzf rendering and selection back-mapping |

Helper modules:

- `Wrappers`: `Option` and `Result`.
- `Seqs`: sequence facts.
- `Text`: whitespace, trimming, splitting, lexicographic order, lines and decimal digits.
- `Paths`: paths as component sequences.
- `Sorting`: a stable insertion sort with its proofs. Rust's `sort_by` is stable, so any stable sort with the same comparator gives the same output.

The model follows the code as it is written on these points:

- Scanners run one after another in a plain loop. There is no concurrent dispatch and no time budget.
- Deduplication removes only GitHub entries that share a path with a local entry. GitLab entries are never removed.
- GitLab is not among the default scanners; `src/scanner/mod.rs` does not declare it.
- `Config` has no GitLab user name, so `GitLabScanner.Scan` takes it as a parameter.
- `get_projects_fresh` calls `scan_all_verbose`, which does not exist in the source. It is modelled as `scan_all`.

## Model

| member | source | states |
|---|---|---|
| Models.NewLocal | src/models.rs:34-43 | a local project has the given name and path, no time and no URL |
| Models.NewCursor | src/models.rs:45-54 | a Cursor project has the given name and path, no time and no URL |
| Models.NewGitHub | src/models.rs:56-65 | a GitHub project carries its GitHub URL, no GitLab URL and no time |
| Models.NewGitLab | src/models.rs:67-76 | a GitLab project carries its GitLab URL, no GitHub URL and no time |
| Models.WithLastModified | src/models.rs:78-81 | sets the modification time and changes nothing else |
| Models.AddProject | src/models.rs:126-128 | appends at the end: the length grows by one and earlier entries are untouched |
| Models.CompareIsKeyOrder | src/models.rs:144-149 | the comparator given to `sort_by` answers Less, Greater or Equal exactly as the key order ranks the two projects |
| Models.KeyBeforeIsStrictTotalOrder | src/models.rs:144-149 | the comparator's order is a strict total order, so the sort is well defined |
| Models.SortByLastModified | src/models.rs:142-150 | the sorted list is a permutation of the input, ordered by the comparator |
| Models.SortByLastModifiedOrder | src/models.rs:145-148 | timed projects come before untimed ones, newest first, and untimed ones are in name order |
| Models.SortByLastModifiedStable | src/models.rs:143-149 | projects with equal sort keys keep their relative order |
| Models.SortByLastModifiedIdempotent | src/models.rs:142-150 | sorting a sorted list changes nothing |
| Models.FilterBySource | src/models.rs:153-158 | keeps exactly the projects from the given source |
| Models.FilterBySourceAppend | src/models.rs:153-158 | filtering keeps list order: filtering a concatenation concatenates the filtered parts |
| Models.FilterBySourcePartition | src/models.rs:153-158 | the four per-source filters together account for every entry exactly once |
| Models.Deduplicate | src/models.rs:160-179 | removes every occurrence of a GitHub project whose path is the path of some local project and keeps every other entry as often as it occurs; afterwards no GitHub and local project share a path |
| Models.RemoveShadowedAppend | src/models.rs:170-178 | removal goes entry by entry: removing from a concatenation concatenates the parts' survivors, in order |
| Models.RemoveShadowedSingle | src/models.rs:171 | a single entry survives exactly when it is not a GitHub entry at a local project's path |
| Models.DeduplicateKeepsOrder | src/models.rs:160-179 | the survivors keep their original relative order: cut anywhere, the result is the first part's survivors followed by the second part's |
| Models.DeduplicateKeepsOtherSources | src/models.rs:160-179 | for every source other than GitHub, the sublist of that source is unchanged, order included |
| Models.DeduplicateWithoutClash | src/models.rs:163-174 | a list with no GitHub/local path clash is left exactly as it was |
| Models.DeduplicateIdempotent | src/models.rs:160-179 | deduplicating twice equals deduplicating once |
| Codec.DeserializeOfSerialize | src/cache.rs:131 | every project list is read back exactly as it was written, order included |
| Codec.DeserializeSound | src/cache.rs:72-73 | whatever the decoder accepts starts with the encoding of the list it returns |
| Codec.SerializeInjective | src/cache.rs:131 | different lists never serialise to the same data |
| Codec.DecodeProjectsOfEncode | src/cache.rs:72-73 | a sequence of projects round-trips through its encoding, whatever data follows |
| Configuration.DetectDefaultEditor | src/config.rs:154-174 | the editor is `$EDITOR`, else `$VISUAL`, else the first installed of cursor, code, vim, nvim and nano, else vim |
| Configuration.FirstInstalledEditorChosen | src/config.rs:165-170 | without `$EDITOR` and `$VISUAL`, the first installed candidate in the order cursor, code, vim, nvim, nano is chosen, whatever later ones are installed |
| Configuration.NoEditorInstalledMeansVim | src/config.rs:173 | without the two variables and with no candidate installed, the editor is vim |
| Configuration.DefaultEditorNotBlank | src/config.rs:165-173 | without the two variables the chosen editor is never blank |
| Configuration.TakeExisting | src/config.rs:190-198 | the loop that stops after `limit` accepted candidates yields the first `limit` qualifying candidates, in candidate order |
| Configuration.DefaultProjectDirs | src/config.rs:177-217 | empty exactly when there is no home directory; otherwise the first two candidates that are existing directories, in candidate order; failing any, the first fallback that exists; failing that, ~/Documents/git |
| Configuration.DefaultDirsExist | src/config.rs:180-198 | when one primary candidate exists as a directory, the defaults are non-empty and every default exists as a directory |
| Configuration.ShouldPromptGitHubSetup | src/config.rs:148-150 | the GitHub setup is offered exactly when no GitHub user name is configured |
| Configuration.Default | src/config.rs:20-29 | the default has no GitHub user, a 1800-second TTL, and the detected editor and directories |
| Configuration.Validate | src/config.rs:98-114 | fails exactly when the trimmed editor is empty or the TTL is 0, with the editor checked first; missing directories are warnings only: without a blank editor, the warnings are the missing directories in list order, one per listed missing directory |
| Configuration.MissingDirsAppend | src/config.rs:103-107 | the warnings go directory by directory: those for a concatenation are the first part's followed by the second's |
| Configuration.MissingDirsSingle | src/config.rs:104-106 | one directory gives one warning exactly when it does not exist |
| Configuration.DefaultValid | src/config.rs:98-114 | the default configuration passes validation when no editor variable is set |
| Configuration.AddProjectDir | src/config.rs:117-122 | appends the path only when it is absent; everything else is unchanged and no duplicate is introduced |
| Configuration.RemoveProjectDir | src/config.rs:125-133 | reports whether the path was present; removes exactly its first occurrence, otherwise changes nothing |
| Configuration.AddThenRemove | src/config.rs:117-133 | adding an absent directory and removing it restores the configuration |
| Configuration.RemoveFromDistinct | src/config.rs:125-133 | in a list without duplicates, removal leaves no occurrence and keeps the list duplicate-free |
| Configuration.DecodeConfigOfEncode | src/config.rs:72-76 | a configuration written to its file reads back unchanged |
| Configuration.LoadFromPath | src/config.rs:39-54 | a missing file gives the default; an unreadable file is a read error; otherwise the file must parse, and the result is the configuration it holds |
| Configuration.SaveToPath | src/config.rs:63-79 | succeeds exactly without a fault, then holds the encoded configuration; no other file changes |
| Configuration.LoadAfterSave | src/config.rs:39-79 | loading after a successful save gives back the saved configuration |
| Cache.IsCacheValidAsWritten | src/cache.rs:39-60 | as written: a missing file is invalid, and "valid" means the file is younger than the TTL; the unsigned age has no value for a file from the future |
| Cache.IsCacheValid | src/cache.rs:39-60 | corrected: valid when the file exists, its time is not after the clock, and it is younger than the TTL; a zero TTL never validates |
| Cache.ValidityAgreesWithoutUnderflow | src/cache.rs:53-54 | the age subtraction overflows exactly for a file modified after the clock reading; otherwise the written test and the corrected test agree |
| Cache.FutureModificationTimeUnderflows | src/cache.rs:53 | a file stamped one second in the future makes the written test overflow |
| Cache.ValidityWindow | src/cache.rs:39-60 | a freshly written file is valid at once under a positive TTL, and stops being valid when the TTL has elapsed |
| Cache.ValidityIsAnInterval | src/cache.rs:53-54 | a cache valid at some time was valid at every earlier time since it was written |
| Cache.LoadFrom | src/cache.rs:62-76 | no list exactly when the cache is not valid; on a valid file a read or decode failure is an error, not "no list"; a returned list is what the file encodes |
| Cache.LoadProjects | src/cache.rs:62-76 | no list exactly when the projects cache is not valid; errors carry the read or deserialise context; a list is what the file encodes |
| Cache.LoadGitHubProjects | src/cache.rs:153-167 | the same policy on the GitHub cache file, with its own error contexts |
| Cache.LoadOfWritten | src/cache.rs:62-76 | a file holding a serialised list loads as that list for as long as it is valid |
| Cache.TempPathBesideTarget | src/cache.rs:94-103 | the temporary file sits in the target's directory and is never the target |
| Cache.TempPathInjective | src/cache.rs:94-101 | equal temporary names come from the same process id and the same clock reading |
| Cache.AtomicWrite | src/cache.rs:79-126 | succeeds exactly without a fault and then holds the data at the target with the temporary file gone; a failure touches only the temporary file; after a failed rename it is gone when the discarded clean-up succeeded and still holds the data when it failed; it is kept after a failed sync |
| Cache.FailedWriteKeepsTarget | src/cache.rs:106-123 | a failed attempt never changes the target |
| Cache.SuccessfulWrite | src/cache.rs:79-126 | a successful write leaves exactly the data at the target, no temporary file, and every other file as it was |
| Cache.SuccessfulAttempt | src/cache.rs:135-137 | names the first of the three attempts that succeeds, if any |
| Cache.RetryStopsAtFirstSuccess | src/cache.rs:134-149 | the loop succeeds exactly when one of the three attempts does, and then stops at the first such attempt |
| Cache.SaveWithRetry | src/cache.rs:134-149 | at most three attempts, stopping at the first success; the backoffs are 1 ms then 2 ms, between attempts only; after three failures the last error is reported with context and the target is untouched; only the target and the temporary files are ever changed |
| Cache.SaveProjects | src/cache.rs:128-150 | on success, loading the projects cache while it is valid gives back the same list in the same order; on failure the cache file is unchanged |
| Cache.SaveGitHubProjects | src/cache.rs:170-192 | on success, loading the GitHub cache while it is valid gives back the same list |
| Cache.InvalidateAll | src/cache.rs:194-205 | fails only when an existing cache file cannot be removed; on success neither cache file exists; no other file changes |
| Cache.InvalidateAllWhenAbsent | src/cache.rs:197-204 | invalidating an empty cache succeeds and changes nothing |
| Cache.LoadAfterInvalidate | src/cache.rs:194-205 | after invalidation neither cache loads, whatever the clock says |
| LocalScanner.IsHiddenDirectory | src/scanner/local.rs:85-89 | a directory is hidden exactly when its file name starts with a dot |
| LocalScanner.IsProjectDirectory | src/scanner/local.rs:91-94 | a directory is a project exactly when it holds a `.git` entry |
| LocalScanner.ProjectTimestamp | src/scanner/local.rs:100-110 | the time of the last commit, else the directory's modification time, else none |
| LocalScanner.ProjectAt | src/scanner/local.rs:65-78 | a local project named after the last path component, or "unknown", with the fallback timestamp |
| LocalScanner.ScanEntries | src/scanner/local.rs:53-82 | fails exactly when the walk has an unreadable entry; otherwise it lists the projects of the non-hidden directories at depth 3 or less that contain `.git`, and only those; a hidden directory's subtree is still walked |
| LocalScanner.ScanEntriesAppend | src/scanner/local.rs:53-80 | the walk is taken entry by entry: the projects of a concatenated walk are those of the first part followed by those of the second, so order and count follow the walk |
| LocalScanner.ScanEntriesSingle | src/scanner/local.rs:54-79 | one readable entry gives one project when it is a selected directory and none otherwise |
| LocalScanner.ScanDirectory | src/scanner/local.rs:39-83 | a missing base directory gives an empty list; an existing one gives exactly the projects of its walk's entries; every project found is local |
| LocalScanner.ScanDirectories | src/scanner/local.rs:17-21 | one result per configured directory, in order; any failure fails the whole scan |
| LocalScanner.Scan | src/scanner/local.rs:16-32 | fails exactly when some directory scan fails; otherwise returns the directory results' concatenation, permuted into sorted order |
| LocalScanner.ScanFindsLocalProjects | src/scanner/local.rs:16-32 | every project reported is a local project found under one of the configured directories |
| CursorScanner.ParseWorkspaceDirectory | src/scanner/cursor.rs:99-143 | no `workspace.json` gives none; a read or parse failure is an error; a workspace is reported exactly when the identifier and its config path are present, named after the path's last component or "unknown" |
| CursorScanner.CollectWorkspaces | src/scanner/cursor.rs:74-89 | succeeds exactly when every entry is readable and every directory's `workspace.json` is absent or reads and parses; non-directory entries are skipped; the result holds exactly the workspaces parsed from directory entries |
| CursorScanner.ScanWorkspaces | src/scanner/cursor.rs:67-90 | a missing storage directory gives no workspaces; an unlistable one is an error; otherwise it is the loop over the listed entries, succeeding exactly when every entry gets through, with exactly the workspaces of the directory entries |
| CursorScanner.CollectWorkspacesAppend | src/scanner/cursor.rs:74-89 | entries are taken one by one: the workspaces of concatenated entries are those of the first part followed by those of the second |
| CursorScanner.CollectWorkspacesSingle | src/scanner/cursor.rs:75-87 | one readable entry gives the workspace its `workspace.json` names when it is a directory, and none otherwise |
| CursorScanner.WorkspaceToProject | src/scanner/cursor.rs:145-158 | none exactly when the workspace's folder is gone; otherwise a Cursor project with the workspace's name, path and time |
| CursorScanner.ProjectsOf | src/scanner/cursor.rs:36-40 | exactly the projects of workspaces whose folders exist, never more than there are workspaces |
| CursorScanner.ProjectsOfAppend | src/scanner/cursor.rs:36-40 | workspaces are converted one by one: the projects of concatenated workspaces are those of the first part followed by those of the second |
| CursorScanner.ProjectsOfSingle | src/scanner/cursor.rs:37-39 | one workspace gives its project when its folder exists, and nothing otherwise |
| CursorScanner.Scan | src/scanner/cursor.rs:26-44 | no home directory is an error; a missing storage directory gives an empty list; otherwise it succeeds exactly when the workspace scan does, passing on its error, and returns the converted workspaces, permuted into sorted order |
| GitHubScanner.ParseRecords | src/scanner/github.rs:135-145 | blank lines are skipped; succeeds exactly when every other line parses; the records are exactly the parsed lines |
| GitHubScanner.ParseRecordsAppend | src/scanner/github.rs:135-145 | the output is read line by line: the records of concatenated lines are those of the first part followed by those of the second |
| GitHubScanner.ParseRecordsSingle | src/scanner/github.rs:136-143 | a blank line gives no record and any other line that parses gives exactly one, so each record line is one repository |
| GitHubScanner.FetchUserRepositories | src/scanner/github.rs:114-146 | a failed start and a failed exit are errors; otherwise the records of the output's lines |
| GitHubScanner.ClonePath | src/scanner/github.rs:169-175 | the clone path is `<home>/Documents/git/<name>`; with no home directory it is an error |
| GitHubScanner.ParseGitHubTimestamp | src/scanner/github.rs:177-186 | no timestamp gives none; a present one must parse, or it is an error |
| GitHubScanner.RepositoryToProject | src/scanner/github.rs:148-167 | an archived repository gives none; no home directory is an error; otherwise it succeeds exactly when the timestamp in use parses, giving a GitHub project with the name, URL and clone path, timed by `pushed_at`, else `updated_at`, else untimed |
| GitHubScanner.PushedAtTakesPrecedence | src/scanner/github.rs:158 | a parsable `pushed_at` times the project, whatever `updated_at` holds |
| GitHubScanner.UpdatedAtIsTheFallback | src/scanner/github.rs:158-164 | without `pushed_at` a parsable `updated_at` times the project, and without either the project is untimed |
| GitHubScanner.ProjectsOf | src/scanner/github.rs:56-60 | any conversion error fails the loop; otherwise exactly the converted repositories |
| GitHubScanner.ProjectsOfAppend | src/scanner/github.rs:56-60 | repositories are converted one by one: the projects of concatenated repositories are those of the first part followed by those of the second |
| GitHubScanner.ProjectsOfSingle | src/scanner/github.rs:57-59 | one repository that converts gives its project unless it is archived |
| GitHubScanner.Scan | src/scanner/github.rs:23-64 | no user name, no `gh`, or declined authentication give an empty list; an authentication error is passed on; otherwise it succeeds exactly when the fetch and every conversion do, passing on the first error, and returns the converted repositories, permuted into sorted order |
| GitHubScanner.ArchivedNeverListed | src/scanner/github.rs:150-152 | every listed project comes from a non-archived repository with the same name |
| GitLabScanner.ClonePath | src/scanner/gitlab.rs:21-26 | the clone path is `(home or /tmp)/gitlab/<user>/<name>` |
| GitLabScanner.RepositoryToProject | src/scanner/gitlab.rs:30-49 | errors exactly when the name or the web URL is missing; otherwise a GitLab project whose time is the activity time when it parses, and now when it is missing or does not parse |
| GitLabScanner.Convert | src/scanner/gitlab.rs:93-106 | keeps exactly the non-archived repositories that convert, in input order; the others are skipped |
| GitLabScanner.Scan | src/scanner/gitlab.rs:58-109 | no user name or no connection gives an empty list; a failed start, a failed exit, output that is not UTF-8, and output that is not a JSON array are errors, each with its own message; blank output gives an empty list; otherwise the converted repositories, unsorted, every one timed |
| GitLabScanner.ConvertIsElementwise | src/scanner/gitlab.rs:94-106 | each repository is converted on its own, so a failing one does not affect the others |
| ScanManager.RunDefaultScanners | src/scanner/mod.rs:20-28 | the scanners run in the order local, Cursor, GitHub |
| ScanManager.ScanAll | src/scanner/mod.rs:35-55 | always succeeds; returns the successes, deduplicated and then sorted, plus one warning per failed scanner |
| ScanManager.SuccessesAppend | src/scanner/mod.rs:38-44 | the aggregate is the concatenation of the successful scanners' lists, in scanner order |
| ScanManager.FailingScannerIsIgnored | src/scanner/mod.rs:45-47 | a failing scanner contributes no projects, only a warning, and leaves the others' contributions unchanged |
| ScanManager.InScanResult | src/scanner/mod.rs:38-54 | a project is in the result exactly when some scanner reported it and it is not a GitHub project hidden by a local project at the same path |
| ScanManager.SuccessCountIsLength | src/scanner/mod.rs:38-44 | before dedup, the aggregate's length is the sum of the successful scanners' lengths |
| ScanManager.ScanResultWithoutClash | src/scanner/mod.rs:52-53 | without a GitHub/local path clash the result is a permutation of the aggregate, so its length is that sum |
| ScanManager.DefaultScanFindsNoGitLab | src/scanner/mod.rs:5-7 | the default scan never reports a GitLab project |
| ScanManager.ScannerReportsOwnSource | src/scanner/mod.rs:22-26 | each scanner reports projects of its own source only |
| ProjectManager.NewCache | src/cache.rs:17-29 | fails when the cache directory is unknown, or missing and cannot be created; otherwise uses that directory and the configured TTL |
| ProjectManager.GetProjectsFresh | src/project_manager.rs:33-52 | returns the aggregated scan and has saved exactly that list; a save failure fails the call |
| ProjectManager.Decide | src/project_manager.rs:8-30 | uses the cache exactly when it loads a list and is still valid at the second check; a load error is final, with no fallback scan; otherwise it scans |
| ProjectManager.GetProjectsWithCache | src/project_manager.rs:8-30 | a cached answer is returned unchanged with no scan and no save; a miss or a stale cache gives exactly what a fresh scan gives |
| ProjectManager.CachedAfterFresh | src/project_manager.rs:8-52 | after a successful fresh scan, the next call within the TTL returns that same list from the cache |
| ProjectManager.StaleAfterTtl | src/project_manager.rs:13-29 | once the TTL has elapsed at the second check, the call scans again |
| CommandLine.FlagsCompatibleMeansAtMostOne | src/main.rs:23-30 | the flag conflicts allow at most one of interactive, list and fzf |
| CommandLine.OperationModeOf | src/main.rs:56-77 | a project name always gives Direct; otherwise setup gives Setup, list gives List, refresh gives Refresh, config gives ShowConfig and completions gives Completions for its shell; without a subcommand, list comes before fzf, which comes before Interactive |
| CommandLine.InteractiveFlagIrrelevant | src/main.rs:67-75 | the interactive flag never changes the mode |
| CommandLine.RefreshFlagIrrelevant | src/main.rs:33 | the `--refresh` flag never changes the mode: `operation_mode` does not read it |
| CommandLine.SubcommandDecides | src/main.rs:61-66 | whatever the flags, each subcommand selects the mode of its name (setup→Setup, list→List, refresh→Refresh, config→ShowConfig, completions→Completions with its shell), so different subcommands give different modes, never Interactive or Fzf |
| CommandLine.ListSubcommandIsListFlag | src/main.rs:63-69 | the list subcommand and the list flag give the same mode |
| CommandLine.Start | src/main.rs:92-150 | start-up prompts for a GitHub user only on a first run without one, in Interactive or Fzf mode; the answer is saved, but this run keeps the loaded configuration; validation gates the run |
| CommandLine.PromptTakesEffectNextRun | src/main.rs:99-111 | the saved user name is not seen by the run that prompted for it |
| CommandLine.NoPromptOnceConfigured | src/main.rs:96-120 | with a user name set, or when this is not the first run, there is no prompt and no tip |
| Picker.HigherIsStrictTotalOrder | src/tui.rs:153 | ordering by descending score is a strict total order on scores |
| Picker.FirstRows | src/tui.rs:133-140 | with an empty query the rows are the first `min(n, 20)` indices, in order, each scored 100 |
| Picker.RankedRows | src/tui.rs:142-155 | with a query, at most 20 rows, all accepted by the matcher, by descending score with ties in list order; an accepted project is left out only when 20 rows rank before it: a higher score, or an equal score and an earlier position, so a tie at the cut keeps the earliest projects |
| Picker.UpdateFiltered | src/tui.rs:132-161 | recomputes the rows and keeps the selection when it is still in range, else resets it to 0 |
| Picker.New | src/tui.rs:46-77 | starts with an empty query, the first rows, selection 0 and nothing chosen |
| Picker.MoveUp | src/tui.rs:163-167 | decrements a positive selection and otherwise does nothing |
| Picker.MoveDown | src/tui.rs:169-173 | increments only when the next row exists, so the selection stays in range |
| Picker.DownThenUp | src/tui.rs:163-173 | moving down and then up restores the state when a next row exists |
| Picker.SelectedProject | src/tui.rs:175-180 | the project of the selected row when the selection is in range, else none |
| Picker.HandleEvent | src/tui.rs:88-121 | q and Esc quit; Enter quits with the selected project only when there is one; other characters are appended and reset the selection; Backspace pops and resets; arrows move; other events change nothing |
| Picker.Run | src/tui.rs:79-129 | the event loop stops at the first quitting event, keeps the picker state well formed, and never changes the project list |
| Picker.RunChoosesListedProject | src/tui.rs:79-129 | the query never contains q, and a project handed back is one of the listed projects, chosen with Enter |
| Picker.QuitKeysChooseNothing | src/tui.rs:91-96 | Esc or q ends the loop with nothing chosen |
| Opener.CloneGitHubProject | src/opener.rs:22-51 | no URL is an error before anything runs; otherwise `git clone <url> <path>` runs after the parent directory is created, and a failed exit reports its stderr |
| Opener.EditorCommand | src/opener.rs:64-74 | the program is the command's first word, the other words follow as arguments, and the path comes last |
| Opener.IsBackgroundEditor | src/opener.rs:103-105 | cursor, code, subl and atom are the editors not waited for |
| Opener.OpenProjectPath | src/opener.rs:53-94 | a blank editor command is rejected before the path check; a missing path is rejected; background editors only need to start, while others must also exit successfully |
| Opener.OpenProject | src/opener.rs:14-20 | clones first exactly for a GitHub project whose path is missing, then opens the path; a failed clone stops it |
| Opener.CommandsStarted | src/opener.rs:14-20 | at most two commands: a clone followed by the editor, for a missing GitHub project that clones; any other project starts at most the editor |
| Opener.ExistingProjectOpensDirectly | src/opener.rs:14-19 | a project already on disk opens with exactly one command, the editor |
| Opener.EditorProgramIsAWord | src/opener.rs:64-69 | the program name contains no whitespace |
| Opener.EditorCommandKeepsWords | src/opener.rs:64-74 | program and word arguments, glued together, are the editor command minus its whitespace |
| Operations.FindByName | src/operations.rs:390-394 | the first project in list order whose lower-cased name contains the lower-cased query; none exactly when nothing matches |
| Operations.OpenByName | src/operations.rs:386-433 | a lookup error propagates; a cached match wins; otherwise the fresh scan is searched, and no match there means exit code 1 |
| Operations.CachedMatchSkipsFreshScan | src/operations.rs:396-412 | when the cached list matches, the fresh scan's outcome is irrelevant |
| Operations.EmptyQueryPicksFirst | src/operations.rs:390-394 | the empty query picks the first project |
| Operations.QueryCaseIrrelevant | src/operations.rs:393 | queries that agree up to ASCII case find the same project |
| Operations.FzfLine | src/operations.rs:499-517 | the line is the source icon, a space, the name, and ` (<time>)` exactly when the project has a time |
| Operations.FzfInput | src/operations.rs:499-518 | one line per project, in list order |
| Operations.BackMapAsWritten | src/operations.rs:560-566 | as written: the first project, in list order, whose untrimmed line equals the trimmed output; none when no line does |
| Operations.BackMap | src/operations.rs:548-566 | corrected: the first project whose line equals the output with only fzf's line ending removed; none exactly when no line matches |
| Operations.SelectedLineRoundTrips | src/operations.rs:531-566 | when fzf prints any project's line, the corrected lookup finds the first project showing exactly that line, which is that very project unless an earlier project shows the same line |
| Operations.BackMapsAgreeOnTrimmedLines | src/operations.rs:548-566 | when the chosen line has no surrounding whitespace, the corrected lookup returns the same project as the written one, so the fix changes no selection the source gets right |
| Operations.TrimmedLinesCollide | src/operations.rs:548-566 | for projects named `a ` and `a`, the written lookup opens `a` for either line, while the corrected one opens the project on the chosen line |
| Operations.TrailingWhitespaceNameUnselectable | src/operations.rs:548-566 | as written, a project without a time whose name ends in whitespace can never be selected |
| Operations.TrailingSpaceCounterexample | src/operations.rs:510-566 | the local project "demo " is not found as written, and found after the fix |
| Operations.FzfMode | src/operations.rs:475-584 | no fzf is an error; an empty list never starts fzf; a cancelled run or a blank selection opens nothing; a selection maps back to a listed project, or fails with "Failed to find selected project" |

## Left out

- File system, clock, process id, subprocesses (`gh`, `glab`, `timeout`, `git`, the editor, fzf), and the real directory walk: each is a parameter. Its outcome is a value the model receives.
- The byte layouts of bincode and JSON. The cache uses a cell layout of the same shape, with both round trips proved. The config file uses its own layout, with both round trips proved. Parsing JSON lines, GitLab's JSON array and `workspace.json` is a partial function parameter.
- RFC 3339 parsing (section 5.6 of RFC 3339) and `%Y-%m-%d %H:%M` formatting: times are integers; parsing and formatting are parameters.
- Real sleeps in the retry loop: the model records the backoff values and does not wait.
- Concurrent writers and rayon's parallel map. The map is an order-preserving sequential map, and the rename is one atomic step.
- Integer widths. TTLs, sizes and times are unbounded, except the one `u64` subtraction that matters, which is the finding below.
- Error messages keep the words of each context but not the path displayed after them.
- `to_lowercase` is modelled for ASCII letters only. Unicode case folding is not modelled.
- The walker's own behaviour beyond what the scanner observes: the walk is given as a sequence of entries with depths.
- Interactive GitHub authentication (`prompt_for_github_login`, `run_gh_auth_login`): its combined outcome is the `authenticated` parameter.
- GitLab reachability (`can_connect`, `is_glab_accessible`): a boolean parameter. `src/scanner/gitlab.rs` is truncated in several places, and only its intact lines are modelled.
- The setup wizard, show-config, list and refresh printing, shell completions, terminal drawing, the picker's status threads, and verbose output: these are interactive prompts and printing.
- The interactive-mode and fzf handlers return the chosen project. Opening it is `Opener.OpenProject`, which they call unchanged.
- `Config::load` and `Config::save` only resolve the platform's configuration path (`ConfigFilePath`) before delegating to `LoadFromPath` and `SaveToPath`.
- CursorScanner.CollectWorkspaces: when several entries fail, the contract does not say which error is reported. The source reports the first.
- CursorScanner.StoragePath: only the Linux layout (`~/.config/Cursor/User/workspaceStorage`) is modelled. The macOS and Windows paths of `src/scanner/cursor.rs:55-62` are chosen at compile time and are not modelled.
- Configuration.LoadFromPath: the file format is a cell layout that stands in for JSON. Its parser accepts exactly what `SaveToPath` writes (`Configuration.DecodeConfigSound`). `serde_json` also accepts texts that `save_to_path` never writes: other whitespace, other key orders, and a missing `github_username`. The model does not promise what those load as.
- Operations.FzfMode: it maps the selection back with the corrected `BackMap` (see Findings). `src/operations.rs:560-566` compares the untrimmed line, which `Operations.BackMapAsWritten` models. `Operations.BackMapsAgreeOnTrimmedLines` shows that the two return the same project whenever the chosen line has no surrounding whitespace. They differ only on lines that end in whitespace, where the written comparison finds no project or another project's line (`Operations.TrimmedLinesCollide`).

## Findings

| source | as written | input that shows it | evidently intended | confidence | as-written member | corrected member |
|---|---|---|---|---|---|---|
| src/cache.rs:53 | the age is `now - mtime` on unsigned seconds, which overflows when the file's time is after the clock (a panic in debug builds, a huge age in release builds) | a cache file stamped 101 s after the epoch, read when the clock says 100 s | a file from the future is not a valid cache | not executed | Cache.FutureModificationTimeUnderflows | Cache.IsCacheValid |
| src/operations.rs:548-566 | the fzf output is trimmed, then compared with untrimmed project lines | a local project named `demo ` with no time: its line ends in a space, the trimmed output does not, so "Failed to find selected project"; with a project `a` listed too, choosing `a ` opens `a` | the printed line maps back to its project | not executed | Operations.TrailingSpaceCounterexample | Operations.SelectedLineRoundTrips |

For the first row:

- `Cache.IsCacheValidAsWritten` is the test as written, with `None` standing for the overflow.
- `Cache.IsCacheValid` is the corrected test: a file from the future is never valid. The rest of the model uses it.
- `Cache.ValidityAgreesWithoutUnderflow` shows that the two tests agree on every file whose time is not after the clock.

For the second row:

- `Operations.BackMapAsWritten` is the comparison as written.
- `Operations.BackMap` compares each line with the output minus fzf's line ending. `Operations.FzfMode` uses it.
- `Operations.TrimmedLinesCollide` shows both halves on the projects `a ` and `a`.

=== FILE: cache.dfy ===
/** The on-disk project cache over an abstract file store: the TTL test,
    loading, the crash-safe write through a temporary file with its bounded
    retry, and invalidation. The store maps paths to files; a file holds its
    serialised data, its modification time in whole seconds since the Unix
    epoch (negative before the epoch) and whether it can be read. The wall
    clock, the process id and the outcome of each file-system step are
    parameters. */
module Cache {
  import opened Wrappers
  import opened Text
  import opened Paths
  import opened Models
  import Codec

  datatype File = File(data: Codec.Cells, mtime: int, readable: bool)

  type Store = map<Path, File>

  /** `Cache`: the directory that holds the cache files and the TTL, a `u64`. */
  datatype Cache = Cache(dir: Path, ttlSeconds: nat)

  const ProjectsCacheName: string := "sw_projects.cache"
  const GitHubCacheName: string := "sw_github.cache"

  function ProjectsCachePath(c: Cache): Path {
    Join(c.dir, [ProjectsCacheName])
  }

  function GitHubCachePath(c: Cache): Path {
    Join(c.dir, [GitHubCacheName])
  }

  /** anyhow's `context`: the new message in front of the cause. */
  function WithContext(context: string, cause: string): string {
    context + ": " + cause
  }

  /* ---------------- validity ---------------- */

  /** The clock reading in whole seconds; a clock before the epoch reads as 0
      (`unwrap_or_default`). */
  function NowSecs(clock: int): nat {
    if clock < 0 then 0 else clock
  }

  /** `is_cache_valid` as written: the age is an unsigned difference, so a
      modification time after the clock reading has no value (`None`): the
      subtraction overflows. */
  function IsCacheValidAsWritten(store: Store, path: Path, clock: int, ttl: nat): (r: Option<bool>)
    ensures path !in store ==> r == Some(false)
    ensures r == Some(true) ==> path in store && 0 <= store[path].mtime && NowSecs(clock) - store[path].mtime < ttl
  {
    if path !in store then Some(false)
    else if store[path].mtime < 0 then Some(false)
    else if NowSecs(clock) < store[path].mtime then None
    else Some(NowSecs(clock) - store[path].mtime < ttl)
  }

  /** `is_cache_valid` with a modification time in the future treated as
      invalid: the file exists, its time is not before the epoch and not after
      the clock, and it is younger than the TTL. */
  predicate IsCacheValid(store: Store, path: Path, clock: int, ttl: nat)
    ensures IsCacheValid(store, path, clock, ttl) ==> ttl > 0 && path in store
    ensures path in store && NowSecs(clock) < store[path].mtime ==> !IsCacheValid(store, path, clock, ttl)
  {
    && path in store
    && 0 <= store[path].mtime <= NowSecs(clock)
    && NowSecs(clock) - store[path].mtime < ttl
  }

  /** Both versions agree wherever the subtraction does not overflow, and it
      overflows exactly for a file modified after the clock reading. */
  lemma ValidityAgreesWithoutUnderflow(store: Store, path: Path, clock: int, ttl: nat)
    ensures IsCacheValidAsWritten(store, path, clock, ttl).None? <==>
      path in store && 0 <= store[path].mtime && NowSecs(clock) < store[path].mtime
    ensures IsCacheValidAsWritten(store, path, clock, ttl).Some? ==>
      IsCacheValidAsWritten(store, path, clock, ttl).value == IsCacheValid(store, path, clock, ttl)
  {
  }

  /** A file stamped one second after the clock makes the written check overflow. */
  lemma FutureModificationTimeUnderflows()
    ensures IsCacheValidAsWritten(map[["c"] := File([], 101, true)], ["c"], 100, 1800) == None
    ensures !IsCacheValid(map[["c"] := File([], 101, true)], ["c"], 100, 1800)
  {
  }

  /** A file written at the current time is valid at once whenever the TTL is
      positive, and stops being valid once the TTL has elapsed; the check
      never alters the store. */
  lemma ValidityWindow(store: Store, path: Path, written: nat, clock: int, ttl: nat)
    requires path in store && store[path].mtime == written
    ensures ttl > 0 && clock == written ==> IsCacheValid(store, path, clock, ttl)
    ensures clock >= written + ttl ==> !IsCacheValid(store, path, clock, ttl)
  {
  }

  /** A cache valid at some time was valid at every earlier time since it was written. */
  lemma ValidityIsAnInterval(store: Store, path: Path, earlier: int, later: int, ttl: nat)
    requires IsCacheValid(store, path, later, ttl)
    requires store[path].mtime <= earlier <= later
    ensures IsCacheValid(store, path, earlier, ttl)
  {
  }

  /* ---------------- loading ---------------- */

  /** `load_projects` / `load_github_projects` on one cache path. */
  function LoadFrom(store: Store, path: Path, clock: int, ttl: nat, readContext: string, decodeContext: string)
    : (r: Result<Option<ProjectList>>)
    ensures r == Ok(None) <==> !IsCacheValid(store, path, clock, ttl)
    ensures r.Err? ==> (IsCacheValid(store, path, clock, ttl)
      && (!store[path].readable || Codec.Deserialize(store[path].data).None?))
    ensures r.Ok? && r.value.Some? ==> (IsCacheValid(store, path, clock, ttl) && store[path].readable
      && exists rest :: store[path].data == Codec.Serialize(r.value.value) + rest)
  {
    if !IsCacheValid(store, path, clock, ttl) then Ok(None)
    else if !store[path].readable then Err(readContext)
    else
      Codec.DeserializeSound(store[path].data);
      match Codec.Deserialize(store[path].data)
      case None => Err(decodeContext)
      case Some(l) => Ok(Some(l))
  }

  /** `load_projects`: nothing when the projects cache is not valid; a
      valid file that cannot be read or decoded is an error. */
  function LoadProjects(c: Cache, store: Store, clock: int): (r: Result<Option<ProjectList>>)
    ensures r == Ok(None) <==> !IsCacheValid(store, ProjectsCachePath(c), clock, c.ttlSeconds)
    ensures r.Err? ==> r.error in {"Failed to read cache file", "Failed to deserialize cache"}
    ensures r.Ok? && r.value.Some? ==>
      exists rest :: store[ProjectsCachePath(c)].data == Codec.Serialize(r.value.value) + rest
  {
    LoadFrom(store, ProjectsCachePath(c), clock, c.ttlSeconds,
      "Failed to read cache file", "Failed to deserialize cache")
  }

  /** `load_github_projects`: the same policy on the GitHub cache file. */
  function LoadGitHubProjects(c: Cache, store: Store, clock: int): (r: Result<Option<ProjectList>>)
    ensures r == Ok(None) <==> !IsCacheValid(store, GitHubCachePath(c), clock, c.ttlSeconds)
    ensures r.Err? ==> r.error in {"Failed to read GitHub cache", "Failed to deserialize GitHub cache"}
    ensures r.Ok? && r.value.Some? ==>
      exists rest :: store[GitHubCachePath(c)].data == Codec.Serialize(r.value.value) + rest
  {
    LoadFrom(store, GitHubCachePath(c), clock, c.ttlSeconds,
      "Failed to read GitHub cache", "Failed to deserialize GitHub cache")
  }

  /** A cache file holding a serialised list, stamped `written`, loads as that
      list for as long as it is valid. */
  lemma LoadOfWritten(store: Store, path: Path, l: ProjectList, written: nat, clock: int, ttl: nat,
                      readContext: string, decodeContext: string)
    requires path in store && store[path] == File(Codec.Serialize(l), written, true)
    requires written <= clock < written + ttl
    ensures LoadFrom(store, path, clock, ttl, readContext, decodeContext) == Ok(Some(l))
  {
    Codec.DeserializeOfSerialize(l);
  }

  /* ---------------- atomic write ---------------- */

  /** Where an attempt to write fails, if it does. `WriteFault(k)` leaves the
      first `k` cells written. After a failed rename the temporary file is
      removed, and `RenameFault(removed)` says whether that removal, whose
      outcome `atomic_write` discards, succeeded. */
  datatype Fault = NoFault | MkdirFault | CreateFault | WriteFault(written: nat) | SyncFault | RenameFault(removed: bool)

  /** The error an attempt that fails at `f` reports. */
  function FaultMessage(f: Fault): string {
    match f
    case NoFault => ""
    case MkdirFault => "Failed to create parent directory"
    case CreateFault => "Failed to create temporary file"
    case WriteFault(_) => "Failed to write to temporary file"
    case SyncFault => "Failed to sync temporary file"
    case RenameFault(_) => "Failed to rename"
  }

  /** `<file name or "cache">.tmp.<pid>.<nanoseconds>`. */
  function TempFileName(target: Path, pid: nat, nanos: nat): string {
    FileName(target).GetOr("cache") + ".tmp." + NatToString(pid) + "." + NatToString(nanos)
  }

  function TempPath(target: Path, pid: nat, nanos: nat): Path {
    WithFileName(target, TempFileName(target, pid, nanos))
  }

  /** The temporary file sits next to the target and is never the target itself. */
  lemma TempPathBesideTarget(target: Path, pid: nat, nanos: nat)
    ensures TempPath(target, pid, nanos) != target
    ensures FileName(target).Some? ==>
      var t := TempPath(target, pid, nanos);
      |t| == |target| && t[..|t| - 1] == target[..|target| - 1]
  {
    var t := TempPath(target, pid, nanos);
    var name := TempFileName(target, pid, nanos);
    if FileName(target).Some? {
      assert |name| > |target[|target| - 1]|;
      assert t[|t| - 1] != target[|target| - 1];
    }
  }

  lemma DigitsHaveNoDot(n: nat)
    ensures '.' !in NatToString(n)
  {
    var s := NatToString(n);
    forall i | 0 <= i < |s|
      ensures s[i] != '.'
    {
      assert IsDigit(s[i]);
    }
  }

  /** In `a + "." + b` with no dot in `a`, the first dot follows `a`. */
  lemma FirstDotAfter(a: string, b: string)
    requires '.' !in a
    ensures IndexOf(a + "." + b, '.') == |a|
  {
    var s := a + "." + b;
    assert s[|a|] == '.';
    assert forall k :: 0 <= k < |a| ==> s[k] == a[k];
  }

  lemma SplitAtDot(a: string, b: string, c: string, d: string)
    requires '.' !in a && '.' !in c
    requires a + "." + b == c + "." + d
    ensures a == c && b == d
  {
    var s := a + "." + b;
    FirstDotAfter(a, b);
    FirstDotAfter(c, d);
    assert |a| == |c|;
    assert a == s[..|a|] && c == (c + "." + d)[..|c|];
    assert b == s[|a| + 1..] && d == (c + "." + d)[|c| + 1..];
  }

  /** The temporary path names its writer: equal temporary paths for one
      target come from the same process id and the same clock reading, so
      concurrent writers never share a temporary file. */
  lemma TempPathInjective(target: Path, pid1: nat, nanos1: nat, pid2: nat, nanos2: nat)
    requires TempPath(target, pid1, nanos1) == TempPath(target, pid2, nanos2)
    ensures pid1 == pid2 && nanos1 == nanos2
  {
    var base := FileName(target).GetOr("cache") + ".tmp.";
    var p1, n1 := NatToString(pid1), NatToString(nanos1);
    var p2, n2 := NatToString(pid2), NatToString(nanos2);
    assert TempFileName(target, pid1, nanos1) == TempFileName(target, pid2, nanos2);
    assert TempFileName(target, pid1, nanos1) == base + (p1 + "." + n1);
    assert TempFileName(target, pid2, nanos2) == base + (p2 + "." + n2);
    assert p1 + "." + n1 == (base + (p1 + "." + n1))[|base|..];
    assert p2 + "." + n2 == (base + (p2 + "." + n2))[|base|..];
    DigitsHaveNoDot(pid1);
    DigitsHaveNoDot(pid2);
    SplitAtDot(p1, n1, p2, n2);
    NatToStringInjective(pid1, pid2);
    NatToStringInjective(nanos1, nanos2);
  }

  /** Every file outside `changed` is present in both stores or in neither,
      with the same contents. */
  predicate SameOutside(s1: Store, s2: Store, changed: set<Path>) {
    s1 - changed == s2 - changed
  }

  lemma SameOutsideMeans(s1: Store, s2: Store, changed: set<Path>, p: Path)
    requires SameOutside(s1, s2, changed) && p !in changed
    ensures (p in s1 <==> p in s2) && (p in s1 ==> s1[p] == s2[p])
  {
    assert p in s1 <==> p in s1 - changed;
    assert p in s2 <==> p in s2 - changed;
    if p in s1 {
      assert (s1 - changed)[p] == s1[p];
    }
    if p in s2 {
      assert (s2 - changed)[p] == s2[p];
    }
  }

  lemma SameOutsideTrans(s1: Store, s2: Store, s3: Store, c1: set<Path>, c2: set<Path>, c: set<Path>)
    requires SameOutside(s1, s2, c1) && SameOutside(s2, s3, c2)
    requires c1 + c2 <= c
    ensures SameOutside(s1, s3, c)
  {
    forall p | p !in c
      ensures (p in s1 <==> p in s3) && (p in s1 ==> s1[p] == s3[p])
    {
      SameOutsideMeans(s1, s2, c1, p);
      SameOutsideMeans(s2, s3, c2, p);
    }
    assert s1 - c == s3 - c;
  }

  /** `atomic_write`: create the parent directory, write the data to the
      temporary file and sync it, then rename it over the target in one step.
      A failed rename removes the temporary file; an earlier failure leaves
      whatever the temporary file holds by then. */
  function AtomicWrite(store: Store, target: Path, data: Codec.Cells, pid: nat, nanos: nat, secs: int, fault: Fault)
    : (result: (Store, Result<()>))
    ensures result.1.Ok? <==> fault == NoFault
    ensures result.1.Err? ==> result.1.error == FaultMessage(fault)
    ensures result.1.Ok? ==>
      result.0 == (store - {TempPath(target, pid, nanos)})[target := File(data, secs, true)]
    ensures result.1.Err? ==> SameOutside(result.0, store, {TempPath(target, pid, nanos)})
    ensures fault == RenameFault(true) ==> TempPath(target, pid, nanos) !in result.0
    ensures fault == RenameFault(false) ==>
      TempPath(target, pid, nanos) in result.0 && result.0[TempPath(target, pid, nanos)].data == data
    ensures fault == SyncFault ==>
      TempPath(target, pid, nanos) in result.0 && result.0[TempPath(target, pid, nanos)].data == data
  {
    var temp := TempPath(target, pid, nanos);
    match fault
    case MkdirFault => (store, Err(FaultMessage(fault)))
    case CreateFault => (store, Err(FaultMessage(fault)))
    case WriteFault(k) =>
      var n := if k < |data| then k else |data|;
      (store[temp := File(data[..n], secs, true)], Err(FaultMessage(fault)))
    case SyncFault => (store[temp := File(data, secs, true)], Err(FaultMessage(fault)))
    case RenameFault(removed) =>
      (if removed then store - {temp} else store[temp := File(data, secs, true)], Err(FaultMessage(fault)))
    case NoFault => ((store - {temp})[target := File(data, secs, true)], Ok(()))
  }

  /** A failed attempt never touches the target. */
  lemma FailedWriteKeepsTarget(store: Store, target: Path, data: Codec.Cells, pid: nat, nanos: nat, secs: int, fault: Fault)
    requires fault != NoFault
    ensures var s := AtomicWrite(store, target, data, pid, nanos, secs, fault).0;
      (target in s <==> target in store) && (target in store ==> s[target] == store[target])
  {
    TempPathBesideTarget(target, pid, nanos);
  }

  /** A successful write leaves the target holding the data and no temporary file. */
  lemma SuccessfulWrite(store: Store, target: Path, data: Codec.Cells, pid: nat, nanos: nat, secs: int)
    ensures var s := AtomicWrite(store, target, data, pid, nanos, secs, NoFault).0;
      && target in s && s[target] == File(data, secs, true)
      && TempPath(target, pid, nanos) !in s
      && SameOutside(s, store, {target, TempPath(target, pid, nanos)})
  {
    TempPathBesideTarget(target, pid, nanos);
  }

  /* ---------------- saving with retry ---------------- */

  /** What the environment does on one attempt: the clock reading (in
      nanoseconds for the temporary name and whole seconds for the file time)
      and where the attempt fails. */
  datatype Attempt = Attempt(nanos: nat, secs: int, fault: Fault)

  const MaxAttempts: nat := 3

  /** The pause after failed attempt `k` (counting from 0): `1 << k` milliseconds. */
  function BackoffMs(k: nat): nat {
    if k == 0 then 1 else 2 * BackoffMs(k - 1)
  }

  /** The attempt at which the retry loop stops with success, if any of the
      three succeeds: the first one without a fault. */
  function SuccessfulAttempt(attempt: nat -> Attempt): (k: Option<nat>)
    ensures k.Some? ==> k.value < MaxAttempts && attempt(k.value).fault == NoFault
    ensures k.Some? ==> forall i :: 0 <= i < k.value ==> attempt(i).fault != NoFault
    ensures k.None? <==> forall i :: 0 <= i < MaxAttempts ==> attempt(i).fault != NoFault
  {
    if attempt(0).fault == NoFault then Some(0)
    else if attempt(1).fault == NoFault then Some(1)
    else if attempt(2).fault == NoFault then Some(2)
    else None
  }

  /** A run of the retry loop succeeds exactly when one of the three attempts
      does, and then it stops at the first such attempt. */
  lemma RetryStopsAtFirstSuccess(attempt: nat -> Attempt, tries: nat, ok: bool)
    requires 1 <= tries <= MaxAttempts
    requires forall i :: 0 <= i < tries - 1 ==> attempt(i).fault != NoFault
    requires ok <==> attempt(tries - 1).fault == NoFault
    requires !ok ==> tries == MaxAttempts
    ensures ok <==> SuccessfulAttempt(attempt).Some?
    ensures ok ==> SuccessfulAttempt(attempt).value == tries - 1
  {
  }

  /** The target together with the temporary paths of the first `n` attempts:
      everything a run of `n` attempts may touch. */
  function Touched(target: Path, pid: nat, attempt: nat -> Attempt, n: nat): set<Path> {
    if n == 0 then {target} else Touched(target, pid, attempt, n - 1) + {TempPath(target, pid, attempt(n - 1).nanos)}
  }

  /** The target is always among the touched paths. */
  lemma {:induction false} TouchedHasTarget(target: Path, pid: nat, attempt: nat -> Attempt, n: nat)
    ensures target in Touched(target, pid, attempt, n)
  {
    if n > 0 {
      TouchedHasTarget(target, pid, attempt, n - 1);
    }
  }

  /** One more attempt extends the frame by that attempt's temporary path. */
  lemma TouchedStep(s2: Store, s1: Store, s0: Store, target: Path, pid: nat, attempt: nat -> Attempt, n: nat)
    requires SameOutside(s2, s1, {target, TempPath(target, pid, attempt(n).nanos)})
    requires SameOutside(s1, s0, Touched(target, pid, attempt, n))
    ensures SameOutside(s2, s0, Touched(target, pid, attempt, n + 1))
  {
    TouchedHasTarget(target, pid, attempt, n);
    SameOutsideTrans(s2, s1, s0, {target, TempPath(target, pid, attempt(n).nanos)},
      Touched(target, pid, attempt, n), Touched(target, pid, attempt, n + 1));
  }

  /** One attempt of the retry loop, summarised for the loop's proof. */
  method WriteOnce(store: Store, target: Path, data: Codec.Cells, pid: nat, a: Attempt)
    returns (s: Store, res: Result<()>)
    ensures res.Ok? <==> a.fault == NoFault
    ensures res.Err? ==> res.error == FaultMessage(a.fault)
    ensures res.Ok? ==> target in s && s[target] == File(data, a.secs, true)
    ensures res.Err? ==> (target in s <==> target in store) && (target in store ==> s[target] == store[target])
    ensures SameOutside(s, store, {target, TempPath(target, pid, a.nanos)})
  {
    s, res := AtomicWrite(store, target, data, pid, a.nanos, a.secs, a.fault).0,
              AtomicWrite(store, target, data, pid, a.nanos, a.secs, a.fault).1;
    if res.Ok? {
      SuccessfulWrite(store, target, data, pid, a.nanos, a.secs);
    } else {
      FailedWriteKeepsTarget(store, target, data, pid, a.nanos, a.secs, a.fault);
    }
  }

  /** The common loop of `save_projects` and `save_github_projects`: up to
      three atomic writes, stopping at the first success, sleeping 1 ms and
      then 2 ms between attempts, and reporting the last error with
      `context`. */
  method SaveWithRetry(store: Store, target: Path, data: Codec.Cells, pid: nat, attempt: nat -> Attempt, context: string)
    returns (store': Store, r: Result<()>, tries: nat, backoffs: seq<nat>)
    ensures 1 <= tries <= MaxAttempts
    ensures forall i :: 0 <= i < tries - 1 ==> attempt(i).fault != NoFault
    ensures r.Ok? <==> attempt(tries - 1).fault == NoFault
    ensures r.Err? ==> tries == MaxAttempts
    ensures |backoffs| == tries - 1 && forall k :: 0 <= k < |backoffs| ==> backoffs[k] == BackoffMs(k)
    ensures r.Ok? ==> target in store' && store'[target] == File(data, attempt(tries - 1).secs, true)
    ensures r.Err? ==> (target in store' <==> target in store) && (target in store ==> store'[target] == store[target])
    ensures r.Err? ==> r.error == WithContext(context, FaultMessage(attempt(MaxAttempts - 1).fault))
    ensures SameOutside(store', store, Touched(target, pid, attempt, tries))
  {
    store' := store;
    tries := 0;
    backoffs := [];
    r := Err("");
    while tries < MaxAttempts && r.Err?
      invariant 0 <= tries <= MaxAttempts
      invariant tries == 0 ==> r.Err?
      invariant forall i :: 0 <= i < tries - 1 ==> attempt(i).fault != NoFault
      invariant tries > 0 ==> (r.Ok? <==> attempt(tries - 1).fault == NoFault)
      invariant tries > 0 && r.Err? ==> r.error == FaultMessage(attempt(tries - 1).fault)
      invariant r.Ok? ==> target in store' && store'[target] == File(data, attempt(tries - 1).secs, true)
      invariant |backoffs| == (if tries < MaxAttempts && r.Err? then tries else tries - 1)
      invariant forall k :: 0 <= k < |backoffs| ==> backoffs[k] == BackoffMs(k)
      invariant r.Err? ==> (target in store' <==> target in store) && (target in store ==> store'[target] == store[target])
      invariant SameOutside(store', store, Touched(target, pid, attempt, tries))
    {
      var a := attempt(tries);
      var before := store';
      store', r := WriteOnce(before, target, data, pid, a);
      TouchedStep(store', before, store, target, pid, attempt, tries);
      tries := tries + 1;
      if r.Err? && tries < MaxAttempts {
        backoffs := backoffs + [BackoffMs(tries - 1)];
      }
    }
    if r.Err? {
      r := Err(WithContext(context, r.error));
    }
  }

  /** `save_projects`. On success the cache file holds the serialised list,
      and loading it while it is valid gives the same list back in the same
      order. */
  method SaveProjects(c: Cache, store: Store, l: ProjectList, pid: nat, attempt: nat -> Attempt)
    returns (store': Store, r: Result<()>, tries: nat, backoffs: seq<nat>)
    ensures 1 <= tries <= MaxAttempts && |backoffs| == tries - 1 && forall k :: 0 <= k < |backoffs| ==> backoffs[k] == BackoffMs(k)
    ensures r.Ok? <==> attempt(tries - 1).fault == NoFault
    ensures r.Ok? <==> SuccessfulAttempt(attempt).Some?
    ensures r.Ok? ==> tries - 1 == SuccessfulAttempt(attempt).value
    ensures r.Ok? ==> ProjectsCachePath(c) in store' && store'[ProjectsCachePath(c)].mtime == attempt(tries - 1).secs
    ensures r.Ok? ==> forall clock ::
      (0 <= attempt(tries - 1).secs <= clock < attempt(tries - 1).secs + c.ttlSeconds) ==>
        LoadProjects(c, store', clock) == Ok(Some(l))
    ensures r.Err? ==> (tries == MaxAttempts
      && (ProjectsCachePath(c) in store' <==> ProjectsCachePath(c) in store)
      && (ProjectsCachePath(c) in store ==> store'[ProjectsCachePath(c)] == store[ProjectsCachePath(c)]))
  {
    store', r, tries, backoffs := SaveWithRetry(store, ProjectsCachePath(c), Codec.Serialize(l), pid, attempt,
      "Failed to write cache file after 3 attempts");
    RetryStopsAtFirstSuccess(attempt, tries, r.Ok?);
    if r.Ok? {
      var secs := attempt(tries - 1).secs;
      forall clock | 0 <= secs <= clock < secs + c.ttlSeconds
        ensures LoadProjects(c, store', clock) == Ok(Some(l))
      {
        LoadOfWritten(store', ProjectsCachePath(c), l, secs, clock, c.ttlSeconds,
          "Failed to read cache file", "Failed to deserialize cache");
      }
    }
  }

  /** `save_github_projects`: the same loop on the GitHub cache file. */
  method SaveGitHubProjects(c: Cache, store: Store, l: ProjectList, pid: nat, attempt: nat -> Attempt)
    returns (store': Store, r: Result<()>, tries: nat, backoffs: seq<nat>)
    ensures 1 <= tries <= MaxAttempts && |backoffs| == tries - 1 && forall k :: 0 <= k < |backoffs| ==> backoffs[k] == BackoffMs(k)
    ensures r.Ok? <==> attempt(tries - 1).fault == NoFault
    ensures r.Ok? ==> forall clock ::
      (0 <= attempt(tries - 1).secs <= clock < attempt(tries - 1).secs + c.ttlSeconds) ==>
        LoadGitHubProjects(c, store', clock) == Ok(Some(l))
  {
    store', r, tries, backoffs := SaveWithRetry(store, GitHubCachePath(c), Codec.Serialize(l), pid, attempt,
      "Failed to write GitHub cache file after 3 attempts");
    if r.Ok? {
      var secs := attempt(tries - 1).secs;
      forall clock | 0 <= secs <= clock < secs + c.ttlSeconds
        ensures LoadGitHubProjects(c, store', clock) == Ok(Some(l))
      {
        LoadOfWritten(store', GitHubCachePath(c), l, secs, clock, c.ttlSeconds,
          "Failed to read GitHub cache", "Failed to deserialize GitHub cache");
      }
    }
  }

  /* ---------------- invalidation ---------------- */

  /** Remove one file if it exists; `denied` holds the files whose removal fails. */
  function RemoveIfExists(store: Store, path: Path, denied: set<Path>): (Store, Result<()>) {
    if path !in store then (store, Ok(()))
    else if path in denied then (store, Err("Failed to remove cache file"))
    else (store - {path}, Ok(()))
  }

  /** `invalidate_all`: remove the projects cache, then the GitHub cache,
      stopping at the first removal that fails. */
  function InvalidateAll(c: Cache, store: Store, denied: set<Path>): (result: (Store, Result<()>))
    ensures var (s, r) := result; var p, g := ProjectsCachePath(c), GitHubCachePath(c);
      && (r.Ok? <==> !(p in store && p in denied) && !(g in store && g in denied))
      && (r.Ok? ==> p !in s && g !in s)
      && (forall q :: q != p && q != g ==> (q in s <==> q in store) && (q in s ==> s[q] == store[q]))
  {
    var (s1, r1) := RemoveIfExists(store, ProjectsCachePath(c), denied);
    if r1.Err? then (s1, r1)
    else RemoveIfExists(s1, GitHubCachePath(c), denied)
  }

  /** Invalidating an already empty cache succeeds and changes nothing. */
  lemma InvalidateAllWhenAbsent(c: Cache, store: Store, denied: set<Path>)
    requires ProjectsCachePath(c) !in store && GitHubCachePath(c) !in store
    ensures InvalidateAll(c, store, denied) == (store, Ok(()))
  {
  }

  /** After invalidation neither cache loads, whatever the clock says. */
  lemma LoadAfterInvalidate(c: Cache, store: Store, denied: set<Path>, clock: int)
    requires InvalidateAll(c, store, denied).1.Ok?
    ensures LoadProjects(c, InvalidateAll(c, store, denied).0, clock) == Ok(None)
    ensures LoadGitHubProjects(c, InvalidateAll(c, store, denied).0, clock) == Ok(None)
  {
  }
}

=== FILE: cli.dfy ===
/** The command line of `sw` (`main.rs`): which mode a parsed command line
    selects, and the start-up steps before the mode runs. */
module CommandLine {
  import opened Wrappers
  import opened Paths
  import Configuration

  datatype Shell = Bash | Elvish | Fish | PowerShell | Zsh

  /** The subcommands. */
  datatype Command = SetupCmd | ListCmd | RefreshCmd | ConfigCmd | CompletionsCmd(shell: Shell)

  /** A parsed command line. */
  datatype Cli = Cli(
    projectName: Option<string>,
    interactive: bool,
    list: bool,
    fzf: bool,
    refresh: bool,
    verbose: bool,
    command: Option<Command>)

  datatype OperationMode =
    | Direct(name: string)
    | Interactive
    | List
    | Fzf
    | Setup
    | Refresh
    | ShowConfig
    | Completions(shell: Shell)

  /** The parser's `conflicts_with_all` rules: `--interactive`, `--list` and
      `--fzf` exclude one another pairwise. */
  predicate FlagsCompatible(cli: Cli) {
    && !(cli.interactive && cli.list)
    && !(cli.interactive && cli.fzf)
    && !(cli.list && cli.fzf)
  }

  function Count(b: bool): nat {
    if b then 1 else 0
  }

  /** The pairwise exclusions say that at most one mode flag is set. */
  lemma FlagsCompatibleMeansAtMostOne(cli: Cli)
    ensures FlagsCompatible(cli) <==> Count(cli.interactive) + Count(cli.list) + Count(cli.fzf) <= 1
  {
  }

  /** `Cli::operation_mode`: a project name wins, then the subcommand, then
      `--list`, then `--fzf`; everything else is the interactive picker. */
  function OperationModeOf(cli: Cli): (m: OperationMode)
    ensures cli.projectName.Some? ==> m == Direct(cli.projectName.value)
    ensures m.Direct? <==> cli.projectName.Some?
    ensures cli.projectName.None? && cli.command == Some(SetupCmd) ==> m == Setup
    ensures cli.projectName.None? && cli.command == Some(ListCmd) ==> m == List
    ensures cli.projectName.None? && cli.command == Some(RefreshCmd) ==> m == Refresh
    ensures cli.projectName.None? && cli.command == Some(ConfigCmd) ==> m == ShowConfig
    ensures cli.projectName.None? && cli.command.Some? && cli.command.value.CompletionsCmd? ==>
      m == Completions(cli.command.value.shell)
    ensures cli.projectName.None? && cli.command.None? ==>
      (m == List <==> cli.list) && (m == Fzf <==> !cli.list && cli.fzf) && (m == Interactive <==> !cli.list && !cli.fzf)
  {
    if cli.projectName.Some? then Direct(cli.projectName.value)
    else
      match cli.command
      case Some(SetupCmd) => Setup
      case Some(ListCmd) => List
      case Some(RefreshCmd) => Refresh
      case Some(ConfigCmd) => ShowConfig
      case Some(CompletionsCmd(shell)) => Completions(shell)
      case None =>
        if cli.list then List
        else if cli.fzf then Fzf
        else Interactive
  }

  /** `--interactive` never changes the mode: it is the default anyway. */
  lemma InteractiveFlagIrrelevant(cli: Cli, b: bool)
    ensures OperationModeOf(cli.(interactive := b)) == OperationModeOf(cli)
  {
  }

  /** `--refresh` never changes the mode: nothing reads the flag. */
  lemma RefreshFlagIrrelevant(cli: Cli, b: bool)
    ensures OperationModeOf(cli.(refresh := b)) == OperationModeOf(cli)
  {
  }

  /** A subcommand decides the mode on its own, whatever the flags say:
      each selects the mode of the same name, so different subcommands
      select different modes. */
  lemma SubcommandDecides(cli: Cli, other: Cli)
    requires cli.projectName.None? && other.projectName.None?
    requires cli.command.Some? && other.command.Some?
    ensures match cli.command.value
      case SetupCmd => OperationModeOf(cli) == Setup
      case ListCmd => OperationModeOf(cli) == List
      case RefreshCmd => OperationModeOf(cli) == Refresh
      case ConfigCmd => OperationModeOf(cli) == ShowConfig
      case CompletionsCmd(shell) => OperationModeOf(cli) == Completions(shell)
    ensures cli.command == other.command ==> OperationModeOf(cli) == OperationModeOf(other)
    ensures cli.command != other.command ==> OperationModeOf(cli) != OperationModeOf(other)
    ensures !OperationModeOf(cli).Interactive? && !OperationModeOf(cli).Fzf?
  {
  }

  /** A list subcommand and the `--list` flag mean the same thing. */
  lemma ListSubcommandIsListFlag(cli: Cli)
    requires cli.projectName.None?
    ensures OperationModeOf(cli.(command := Some(ListCmd))) == OperationModeOf(cli.(command := None, list := true))
  {
  }

  /* ---------------- start-up ---------------- */

  /** Whether `main` offers the GitHub set-up prompt: only on the first run,
      only without a configured GitHub user, and only for the two pickers. */
  predicate PromptsGitHubSetup(firstTime: Result<bool>, config: Configuration.Config, mode: OperationMode) {
    && firstTime == Ok(true)
    && Configuration.ShouldPromptGitHubSetup(config)
    && (mode == Interactive || mode == Fzf)
  }

  /** Whether `main` prints the set-up tip instead: first run, no GitHub
      user, a list or show-config run, verbose output. */
  predicate ShowsSetupTip(cli: Cli, firstTime: Result<bool>, config: Configuration.Config) {
    && firstTime == Ok(true)
    && Configuration.ShouldPromptGitHubSetup(config)
    && (OperationModeOf(cli) == List || OperationModeOf(cli) == ShowConfig)
    && cli.verbose
  }

  /** What `main` has done by the time it dispatches: the configuration it
      asked to save (if any), whether it printed the tip, and the mode and
      configuration it dispatches with, or the error it stops with. */
  datatype Startup = Startup(
    saved: Option<Configuration.Config>,
    tip: bool,
    result: Result<(OperationMode, Configuration.Config)>)

  /** `main` up to the dispatch. `loaded` is the outcome of `Config::load`,
      `firstTime` that of `is_first_time_run`, `prompt` that of the GitHub
      set-up prompt, and `pathExists` what the validation looks up. */
  function Start(cli: Cli, loaded: Result<Configuration.Config>, firstTime: Result<bool>,
    prompt: Result<Option<string>>, pathExists: Path -> bool): (s: Startup)
    ensures loaded.Err? ==> s == Startup(None, false, Err(loaded.error))
    ensures s.saved.Some? <==> (loaded.Ok? && PromptsGitHubSetup(firstTime, loaded.value, OperationModeOf(cli))
      && prompt.Ok? && prompt.value.Some?)
    ensures s.saved.Some? ==> s.saved.value == loaded.value.(githubUsername := prompt.value)
    ensures s.tip <==> loaded.Ok? && ShowsSetupTip(cli, firstTime, loaded.value)
    ensures s.result.Ok? <==> loaded.Ok? && Configuration.Validate(loaded.value, pathExists).1.Ok?
    ensures s.result.Ok? ==> s.result.value == (OperationModeOf(cli), loaded.value)
  {
    match loaded
    case Err(e) => Startup(None, false, Err(e))
    case Ok(config) =>
      var first := firstTime == Ok(true);
      var mode := OperationModeOf(cli);
      var saved :=
        if first && Configuration.ShouldPromptGitHubSetup(config) && (mode == Interactive || mode == Fzf)
           && prompt.Ok? && prompt.value.Some?
        then Some(config.(githubUsername := prompt.value))
        else None;
      var tip := first && Configuration.ShouldPromptGitHubSetup(config) && (mode == List || mode == ShowConfig) && cli.verbose;
      var valid := Configuration.Validate(config, pathExists).1;
      Startup(saved, tip, if valid.Err? then Err(valid.error) else Ok((mode, config)))
  }

  /** The user name entered at the prompt is saved for later runs, but this
      run dispatches with the configuration as loaded; and a run that fails
      validation has already saved it. */
  lemma PromptTakesEffectNextRun(cli: Cli, config: Configuration.Config, prompt: string, pathExists: Path -> bool)
    requires config.githubUsername.None?
    requires OperationModeOf(cli) == Interactive
    ensures var s := Start(cli, Ok(config), Ok(true), Ok(Some(prompt)), pathExists);
      && s.saved == Some(config.(githubUsername := Some(prompt)))
      && (s.result.Ok? ==> s.result.value.1.githubUsername.None?)
  {
  }

  /** With a GitHub user configured, or on any run after the first, nothing is prompted for. */
  lemma NoPromptOnceConfigured(cli: Cli, config: Configuration.Config, firstTime: Result<bool>,
    prompt: Result<Option<string>>, pathExists: Path -> bool)
    requires config.githubUsername.Some? || firstTime != Ok(true)
    ensures Start(cli, Ok(config), firstTime, prompt, pathExists).saved.None?
    ensures !Start(cli, Ok(config), firstTime, prompt, pathExists).tip
  {
  }
}

=== FILE: codec.dfy ===
/** The binary form of a project list in the cache files. The byte layout of
    the serialisation library is replaced by a sequence of natural-number
    cells with the same structure: a length before every string and list, a
    tag before every optional value and every enum, the fields of a project
    in declaration order. Decoding reads one value from the front and hands
    back the cells that follow it. */
module Codec {
  import opened Wrappers
  import opened Paths
  import opened Models
  import Seqs

  type Cells = seq<nat>

  /** A number that names a Unicode scalar value, i.e. a Rust `char`. */
  predicate IsScalar(n: nat) {
    n < 0xD800 || 0xE000 <= n < 0x11_0000
  }

  /* ---------------- strings ---------------- */

  function EncodeChars(s: string): Cells {
    if |s| == 0 then [] else [s[0] as nat] + EncodeChars(s[1..])
  }

  function DecodeChars(c: Cells, n: nat): Option<(string, Cells)>
    decreases n
  {
    if n == 0 then Some(("", c))
    else if |c| == 0 || !IsScalar(c[0]) then None
    else
      var t :- DecodeChars(c[1..], n - 1);
      Some(([c[0] as char] + t.0, t.1))
  }

  function EncodeString(s: string): Cells {
    [|s|] + EncodeChars(s)
  }

  function DecodeString(c: Cells): Option<(string, Cells)> {
    if |c| == 0 then None else DecodeChars(c[1..], c[0])
  }

  lemma {:induction false} DecodeCharsOfEncode(s: string, rest: Cells)
    ensures DecodeChars(EncodeChars(s) + rest, |s|) == Some((s, rest))
  {
    if |s| > 0 {
      DecodeCharsOfEncode(s[1..], rest);
      var c := EncodeChars(s) + rest;
      assert c[0] == s[0] as nat && c[1..] == EncodeChars(s[1..]) + rest;
      assert [c[0] as char] + s[1..] == s;
    } else {
      assert EncodeChars(s) + rest == rest;
    }
  }

  lemma {:induction false} DecodeCharsSound(c: Cells, n: nat)
    ensures DecodeChars(c, n).Some? ==>
      |DecodeChars(c, n).value.0| == n
      && c == EncodeChars(DecodeChars(c, n).value.0) + DecodeChars(c, n).value.1
  {
    if n > 0 && |c| > 0 && IsScalar(c[0]) {
      DecodeCharsSound(c[1..], n - 1);
      if DecodeChars(c[1..], n - 1).Some? {
        var t := DecodeChars(c[1..], n - 1).value;
        var s := [c[0] as char] + t.0;
        assert s[1..] == t.0;
        assert c == [c[0]] + c[1..];
      }
    }
  }

  /** A string survives a round trip through the cells, whatever follows it. */
  lemma DecodeStringOfEncode(s: string, rest: Cells)
    ensures DecodeString(EncodeString(s) + rest) == Some((s, rest))
  {
    DecodeCharsOfEncode(s, rest);
    assert (EncodeString(s) + rest)[1..] == EncodeChars(s) + rest;
  }

  /** Whatever the string decoder accepts is the encoding of what it returns. */
  lemma DecodeStringSound(c: Cells)
    ensures DecodeString(c).Some? ==>
      c == EncodeString(DecodeString(c).value.0) + DecodeString(c).value.1
  {
    if |c| > 0 {
      DecodeCharsSound(c[1..], c[0]);
      assert c == [c[0]] + c[1..];
    }
  }

  /* ---------------- integers and optional values ---------------- */

  /** A signed integer as a sign cell and a magnitude; zero is never negative. */
  function EncodeInt(i: int): Cells {
    if i >= 0 then [0, i] else [1, -i]
  }

  function DecodeInt(c: Cells): Option<(int, Cells)> {
    if |c| < 2 then None
    else if c[0] == 0 then Some((c[1], c[2..]))
    else if c[0] == 1 && c[1] > 0 then
      var i: int := -(c[1] as int);
      Some((i, c[2..]))
    else None
  }

  lemma DecodeIntOfEncode(i: int, rest: Cells)
    ensures DecodeInt(EncodeInt(i) + rest) == Some((i, rest))
  {
    assert (EncodeInt(i) + rest)[2..] == rest;
  }

  lemma DecodeIntSound(c: Cells)
    ensures DecodeInt(c).Some? ==> c == EncodeInt(DecodeInt(c).value.0) + DecodeInt(c).value.1
  {
    if DecodeInt(c).Some? {
      assert c == c[..2] + c[2..];
    }
  }

  function EncodeOptInt(o: Option<int>): Cells {
    match o
    case None => [0]
    case Some(i) => [1] + EncodeInt(i)
  }

  function DecodeOptInt(c: Cells): Option<(Option<int>, Cells)> {
    if |c| == 0 then None
    else if c[0] == 0 then Some((None, c[1..]))
    else if c[0] == 1 then
      var t :- DecodeInt(c[1..]);
      Some((Some(t.0), t.1))
    else None
  }

  lemma DecodeOptIntOfEncode(o: Option<int>, rest: Cells)
    ensures DecodeOptInt(EncodeOptInt(o) + rest) == Some((o, rest))
  {
    var c := EncodeOptInt(o) + rest;
    if o.Some? {
      assert c[1..] == EncodeInt(o.value) + rest;
      DecodeIntOfEncode(o.value, rest);
    } else {
      assert c[1..] == rest;
    }
  }

  lemma DecodeOptIntSound(c: Cells)
    ensures DecodeOptInt(c).Some? ==> c == EncodeOptInt(DecodeOptInt(c).value.0) + DecodeOptInt(c).value.1
  {
    if |c| > 0 {
      assert c == [c[0]] + c[1..];
      DecodeIntSound(c[1..]);
    }
  }

  function EncodeOptString(o: Option<string>): Cells {
    match o
    case None => [0]
    case Some(s) => [1] + EncodeString(s)
  }

  function DecodeOptString(c: Cells): Option<(Option<string>, Cells)> {
    if |c| == 0 then None
    else if c[0] == 0 then Some((None, c[1..]))
    else if c[0] == 1 then
      var t :- DecodeString(c[1..]);
      Some((Some(t.0), t.1))
    else None
  }

  lemma DecodeOptStringOfEncode(o: Option<string>, rest: Cells)
    ensures DecodeOptString(EncodeOptString(o) + rest) == Some((o, rest))
  {
    var c := EncodeOptString(o) + rest;
    if o.Some? {
      assert c[1..] == EncodeString(o.value) + rest;
      DecodeStringOfEncode(o.value, rest);
    } else {
      assert c[1..] == rest;
    }
  }

  lemma DecodeOptStringSound(c: Cells)
    ensures DecodeOptString(c).Some? ==>
      c == EncodeOptString(DecodeOptString(c).value.0) + DecodeOptString(c).value.1
  {
    if |c| > 0 {
      assert c == [c[0]] + c[1..];
      DecodeStringSound(c[1..]);
    }
  }

  /* ---------------- paths and sources ---------------- */

  function EncodeStrings(ss: seq<string>): Cells {
    if |ss| == 0 then [] else EncodeString(ss[0]) + EncodeStrings(ss[1..])
  }

  function DecodeStrings(c: Cells, n: nat): Option<(seq<string>, Cells)>
    decreases n
  {
    if n == 0 then Some(([], c))
    else
      var h :- DecodeString(c);
      var t :- DecodeStrings(h.1, n - 1);
      Some(([h.0] + t.0, t.1))
  }

  lemma {:induction false} DecodeStringsOfEncode(ss: seq<string>, rest: Cells)
    ensures DecodeStrings(EncodeStrings(ss) + rest, |ss|) == Some((ss, rest))
  {
    if |ss| > 0 {
      var tail := EncodeStrings(ss[1..]) + rest;
      var c := EncodeStrings(ss) + rest;
      assert c == EncodeString(ss[0]) + tail;
      DecodeStringOfEncode(ss[0], tail);
      DecodeStringsOfEncode(ss[1..], rest);
      assert DecodeStrings(tail, |ss| - 1) == Some((ss[1..], rest));
      assert [ss[0]] + ss[1..] == ss;
      assert DecodeStrings(c, |ss|) == Some(([ss[0]] + ss[1..], rest));
    } else {
      assert EncodeStrings(ss) + rest == rest;
    }
  }

  lemma {:induction false} DecodeStringsSound(c: Cells, n: nat)
    ensures DecodeStrings(c, n).Some? ==>
      |DecodeStrings(c, n).value.0| == n
      && c == EncodeStrings(DecodeStrings(c, n).value.0) + DecodeStrings(c, n).value.1
    decreases n
  {
    if n > 0 && DecodeString(c).Some? {
      var h := DecodeString(c).value;
      DecodeStringSound(c);
      DecodeStringsSound(h.1, n - 1);
      if DecodeStrings(h.1, n - 1).Some? {
        var t := DecodeStrings(h.1, n - 1).value;
        var ss := [h.0] + t.0;
        assert ss[0] == h.0 && ss[1..] == t.0;
      }
    }
  }

  function EncodePath(p: Path): Cells {
    [|p|] + EncodeStrings(p)
  }

  function DecodePath(c: Cells): Option<(Path, Cells)> {
    if |c| == 0 then None else DecodeStrings(c[1..], c[0])
  }

  lemma DecodePathOfEncode(p: Path, rest: Cells)
    ensures DecodePath(EncodePath(p) + rest) == Some((p, rest))
  {
    assert (EncodePath(p) + rest)[1..] == EncodeStrings(p) + rest;
    DecodeStringsOfEncode(p, rest);
  }

  lemma DecodePathSound(c: Cells)
    ensures DecodePath(c).Some? ==> c == EncodePath(DecodePath(c).value.0) + DecodePath(c).value.1
  {
    if |c| > 0 {
      DecodeStringsSound(c[1..], c[0]);
      assert c == [c[0]] + c[1..];
    }
  }

  function SourceTag(s: Source): nat {
    match s
    case Local => 0
    case Cursor => 1
    case GitHub => 2
    case GitLab => 3
  }

  function SourceOfTag(n: nat): Option<Source> {
    if n == 0 then Some(Local)
    else if n == 1 then Some(Cursor)
    else if n == 2 then Some(GitHub)
    else if n == 3 then Some(GitLab)
    else None
  }

  /* ---------------- projects and lists ---------------- */

  /** Name, path and modification time: the first three fields. */
  function EncodeHead(p: Project): Cells {
    EncodeString(p.name) + (EncodePath(p.path) + EncodeOptInt(p.lastModified))
  }

  function DecodeHead(c: Cells): Option<((string, Path, Option<int>), Cells)> {
    var name :- DecodeString(c);
    var path :- DecodePath(name.1);
    var modified :- DecodeOptInt(path.1);
    Some(((name.0, path.0, modified.0), modified.1))
  }

  /** Source and the two URLs: the last three fields. */
  function EncodeTail(p: Project): Cells {
    [SourceTag(p.source)] + (EncodeOptString(p.githubUrl) + EncodeOptString(p.gitlabUrl))
  }

  function DecodeTail(c: Cells): Option<((Source, Option<string>, Option<string>), Cells)> {
    if |c| == 0 then None
    else
      var source :- SourceOfTag(c[0]);
      var github :- DecodeOptString(c[1..]);
      var gitlab :- DecodeOptString(github.1);
      Some(((source, github.0, gitlab.0), gitlab.1))
  }

  function EncodeProject(p: Project): Cells {
    EncodeHead(p) + EncodeTail(p)
  }

  function DecodeProject(c: Cells): Option<(Project, Cells)> {
    var h :- DecodeHead(c);
    var t :- DecodeTail(h.1);
    Some((Project(h.0.0, h.0.1, h.0.2, t.0.0, t.0.1, t.0.2), t.1))
  }

  lemma DecodeHeadOfEncode(p: Project, rest: Cells)
    ensures DecodeHead(EncodeHead(p) + rest) == Some(((p.name, p.path, p.lastModified), rest))
  {
    var r2 := EncodeOptInt(p.lastModified) + rest;
    var r1 := EncodePath(p.path) + r2;
    assert EncodeHead(p) + rest == EncodeString(p.name) + r1;
    DecodeStringOfEncode(p.name, r1);
    DecodePathOfEncode(p.path, r2);
    DecodeOptIntOfEncode(p.lastModified, rest);
  }

  lemma DecodeTailOfEncode(p: Project, rest: Cells)
    ensures DecodeTail(EncodeTail(p) + rest) == Some(((p.source, p.githubUrl, p.gitlabUrl), rest))
  {
    var r1 := EncodeOptString(p.gitlabUrl) + rest;
    var b := EncodeOptString(p.githubUrl) + r1;
    assert EncodeTail(p) + rest == [SourceTag(p.source)] + b;
    assert DecodeOptString(b) == Some((p.githubUrl, r1)) by {
      DecodeOptStringOfEncode(p.githubUrl, r1);
    }
    assert DecodeOptString(r1) == Some((p.gitlabUrl, rest)) by {
      DecodeOptStringOfEncode(p.gitlabUrl, rest);
    }
    assert ([SourceTag(p.source)] + b)[1..] == b;
  }

  lemma DecodeProjectOfEncode(p: Project, rest: Cells)
    ensures DecodeProject(EncodeProject(p) + rest) == Some((p, rest))
  {
    assert EncodeProject(p) + rest == EncodeHead(p) + (EncodeTail(p) + rest);
    DecodeHeadOfEncode(p, EncodeTail(p) + rest);
    DecodeTailOfEncode(p, rest);
  }

  lemma DecodeHeadSound(c: Cells)
    ensures DecodeHead(c).Some? ==>
      var h := DecodeHead(c).value;
      c == EncodeString(h.0.0) + (EncodePath(h.0.1) + (EncodeOptInt(h.0.2) + h.1))
  {
    if DecodeHead(c).Some? {
      var name := DecodeString(c).value;
      var path := DecodePath(name.1).value;
      DecodeStringSound(c);
      DecodePathSound(name.1);
      DecodeOptIntSound(path.1);
    }
  }

  lemma DecodeTailSound(c: Cells)
    ensures DecodeTail(c).Some? ==>
      var t := DecodeTail(c).value;
      c == [SourceTag(t.0.0)] + (EncodeOptString(t.0.1) + (EncodeOptString(t.0.2) + t.1))
  {
    if DecodeTail(c).Some? {
      var github := DecodeOptString(c[1..]).value;
      DecodeOptStringSound(c[1..]);
      DecodeOptStringSound(github.1);
      assert c == [c[0]] + c[1..];
    }
  }

  lemma DecodeProjectSound(c: Cells)
    ensures DecodeProject(c).Some? ==>
      c == EncodeProject(DecodeProject(c).value.0) + DecodeProject(c).value.1
  {
    if DecodeProject(c).Some? {
      var h, t := ProjectFields(c);
      var p := Project(h.0.0, h.0.1, h.0.2, t.0.0, t.0.1, t.0.2);
      assert c == EncodeHead(p) + h.1 by {
        DecodeHeadSound(c);
        Seqs.Associate3(EncodeString(p.name), EncodePath(p.path), EncodeOptInt(p.lastModified), h.1);
      }
      assert h.1 == EncodeTail(p) + t.1 by {
        DecodeTailSound(h.1);
        Seqs.Associate3([SourceTag(p.source)], EncodeOptString(p.githubUrl), EncodeOptString(p.gitlabUrl), t.1);
      }
      Seqs.Associate(EncodeHead(p), EncodeTail(p), t.1);
    }
  }

  /** The two halves a successful project parse goes through. */
  lemma ProjectFields(c: Cells) returns (h: ((string, Path, Option<int>), Cells), t: ((Source, Option<string>, Option<string>), Cells))
    requires DecodeProject(c).Some?
    ensures DecodeHead(c) == Some(h) && DecodeTail(h.1) == Some(t)
    ensures DecodeProject(c) == Some((Project(h.0.0, h.0.1, h.0.2, t.0.0, t.0.1, t.0.2), t.1))
  {
    h := DecodeHead(c).value;
    t := DecodeTail(h.1).value;
  }


  function EncodeProjects(l: seq<Project>): Cells {
    if |l| == 0 then [] else EncodeProject(l[0]) + EncodeProjects(l[1..])
  }

  function DecodeProjects(c: Cells, n: nat): Option<(seq<Project>, Cells)>
    decreases n
  {
    if n == 0 then Some(([], c))
    else
      var h :- DecodeProject(c);
      var t :- DecodeProjects(h.1, n - 1);
      Some(([h.0] + t.0, t.1))
  }

  lemma {:induction false} DecodeProjectsOfEncode(l: seq<Project>, rest: Cells)
    ensures DecodeProjects(EncodeProjects(l) + rest, |l|) == Some((l, rest))
  {
    if |l| > 0 {
      var tail := EncodeProjects(l[1..]) + rest;
      var c := EncodeProjects(l) + rest;
      assert DecodeProject(c) == Some((l[0], tail)) by {
        Seqs.Associate(EncodeProject(l[0]), EncodeProjects(l[1..]), rest);
        DecodeProjectOfEncode(l[0], tail);
      }
      assert DecodeProjects(tail, |l| - 1) == Some((l[1..], rest)) by {
        DecodeProjectsOfEncode(l[1..], rest);
      }
      assert [l[0]] + l[1..] == l;
    } else {
      assert EncodeProjects(l) + rest == rest;
    }
  }

  lemma DecodeProjectsSound(c: Cells, n: nat)
    ensures DecodeProjects(c, n).Some? ==>
      |DecodeProjects(c, n).value.0| == n
      && c == EncodeProjects(DecodeProjects(c, n).value.0) + DecodeProjects(c, n).value.1
  {
    if DecodeProjects(c, n).Some? {
      var r := DecodeProjects(c, n).value;
      ProjectsParsed(c, n, r.0, r.1);
    }
  }

  /** A parse of `n` projects that leaves `rest` read exactly the encoding of the projects. */
  lemma {:induction false} ProjectsParsed(c: Cells, n: nat, l: seq<Project>, rest: Cells)
    requires DecodeProjects(c, n) == Some((l, rest))
    ensures |l| == n && c == EncodeProjects(l) + rest
    decreases n
  {
    if n > 0 {
      var p, after, tl := ProjectsStep(c, n, l, rest);
      assert c == EncodeProject(p) + after by {
        DecodeProjectSound(c);
      }
      assert |tl| == n - 1 && after == EncodeProjects(tl) + rest by {
        ProjectsParsed(after, n - 1, tl, rest);
      }
      assert EncodeProjects(l) == EncodeProject(p) + EncodeProjects(tl) by {
        assert l[0] == p && l[1..] == tl;
      }
      Seqs.Associate(EncodeProject(p), EncodeProjects(tl), rest);
    }
  }

  /** One step of a successful list parse: a project, then the rest. */
  lemma ProjectsStep(c: Cells, n: nat, l: seq<Project>, rest: Cells) returns (p: Project, after: Cells, tl: seq<Project>)
    requires n > 0 && DecodeProjects(c, n) == Some((l, rest))
    ensures DecodeProject(c) == Some((p, after)) && DecodeProjects(after, n - 1) == Some((tl, rest))
    ensures l == [p] + tl
  {
    var h := DecodeProject(c).value;
    var t := DecodeProjects(h.1, n - 1).value;
    p, after, tl := h.0, h.1, t.0;
  }

  /** `serialize(projects)`: the count, then every project. */
  function Serialize(l: ProjectList): (c: Cells)
    ensures |c| > 0 && c[0] == |l|
  {
    [|l|] + EncodeProjects(l)
  }

  /** `deserialize`: read one project list from the front of the data. */
  function Deserialize(c: Cells): Option<ProjectList> {
    if |c| == 0 then None
    else
      var t :- DecodeProjects(c[1..], c[0]);
      Some(t.0)
  }

  /** Every project list is read back exactly as it was written. */
  lemma DeserializeOfSerialize(l: ProjectList)
    ensures Deserialize(Serialize(l)) == Some(l)
  {
    assert Serialize(l)[1..] == EncodeProjects(l) + [];
    DecodeProjectsOfEncode(l, []);
  }

  /** A list that is read back was written by `Serialize`: the cells start
      with its encoding. */
  lemma DeserializeSound(c: Cells)
    ensures Deserialize(c).Some? ==>
      exists rest :: c == Serialize(Deserialize(c).value) + rest
  {
    if Deserialize(c).Some? {
      var n, tail := c[0], c[1..];
      var t := DecodeProjects(tail, n).value;
      assert |t.0| == n && tail == EncodeProjects(t.0) + t.1 by {
        DecodeProjectsSound(tail, n);
      }
      assert c == [n] + tail;
      Seqs.Associate([n], EncodeProjects(t.0), t.1);
      assert c == Serialize(t.0) + t.1;
    }
  }

  /** Serialisation is injective: different lists give different data. */
  lemma SerializeInjective(a: ProjectList, b: ProjectList)
    requires Serialize(a) == Serialize(b)
    ensures a == b
  {
    DeserializeOfSerialize(a);
    DeserializeOfSerialize(b);
  }
}

=== FILE: config.dfy ===
/** The user configuration (`src/config.rs`): editor command, project
    directories, optional GitHub user name and cache lifetime; its defaults,
    validation, the directory list edits and the configuration file.
    Environment variables, installed programs and the file system are given
    to the model as an `Environment` value. */
module Configuration {
  import opened Wrappers
  import Text
  import opened Paths
  import Seqs
  import Codec

  datatype Config = Config(
    editorCommand: string,
    projectDirs: seq<Path>,
    githubUsername: Option<string>,
    cacheTtlSeconds: nat)

  const DefaultTtlSeconds: nat := 1800

  /** What the defaults look at: `$EDITOR`, `$VISUAL`, which programs are on
      the search path, the home directory, and which paths exist and which
      of those are directories. */
  datatype Environment = Environment(
    editorVar: Option<string>,
    visualVar: Option<string>,
    installed: string -> bool,
    home: Option<Path>,
    pathExists: Path -> bool,
    isDir: Path -> bool)

  /* ---------------- defaults ---------------- */

  const EditorCandidates: seq<string> := ["cursor", "code", "vim", "nvim", "nano"]
  const FallbackEditor: string := "vim"

  /** `detect_default_editor`: `$EDITOR`, else `$VISUAL`, else the first
      installed candidate, else "vim". */
  function DetectDefaultEditor(env: Environment): (r: string)
    ensures env.editorVar.Some? ==> r == env.editorVar.value
    ensures env.editorVar.None? && env.visualVar.Some? ==> r == env.visualVar.value
    ensures env.editorVar.None? && env.visualVar.None? ==>
      (exists i :: 0 <= i < |EditorCandidates| && r == EditorCandidates[i]
        && (env.installed(r) || (r == FallbackEditor && NoneInstalled(env)))
        && forall j :: 0 <= j < i ==> !env.installed(EditorCandidates[j]))
  {
    if env.editorVar.Some? then env.editorVar.value
    else if env.visualVar.Some? then env.visualVar.value
    else
      match Seqs.FirstIndex(EditorCandidates, env.installed)
      case Some(i) => EditorCandidates[i]
      case None =>
        assert EditorCandidates[2] == FallbackEditor;
        FallbackEditor
  }

  /** No candidate editor is on the search path. */
  predicate NoneInstalled(env: Environment) {
    forall j :: 0 <= j < |EditorCandidates| ==> !env.installed(EditorCandidates[j])
  }

  /** Without `$EDITOR` and `$VISUAL`, an installed candidate preceded by no
      installed candidate is the one chosen. */
  lemma FirstInstalledEditorChosen(env: Environment, i: nat)
    requires env.editorVar.None? && env.visualVar.None?
    requires i < |EditorCandidates| && env.installed(EditorCandidates[i])
    requires forall j :: 0 <= j < i ==> !env.installed(EditorCandidates[j])
    ensures DetectDefaultEditor(env) == EditorCandidates[i]
  {
    var r := DetectDefaultEditor(env);
    var i' :| 0 <= i' < |EditorCandidates| && r == EditorCandidates[i']
      && (env.installed(r) || (r == FallbackEditor && NoneInstalled(env)))
      && forall j :: 0 <= j < i' ==> !env.installed(EditorCandidates[j]);
    assert !NoneInstalled(env);
  }

  /** Without the two variables and with no candidate installed, the editor is vim. */
  lemma NoEditorInstalledMeansVim(env: Environment)
    requires env.editorVar.None? && env.visualVar.None? && NoneInstalled(env)
    ensures DetectDefaultEditor(env) == FallbackEditor
  {
    var r := DetectDefaultEditor(env);
    var i :| 0 <= i < |EditorCandidates| && r == EditorCandidates[i]
      && (env.installed(r) || (r == FallbackEditor && NoneInstalled(env)));
    assert !env.installed(EditorCandidates[i]);
  }

  /** Without `$EDITOR` and `$VISUAL` the default editor is a known, non-blank command. */
  lemma DefaultEditorNotBlank(env: Environment)
    requires env.editorVar.None? && env.visualVar.None?
    ensures !Text.IsBlank(DetectDefaultEditor(env))
  {
    var r := DetectDefaultEditor(env);
    var i :| 0 <= i < |EditorCandidates| && r == EditorCandidates[i];
    assert |r| > 0 && (r[0] == 'c' || r[0] == 'v' || r[0] == 'n') by {
      if i == 0 { assert r == "cursor"; }
      else if i == 1 { assert r == "code"; }
      else if i == 2 { assert r == "vim"; }
      else if i == 3 { assert r == "nvim"; }
      else { assert r == "nano"; }
    }
  }

  /** The directories looked for under the home directory, in order of preference. */
  const DirCandidates: seq<seq<string>> :=
    [["Code"], ["Projects"], ["Documents", "git"], ["src"], ["workspace"], ["Documents", "projects"]]
  /** The directories accepted when none of the above is an existing directory. */
  const FallbackDirCandidates: seq<seq<string>> := [["Code"], ["Projects"], ["Documents", "git"]]
  const LastResortDir: seq<string> := ["Documents", "git"]

  /** Every candidate under `home` that satisfies `ok`, in candidate order. */
  function Qualifying(home: Path, cands: seq<seq<string>>, ok: Path -> bool): (r: seq<Path>)
    ensures |r| <= |cands|
  {
    if |cands| == 0 then []
    else (if ok(Join(home, cands[0])) then [Join(home, cands[0])] else []) + Qualifying(home, cands[1..], ok)
  }

  /** A path strictly below `home`. */
  predicate UnderHome(home: Path, p: Path) {
    |p| > |home| && p[..|home|] == home
  }

  /** Every qualifying path satisfies `ok` and, for non-empty candidates, lies below `home`. */
  lemma {:induction false} QualifyingSound(home: Path, cands: seq<seq<string>>, ok: Path -> bool)
    requires forall k :: 0 <= k < |cands| ==> |cands[k]| > 0
    ensures forall p :: p in Qualifying(home, cands, ok) ==> ok(p) && UnderHome(home, p)
  {
    if |cands| > 0 {
      assert UnderHome(home, Join(home, cands[0]));
      QualifyingSound(home, cands[1..], ok);
    }
  }

  /** Every candidate whose path satisfies `ok` qualifies. */
  lemma {:induction false} QualifyingComplete(home: Path, cands: seq<seq<string>>, ok: Path -> bool, k: nat)
    requires k < |cands| && ok(Join(home, cands[k]))
    ensures Join(home, cands[k]) in Qualifying(home, cands, ok)
  {
    if k > 0 {
      assert cands[k] == cands[1..][k - 1];
      QualifyingComplete(home, cands[1..], ok, k - 1);
    }
  }

  function Min(a: nat, b: nat): nat {
    if a <= b then a else b
  }

  /** The loop that stops once `limit` candidates have been accepted: it
      yields the first `limit` qualifying candidates, in candidate order. */
  function TakeExisting(home: Path, cands: seq<seq<string>>, ok: Path -> bool, limit: nat): (r: seq<Path>)
    ensures var q := Qualifying(home, cands, ok);
      r == q[..Min(limit, |q|)]
  {
    if |cands| == 0 || limit == 0 then []
    else
      var rest := TakeExisting(home, cands[1..], ok, if ok(Join(home, cands[0])) then limit - 1 else limit);
      if ok(Join(home, cands[0])) then [Join(home, cands[0])] + rest else rest
  }

  /** An existing directory. */
  function ExistingDir(env: Environment): Path -> bool {
    p => env.pathExists(p) && env.isDir(p)
  }

  /** `default_project_dirs`: the first two candidates that are existing
      directories; failing those, the first fallback that exists; failing
      that, ~/Documents/git. Without a home directory there are none. */
  function DefaultProjectDirs(env: Environment): (r: seq<Path>)
    ensures env.home.None? <==> r == []
    ensures |r| <= 2
    ensures env.home.Some? ==>
      var primary := Qualifying(env.home.value, DirCandidates, ExistingDir(env));
      var fallback := Qualifying(env.home.value, FallbackDirCandidates, env.pathExists);
      && (primary != [] ==> r == primary[..Min(2, |primary|)])
      && (primary == [] && fallback != [] ==> r == [fallback[0]])
      && (primary == [] && fallback == [] ==> r == [Join(env.home.value, LastResortDir)])
    ensures env.home.Some? ==> forall k :: 0 <= k < |r| ==> UnderHome(env.home.value, r[k])
  {
    match env.home
    case None => []
    case Some(home) =>
      var primary := TakeExisting(home, DirCandidates, ExistingDir(env), 2);
      if primary != [] then
        assert forall k :: 0 <= k < |primary| ==> primary[k] in Qualifying(home, DirCandidates, ExistingDir(env));
        QualifyingSound(home, DirCandidates, ExistingDir(env));
        primary
      else
        var fallback := TakeExisting(home, FallbackDirCandidates, env.pathExists, 1);
        if fallback != [] then
          assert fallback[0] in Qualifying(home, FallbackDirCandidates, env.pathExists);
          QualifyingSound(home, FallbackDirCandidates, env.pathExists);
          fallback
        else
          assert UnderHome(home, Join(home, LastResortDir));
          [Join(home, LastResortDir)]
  }

  /** When some candidate is an existing directory, every default directory is one. */
  lemma DefaultDirsExist(env: Environment, c: seq<string>)
    requires env.home.Some? && c in DirCandidates
    requires env.pathExists(Join(env.home.value, c)) && env.isDir(Join(env.home.value, c))
    ensures DefaultProjectDirs(env) != []
    ensures forall p :: p in DefaultProjectDirs(env) ==> env.pathExists(p) && env.isDir(p)
  {
    var home := env.home.value;
    var q := Qualifying(home, DirCandidates, ExistingDir(env));
    var k :| 0 <= k < |DirCandidates| && DirCandidates[k] == c;
    QualifyingComplete(home, DirCandidates, ExistingDir(env), k);
    QualifyingSound(home, DirCandidates, ExistingDir(env));
    var r := DefaultProjectDirs(env);
    assert r == q[..Min(2, |q|)];
    forall p | p in r
      ensures env.pathExists(p) && env.isDir(p)
    {
      assert p in q;
      assert ExistingDir(env)(p);
    }
  }

  /** `Config::default`. */
  function Default(env: Environment): (r: Config)
    ensures r.githubUsername.None? && r.cacheTtlSeconds == DefaultTtlSeconds
    ensures r.editorCommand == DetectDefaultEditor(env) && r.projectDirs == DefaultProjectDirs(env)
  {
    Config(DetectDefaultEditor(env), DefaultProjectDirs(env), None, DefaultTtlSeconds)
  }

  /* ---------------- validation and edits ---------------- */

  const EmptyEditorError: string := "Editor command cannot be empty"
  const ZeroTtlError: string := "Cache TTL must be greater than 0"

  /** `validate`: the warnings printed for missing project directories, and the verdict. */
  function Validate(c: Config, pathExists: Path -> bool): (r: (seq<Path>, Result<()>))
    ensures r.1.Ok? <==> !Text.IsBlank(c.editorCommand) && c.cacheTtlSeconds > 0
    ensures Text.IsBlank(c.editorCommand) ==> r.1 == Err(EmptyEditorError) && r.0 == []
    ensures !Text.IsBlank(c.editorCommand) && c.cacheTtlSeconds == 0 ==> r.1 == Err(ZeroTtlError)
    ensures forall p :: p in r.0 <==> !Text.IsBlank(c.editorCommand) && p in c.projectDirs && !pathExists(p)
    ensures !Text.IsBlank(c.editorCommand) ==> r.0 == MissingDirs(c.projectDirs, pathExists)
  {
    if Text.Trim(c.editorCommand) == "" then ([], Err(EmptyEditorError))
    else
      var warnings := MissingDirs(c.projectDirs, pathExists);
      if c.cacheTtlSeconds == 0 then (warnings, Err(ZeroTtlError)) else (warnings, Ok(()))
  }

  /** The directories that do not exist, in list order: one warning per
      listed directory that is missing. */
  function MissingDirs(dirs: seq<Path>, pathExists: Path -> bool): (r: seq<Path>)
    ensures forall p :: p in r <==> p in dirs && !pathExists(p)
    ensures |r| <= |dirs|
  {
    if |dirs| == 0 then []
    else (if pathExists(dirs[0]) then [] else [dirs[0]]) + MissingDirs(dirs[1..], pathExists)
  }

  /** The warnings go directory by directory: the warnings for a
      concatenation are those of its first part followed by those of the
      second. */
  lemma {:induction false} MissingDirsAppend(a: seq<Path>, b: seq<Path>, pathExists: Path -> bool)
    ensures MissingDirs(a + b, pathExists) == MissingDirs(a, pathExists) + MissingDirs(b, pathExists)
  {
    if |a| == 0 {
      assert a + b == b;
    } else {
      assert (a + b)[0] == a[0] && (a + b)[1..] == a[1..] + b;
      MissingDirsAppend(a[1..], b, pathExists);
    }
  }

  /** One directory gives one warning exactly when it does not exist. */
  lemma MissingDirsSingle(d: Path, pathExists: Path -> bool)
    ensures MissingDirs([d], pathExists) == if pathExists(d) then [] else [d]
  {
    assert [d][1..] == [];
  }

  /** The default configuration passes validation whenever its editor is not blank. */
  lemma DefaultValid(env: Environment, pathExists: Path -> bool)
    requires env.editorVar.None? && env.visualVar.None?
    ensures Validate(Default(env), pathExists).1.Ok?
  {
    DefaultEditorNotBlank(env);
  }

  /** `add_project_dir`: append the path unless it is already listed. */
  function AddProjectDir(c: Config, p: Path): (r: Config)
    ensures p in r.projectDirs
    ensures r.(projectDirs := c.projectDirs) == c
    ensures forall q :: q in r.projectDirs <==> q in c.projectDirs || q == p
    ensures |r.projectDirs| == |c.projectDirs| + (if p in c.projectDirs then 0 else 1)
    ensures r.projectDirs[..|c.projectDirs|] == c.projectDirs
    ensures Seqs.Distinct(c.projectDirs) ==> Seqs.Distinct(r.projectDirs)
  {
    if p in c.projectDirs then c else c.(projectDirs := c.projectDirs + [p])
  }

  /** `remove_project_dir`: drop the first occurrence and report whether there was one. */
  function RemoveProjectDir(c: Config, p: Path): (r: (Config, bool))
    ensures r.1 <==> p in c.projectDirs
    ensures !r.1 ==> r.0 == c
    ensures r.0.(projectDirs := c.projectDirs) == c
    ensures r.1 ==> exists i :: (0 <= i < |c.projectDirs| && c.projectDirs[i] == p
      && p !in c.projectDirs[..i]
      && r.0.projectDirs == c.projectDirs[..i] + c.projectDirs[i + 1..])
    ensures multiset(r.0.projectDirs) + (if r.1 then multiset{p} else multiset{}) == multiset(c.projectDirs)
  {
    match Seqs.FirstIndex(c.projectDirs, q => q == p)
    case None => (c, false)
    case Some(i) =>
      var dirs := Seqs.RemoveAt(c.projectDirs, i);
      assert dirs == c.projectDirs[..i] + c.projectDirs[i + 1..];
      (c.(projectDirs := dirs), true)
  }

  /** Adding a new directory and removing it again restores the configuration. */
  lemma AddThenRemove(c: Config, p: Path)
    requires p !in c.projectDirs
    ensures RemoveProjectDir(AddProjectDir(c, p), p) == (c, true)
  {
    var d := c.projectDirs + [p];
    Seqs.FirstIndexOfAppended(c.projectDirs, p);
    assert AddProjectDir(c, p).projectDirs == d;
    assert Seqs.RemoveAt(d, |c.projectDirs|) == c.projectDirs;
  }

  /** In a list without duplicates, removal leaves no occurrence behind. */
  lemma RemoveFromDistinct(c: Config, p: Path)
    requires Seqs.Distinct(c.projectDirs)
    ensures p !in RemoveProjectDir(c, p).0.projectDirs
    ensures Seqs.Distinct(RemoveProjectDir(c, p).0.projectDirs)
  {
    var d := c.projectDirs;
    var found := Seqs.FirstIndex(d, q => q == p);
    if found.Some? {
      var i := found.value;
      var r := Seqs.RemoveAt(d, i);
      assert RemoveProjectDir(c, p).0.projectDirs == r;
      forall k | 0 <= k < |r|
        ensures r[k] != p
      {
        var k' := if k < i then k else k + 1;
        assert r[k] == d[k'];
      }
      forall a, b | 0 <= a < b < |r|
        ensures r[a] != r[b]
      {
        var a' := if a < i then a else a + 1;
        var b' := if b < i then b else b + 1;
        assert r[a] == d[a'] && r[b] == d[b'];
      }
    }
  }

  /** `should_prompt_github_setup`. */
  predicate ShouldPromptGitHubSetup(c: Config) {
    c.githubUsername.None?
  }

  /* ---------------- the configuration file ---------------- */

  /** The configuration files: present files map to their content, or to
      `None` when they exist but cannot be read. */
  type Files = map<Path, Option<Codec.Cells>>

  function ConfigFilePath(configDir: Path): Path {
    Join(configDir, ["config.json"])
  }

  /** `is_first_time_run`: no configuration file yet. */
  predicate IsFirstTimeRun(files: Files, configDir: Path) {
    ConfigFilePath(configDir) !in files
  }

  function EncodePaths(ps: seq<Path>): Codec.Cells {
    if |ps| == 0 then [] else Codec.EncodePath(ps[0]) + EncodePaths(ps[1..])
  }

  function DecodePaths(c: Codec.Cells, n: nat): Option<(seq<Path>, Codec.Cells)>
    decreases n
  {
    if n == 0 then Some(([], c))
    else
      var h :- Codec.DecodePath(c);
      var t :- DecodePaths(h.1, n - 1);
      Some(([h.0] + t.0, t.1))
  }

  lemma {:induction false} DecodePathsOfEncode(ps: seq<Path>, rest: Codec.Cells)
    ensures DecodePaths(EncodePaths(ps) + rest, |ps|) == Some((ps, rest))
  {
    if |ps| > 0 {
      var tail := EncodePaths(ps[1..]) + rest;
      assert EncodePaths(ps) + rest == Codec.EncodePath(ps[0]) + tail;
      Codec.DecodePathOfEncode(ps[0], tail);
      DecodePathsOfEncode(ps[1..], rest);
      assert [ps[0]] + ps[1..] == ps;
    } else {
      assert EncodePaths(ps) + rest == rest;
    }
  }

  lemma {:induction false} DecodePathsSound(c: Codec.Cells, n: nat)
    ensures DecodePaths(c, n).Some? ==>
      |DecodePaths(c, n).value.0| == n
      && c == EncodePaths(DecodePaths(c, n).value.0) + DecodePaths(c, n).value.1
    decreases n
  {
    if n > 0 && Codec.DecodePath(c).Some? {
      var h := Codec.DecodePath(c).value;
      Codec.DecodePathSound(c);
      DecodePathsSound(h.1, n - 1);
      if DecodePaths(h.1, n - 1).Some? {
        var t := DecodePaths(h.1, n - 1).value;
        var ps := [h.0] + t.0;
        assert ps[0] == h.0 && ps[1..] == t.0;
      }
    }
  }

  /** The file content written by `save_to_path`: every field, in declaration order. */
  function EncodeConfig(c: Config): Codec.Cells {
    Codec.EncodeString(c.editorCommand) + [|c.projectDirs|] + EncodePaths(c.projectDirs)
      + Codec.EncodeOptString(c.githubUsername) + Codec.EncodeInt(c.cacheTtlSeconds)
  }

  /** Parse a whole file; trailing content, a negative lifetime or a
      malformed field is a parse error. */
  function DecodeConfig(c: Codec.Cells): Option<Config> {
    var e :- Codec.DecodeString(c);
    if |e.1| == 0 then None
    else
      var d :- DecodePaths(e.1[1..], e.1[0]);
      var u :- Codec.DecodeOptString(d.1);
      var t :- Codec.DecodeInt(u.1);
      if t.1 != [] || t.0 < 0 then None
      else Some(Config(e.0, d.0, u.0, t.0))
  }

  /** Every configuration is read back as it was written. */
  lemma DecodeConfigOfEncode(c: Config)
    ensures DecodeConfig(EncodeConfig(c)) == Some(c)
  {
    var ttl := Codec.EncodeInt(c.cacheTtlSeconds);
    var user := Codec.EncodeOptString(c.githubUsername) + ttl;
    var dirs := EncodePaths(c.projectDirs) + user;
    assert EncodeConfig(c) == Codec.EncodeString(c.editorCommand) + ([|c.projectDirs|] + dirs);
    Codec.DecodeStringOfEncode(c.editorCommand, [|c.projectDirs|] + dirs);
    assert ([|c.projectDirs|] + dirs)[1..] == dirs;
    DecodePathsOfEncode(c.projectDirs, user);
    Codec.DecodeOptStringOfEncode(c.githubUsername, ttl);
    assert ttl == ttl + [];
    Codec.DecodeIntOfEncode(c.cacheTtlSeconds, []);
  }

  /** Only the encoding of a configuration parses as one. */
  lemma DecodeConfigSound(c: Codec.Cells)
    ensures DecodeConfig(c).Some? ==> c == EncodeConfig(DecodeConfig(c).value)
  {
    if DecodeConfig(c).Some? {
      var e, d, u, t := DecodedFields(c);
      calc {
        c;
        { Codec.DecodeStringSound(c); }
        Codec.EncodeString(e.0) + e.1;
        { PathsField(e.1, d); }
        Codec.EncodeString(e.0) + ([|d.0|] + EncodePaths(d.0) + d.1);
        { Codec.DecodeOptStringSound(d.1); }
        Codec.EncodeString(e.0) + ([|d.0|] + EncodePaths(d.0) + (Codec.EncodeOptString(u.0) + u.1));
        { Codec.DecodeIntSound(u.1); }
        Codec.EncodeString(e.0) + ([|d.0|] + EncodePaths(d.0) + (Codec.EncodeOptString(u.0) + (Codec.EncodeInt(t.0) + [])));
        { SplitFields(Codec.EncodeString(e.0), [|d.0|], EncodePaths(d.0), Codec.EncodeOptString(u.0), Codec.EncodeInt(t.0)); }
        EncodeConfig(Config(e.0, d.0, u.0, t.0));
      }
    }
  }

  /** The four fields a successful parse goes through. */
  lemma DecodedFields(c: Codec.Cells)
    returns (e: (string, Codec.Cells), d: (seq<Path>, Codec.Cells), u: (Option<string>, Codec.Cells), t: (int, Codec.Cells))
    requires DecodeConfig(c).Some?
    ensures Codec.DecodeString(c) == Some(e) && |e.1| > 0
    ensures DecodePaths(e.1[1..], e.1[0]) == Some(d)
    ensures Codec.DecodeOptString(d.1) == Some(u)
    ensures Codec.DecodeInt(u.1) == Some(t) && t.1 == []
    ensures DecodeConfig(c) == Some(Config(e.0, d.0, u.0, t.0))
  {
    e := Codec.DecodeString(c).value;
    d := DecodePaths(e.1[1..], e.1[0]).value;
    u := Codec.DecodeOptString(d.1).value;
    t := Codec.DecodeInt(u.1).value;
  }

  lemma PathsField(rest: Codec.Cells, d: (seq<Path>, Codec.Cells))
    requires |rest| > 0 && DecodePaths(rest[1..], rest[0]) == Some(d)
    ensures rest == [|d.0|] + EncodePaths(d.0) + d.1
  {
    var n, tail := rest[0], rest[1..];
    assert |d.0| == n && tail == EncodePaths(d.0) + d.1 by {
      DecodePathsSound(tail, n);
    }
    assert rest == [n] + tail;
    Seqs.Associate([n], EncodePaths(d.0), d.1);
  }

  lemma SplitFields<T>(a: seq<T>, b: seq<T>, c: seq<T>, d: seq<T>, e: seq<T>)
    ensures a + (b + c + (d + (e + []))) == a + b + c + d + e
  {
  }

  const ReadConfigError: string := "Failed to read config file"
  const ParseConfigError: string := "Failed to parse config file"

  /** `load_from_path`: a missing file gives the defaults. */
  function LoadFromPath(files: Files, path: Path, env: Environment): (r: Result<Config>)
    ensures path !in files ==> r == Ok(Default(env))
    ensures path in files && files[path].None? ==> r == Err(ReadConfigError)
    ensures path in files && files[path].Some? ==>
      (r.Ok? <==> DecodeConfig(files[path].value).Some?)
    ensures path in files && r.Ok? ==> files[path] == Some(EncodeConfig(r.value))
  {
    if path !in files then Ok(Default(env))
    else match files[path]
      case None => Err(ReadConfigError)
      case Some(content) =>
        DecodeConfigSound(content);
        match DecodeConfig(content)
        case None => Err(ParseConfigError)
        case Some(c) => Ok(c)
  }

  /** How `save_to_path` can fail: creating the directory, or writing the
      file after `written` cells. */
  datatype SaveFault = NoSaveFault | DirFault | WriteFault(written: nat)

  const DirError: string := "Failed to create config directory"
  const WriteError: string := "Failed to write config file"

  /** `save_to_path`: create the parent directory of `path`, then write the
      encoded configuration to `path`. */
  function SaveToPath(files: Files, path: Path, c: Config, fault: SaveFault): (r: (Files, Result<()>))
    ensures r.1.Ok? <==> fault == NoSaveFault
    ensures r.1.Ok? ==> r.0 == files[path := Some(EncodeConfig(c))]
    ensures fault == DirFault ==> r == (files, Err(DirError))
    ensures r.0 - {path} == files - {path}
  {
    var content := EncodeConfig(c);
    match fault
    case NoSaveFault => (files[path := Some(content)], Ok(()))
    case DirFault => (files, Err(DirError))
    case WriteFault(k) =>
      (files[path := Some(content[..if k < |content| then k else |content|])], Err(WriteError))
  }

  /** Saving and loading again gives back the same configuration. */
  lemma LoadAfterSave(files: Files, path: Path, c: Config, env: Environment)
    ensures LoadFromPath(SaveToPath(files, path, c, NoSaveFault).0, path, env) == Ok(c)
  {
    DecodeConfigOfEncode(c);
  }
}

=== FILE: cursor.dfy ===
/** The editor-workspace scanner (`src/scanner/cursor.rs`): every
    sub-directory of the editor's workspace storage may hold a
    `workspace.json` naming the folder that was opened; each such folder
    that still exists is reported as a Cursor project. Directory listings,
    file metadata and the JSON parser's verdict are read from a `CursorFs`
    value. */
module CursorScanner {
  import opened Wrappers
  import opened Paths
  import opened Models
  import Sorting
  import Seqs

  /** The `workspaceIdentifier` object of a `workspace.json`. */
  datatype WorkspaceIdentifier = WorkspaceIdentifier(configPath: Option<string>)

  /** What reading and parsing a `workspace.json` gives. */
  datatype WorkspaceFile =
    | Missing
    | ReadFailed
    | Malformed
    | Parsed(workspaceIdentifier: Option<WorkspaceIdentifier>)

  /** One item of `read_dir`: a path and whether it is a directory, or an
      entry that could not be read. */
  datatype DirEntry = DirEntry(path: Path, isDir: bool) | BadEntry

  datatype CursorFs = CursorFs(
    home: Option<Path>,
    pathExists: Path -> bool,
    listing: Path -> Option<seq<DirEntry>>,
    workspaceFile: Path -> WorkspaceFile,
    modifiedTime: Path -> Option<Instant>)

  /** `WorkspaceInfo`. */
  datatype Workspace = Workspace(path: Path, name: string, lastModified: Option<Instant>)

  const StorageDir: seq<string> := [".config", "Cursor", "User", "workspaceStorage"]
  const UnknownName: string := "unknown"
  const HomeError: string := "Failed to get home directory"
  const StorageError: string := "Failed to read Cursor storage directory"
  const EntryError: string := "Failed to read directory entry"
  const ReadError: string := "Failed to read workspace.json"
  const ParseError: string := "Failed to parse workspace.json"

  /** `get_cursor_storage_path`, for the Linux layout. */
  function StoragePath(fs: CursorFs): Result<Path> {
    if fs.home.None? then Err(HomeError) else Ok(Join(fs.home.value, StorageDir))
  }

  function WorkspaceJsonPath(dir: Path): Path {
    Join(dir, ["workspace.json"])
  }

  /** `parse_workspace_directory`. */
  function ParseWorkspaceDirectory(fs: CursorFs, dir: Path): (r: Result<Option<Workspace>>)
    ensures fs.workspaceFile(WorkspaceJsonPath(dir)).Missing? ==> r == Ok(None)
    ensures r.Err? <==> fs.workspaceFile(WorkspaceJsonPath(dir)) in {ReadFailed, Malformed}
    ensures r.Ok? && r.value.Some? <==>
      (var f := fs.workspaceFile(WorkspaceJsonPath(dir));
       f.Parsed? && f.workspaceIdentifier.Some? && f.workspaceIdentifier.value.configPath.Some?)
    ensures r.Ok? && r.value.Some? ==>
      var w := r.value.value;
      var configPath := fs.workspaceFile(WorkspaceJsonPath(dir)).workspaceIdentifier.value.configPath.value;
      && w.path == Parse(configPath)
      && w.name == FileName(Parse(configPath)).GetOr(UnknownName)
      && w.lastModified == fs.modifiedTime(WorkspaceJsonPath(dir))
  {
    var jsonPath := WorkspaceJsonPath(dir);
    match fs.workspaceFile(jsonPath)
    case Missing => Ok(None)
    case ReadFailed => Err(ReadError)
    case Malformed => Err(ParseError)
    case Parsed(id) =>
      if id.Some? && id.value.configPath.Some? then
        var projectPath := Parse(id.value.configPath.value);
        Ok(Some(Workspace(projectPath, FileName(projectPath).GetOr(UnknownName), fs.modifiedTime(jsonPath))))
      else Ok(None)
  }

  /** An entry the loop gets past: it could be read, and when it is a
      directory its `workspace.json` is absent or could be read and parsed. */
  predicate EntryReadable(fs: CursorFs, e: DirEntry) {
    e.DirEntry? && (e.isDir ==> ParseWorkspaceDirectory(fs, e.path).Ok?)
  }

  /** The loop of `scan_cursor_workspaces` over the storage entries. */
  function CollectWorkspaces(fs: CursorFs, entries: seq<DirEntry>): (r: Result<seq<Workspace>>)
    ensures r.Ok? <==> forall k :: 0 <= k < |entries| ==> EntryReadable(fs, entries[k])
    ensures r.Err? ==> r.error in {EntryError, ReadError, ParseError}
    ensures r.Ok? ==> |r.value| <= |entries|
    ensures r.Ok? ==> forall w :: w in r.value <==>
      exists k :: 0 <= k < |entries| && entries[k].isDir
        && ParseWorkspaceDirectory(fs, entries[k].path) == Ok(Some(w))
  {
    if |entries| == 0 then Ok([])
    else
      assert forall k :: 1 <= k < |entries| ==> entries[k] == entries[1..][k - 1];
      match entries[0]
      case BadEntry => Err(EntryError)
      case DirEntry(path, isDir) =>
        if !isDir then CollectWorkspaces(fs, entries[1..])
        else
          var first :- ParseWorkspaceDirectory(fs, path);
          var rest :- CollectWorkspaces(fs, entries[1..]);
          Ok((if first.Some? then [first.value] else []) + rest)
  }

  /** The entries are taken one by one: when both parts can be read, the
      workspaces of a concatenation are those of the first part followed by
      those of the second. */
  lemma {:induction false} CollectWorkspacesAppend(fs: CursorFs, a: seq<DirEntry>, b: seq<DirEntry>)
    requires CollectWorkspaces(fs, a).Ok? && CollectWorkspaces(fs, b).Ok?
    ensures CollectWorkspaces(fs, a + b) == Ok(CollectWorkspaces(fs, a).value + CollectWorkspaces(fs, b).value)
  {
    if |a| == 0 {
      assert a + b == b;
      assert CollectWorkspaces(fs, a).value == [];
      assert [] + CollectWorkspaces(fs, b).value == CollectWorkspaces(fs, b).value;
    } else {
      assert (a + b)[0] == a[0] && (a + b)[1..] == a[1..] + b;
      var head := Found(fs, a[0]);
      assert CollectWorkspaces(fs, a[1..]).Ok? && CollectWorkspaces(fs, a).value == head + CollectWorkspaces(fs, a[1..]).value;
      CollectWorkspacesAppend(fs, a[1..], b);
      assert CollectWorkspaces(fs, a + b).value == head + CollectWorkspaces(fs, a[1..] + b).value;
      Seqs.Associate(head, CollectWorkspaces(fs, a[1..]).value, CollectWorkspaces(fs, b).value);
    }
  }

  /** The workspace a readable entry contributes: the one its
      `workspace.json` names when it is a directory, otherwise none. */
  function Found(fs: CursorFs, e: DirEntry): seq<Workspace>
    requires EntryReadable(fs, e)
  {
    if e.isDir && ParseWorkspaceDirectory(fs, e.path).value.Some?
    then [ParseWorkspaceDirectory(fs, e.path).value.value] else []
  }

  /** A readable directory entry gives its workspace when its
      `workspace.json` names a folder; anything else gives none. */
  lemma CollectWorkspacesSingle(fs: CursorFs, e: DirEntry)
    requires EntryReadable(fs, e)
    ensures CollectWorkspaces(fs, [e]) == Ok(Found(fs, e))
  {
    assert [e][1..] == [];
    assert CollectWorkspaces(fs, [e][1..]) == Ok([]);
    assert Found(fs, e) + [] == Found(fs, e);
  }

  /** `scan_cursor_workspaces`. */
  function ScanWorkspaces(fs: CursorFs, storage: Path): (r: Result<seq<Workspace>>)
    ensures !fs.pathExists(storage) ==> r == Ok([])
    ensures fs.pathExists(storage) && fs.listing(storage).None? ==> r == Err(StorageError)
    ensures fs.pathExists(storage) && fs.listing(storage).Some? ==> r == CollectWorkspaces(fs, fs.listing(storage).value)
    ensures fs.pathExists(storage) && fs.listing(storage).Some? ==>
      var entries := fs.listing(storage).value;
      && (r.Ok? <==> forall k :: 0 <= k < |entries| ==> EntryReadable(fs, entries[k]))
      && (r.Ok? ==> forall w :: w in r.value <==>
            exists k :: 0 <= k < |entries| && entries[k].isDir
              && ParseWorkspaceDirectory(fs, entries[k].path) == Ok(Some(w)))
  {
    if !fs.pathExists(storage) then Ok([])
    else match fs.listing(storage)
      case None => Err(StorageError)
      case Some(entries) => CollectWorkspaces(fs, entries)
  }

  /** `workspace_to_project`: nothing when the folder is gone. */
  function WorkspaceToProject(fs: CursorFs, w: Workspace): (r: Option<Project>)
    ensures r.None? <==> !fs.pathExists(w.path)
    ensures r.Some? ==> var p := r.value;
      p.source == Cursor && p.name == w.name && p.path == w.path
      && p.lastModified == w.lastModified && UrlsConsistent(p)
  {
    if !fs.pathExists(w.path) then None
    else
      var p := NewCursor(w.name, w.path);
      if w.lastModified.Some? then Some(WithLastModified(p, w.lastModified.value)) else Some(p)
  }

  function ProjectsOf(fs: CursorFs, ws: seq<Workspace>): (r: ProjectList)
    ensures |r| <= |ws|
    ensures forall p :: p in r <==> exists w :: w in ws && WorkspaceToProject(fs, w) == Some(p)
    ensures forall p :: p in r ==> p.source == Cursor && UrlsConsistent(p) && fs.pathExists(p.path)
  {
    if |ws| == 0 then []
    else
      var first := WorkspaceToProject(fs, ws[0]);
      assert forall w :: w in ws <==> w == ws[0] || w in ws[1..];
      (if first.Some? then [first.value] else []) + ProjectsOf(fs, ws[1..])
  }

  /** Workspaces are converted one by one: the projects of a concatenation
      are those of the first part followed by those of the second. */
  lemma {:induction false} ProjectsOfAppend(fs: CursorFs, a: seq<Workspace>, b: seq<Workspace>)
    ensures ProjectsOf(fs, a + b) == ProjectsOf(fs, a) + ProjectsOf(fs, b)
  {
    if |a| == 0 {
      assert a + b == b;
      assert ProjectsOf(fs, a) == [];
    } else {
      assert (a + b)[0] == a[0] && (a + b)[1..] == a[1..] + b;
      var head := if WorkspaceToProject(fs, a[0]).Some? then [WorkspaceToProject(fs, a[0]).value] else [];
      assert ProjectsOf(fs, a) == head + ProjectsOf(fs, a[1..]);
      ProjectsOfAppend(fs, a[1..], b);
      assert ProjectsOf(fs, a + b) == head + ProjectsOf(fs, a[1..] + b);
      Seqs.Associate(head, ProjectsOf(fs, a[1..]), ProjectsOf(fs, b));
    }
  }

  /** One workspace gives its project when its folder exists, and nothing otherwise. */
  lemma ProjectsOfSingle(fs: CursorFs, w: Workspace)
    ensures ProjectsOf(fs, [w]) == if fs.pathExists(w.path) then [WorkspaceToProject(fs, w).value] else []
  {
    assert [w][1..] == [];
    assert ProjectsOf(fs, [w][1..]) == [];
    assert fs.pathExists(w.path) ==> [WorkspaceToProject(fs, w).value] + [] == [WorkspaceToProject(fs, w).value];
  }

  /** `CursorScanner::scan`. */
  function Scan(fs: CursorFs): (r: Result<ProjectList>)
    ensures fs.home.None? ==> r == Err(HomeError)
    ensures fs.home.Some? && !fs.pathExists(Join(fs.home.value, StorageDir)) ==> r == Ok([])
    ensures fs.home.Some? && fs.pathExists(Join(fs.home.value, StorageDir)) ==>
      (r.Ok? <==> ScanWorkspaces(fs, Join(fs.home.value, StorageDir)).Ok?)
      && (r.Err? ==> r == Err(ScanWorkspaces(fs, Join(fs.home.value, StorageDir)).error))
    ensures r.Ok? ==> Sorting.SortedBy(r.value, KeyOf, KeyBefore)
    ensures r.Ok? ==> forall p :: p in r.value ==> p.source == Cursor && UrlsConsistent(p) && fs.pathExists(p.path)
    ensures r.Ok? && fs.home.Some? && fs.pathExists(Join(fs.home.value, StorageDir)) ==>
      && ScanWorkspaces(fs, Join(fs.home.value, StorageDir)).Ok?
      && multiset(r.value) == multiset(ProjectsOf(fs, ScanWorkspaces(fs, Join(fs.home.value, StorageDir)).value))
  {
    var storage :- StoragePath(fs);
    if !fs.pathExists(storage) then Ok([])
    else
      var ws :- ScanWorkspaces(fs, storage);
      var l := ProjectsOf(fs, ws);
      var r := SortByLastModified(l);
      assert forall p :: p in r ==> p in l by {
        forall p | p in r
          ensures p in l
        {
          assert p in multiset(r);
        }
      }
      Ok(r)
  }
}

=== FILE: github.dfy ===
/** The GitHub scanner (`src/scanner/github.rs`): list the user's
    repositories with the `gh` command-line tool, one JSON record per output
    line, and report every repository that is not archived as a GitHub
    project to be cloned under ~/Documents/git. The tool's outcomes, the
    record parser and the RFC 3339 `date-time` parser (section 5.6 of
    RFC 3339) are given to the model as a `GhView` value. */
module GitHubScanner {
  import opened Wrappers
  import opened Text
  import opened Paths
  import opened Models
  import Sorting
  import Seqs
  import Configuration

  /** One line of the `gh api` output, as deserialised. */
  datatype GitHubRepository = GitHubRepository(
    name: string,
    htmlUrl: string,
    archived: bool,
    pushedAt: Option<string>,
    updatedAt: Option<string>)

  /** How the `gh api` call ended: it could not be started, or it exited. */
  datatype FetchOutcome = SpawnFailed | Exited(success: bool, stdout: string)

  /** What the scanner learns from the outside world. `authenticated` is the
      outcome of the status check together with the optional interactive
      login: `Ok(true)` to go on, `Ok(false)` to skip GitHub. */
  datatype GhView = GhView(
    installed: bool,
    authenticated: Result<bool>,
    fetch: FetchOutcome,
    parseRepository: string -> Option<GitHubRepository>,
    parseTimestamp: string -> Option<Instant>,
    home: Option<Path>)

  const CloneRoot: seq<string> := ["Documents", "git"]
  const SpawnError: string := "Failed to fetch GitHub repositories"
  const ApiError: string := "GitHub API call failed"
  const RecordError: string := "Failed to parse repository JSON"
  const HomeError: string := "Failed to get home directory"
  const TimestampError: string := "Failed to parse GitHub timestamp"

  /** The arguments of the `gh` call that lists the repositories of `username`. */
  function FetchArgs(username: string): seq<string> {
    ["api", "/users/" + username + "/repos", "--paginate", "--jq",
     ".[] | {name, html_url, archived, pushed_at, updated_at}"]
  }

  /** Every non-blank line parses. */
  ghost predicate AllRecordsParse(lines: seq<string>, parse: string -> Option<GitHubRepository>) {
    forall k :: 0 <= k < |lines| && !IsBlank(lines[k]) ==> parse(lines[k]).Some?
  }

  /** Some non-blank line parses to `repo`. */
  ghost predicate HasRecord(lines: seq<string>, parse: string -> Option<GitHubRepository>, repo: GitHubRepository) {
    exists k :: 0 <= k < |lines| && !IsBlank(lines[k]) && parse(lines[k]) == Some(repo)
  }

  /** The record lines of the output: blank lines are skipped, any other
      line that does not parse fails the whole call. */
  function ParseRecords(lines: seq<string>, parse: string -> Option<GitHubRepository>): (r: Result<seq<GitHubRepository>>)
    ensures r.Ok? <==> AllRecordsParse(lines, parse)
    ensures r.Err? ==> r.error == RecordError
    ensures r.Ok? ==> |r.value| <= |lines|
    ensures r.Ok? ==> forall repo :: repo in r.value <==> HasRecord(lines, parse, repo)
  {
    if |lines| == 0 then Ok([])
    else
      RecordsCons(lines, parse);
      TrimBlankLine(lines[0]);
      if Trim(lines[0]) == "" then ParseRecords(lines[1..], parse)
      else match parse(lines[0])
        case None => Err(RecordError)
        case Some(repo) =>
          var rest :- ParseRecords(lines[1..], parse);
          Ok([repo] + rest)
  }

  /** The output is read line by line: when both parts parse, the records
      of a concatenation are those of the first part followed by those of
      the second. */
  lemma {:induction false} ParseRecordsAppend(a: seq<string>, b: seq<string>, parse: string -> Option<GitHubRepository>)
    requires ParseRecords(a, parse).Ok? && ParseRecords(b, parse).Ok?
    ensures ParseRecords(a + b, parse) == Ok(ParseRecords(a, parse).value + ParseRecords(b, parse).value)
  {
    if |a| == 0 {
      assert a + b == b;
      assert ParseRecords(a, parse).value == [];
      assert [] + ParseRecords(b, parse).value == ParseRecords(b, parse).value;
    } else {
      Seqs.HeadOfAppend(a, b);
      var head := if IsBlank(a[0]) then [] else [parse(a[0]).value];
      ParseRecordsFirst(a, parse);
      ParseRecordsAppend(a[1..], b, parse);
      ParseRecordsStep(a + b, parse);
      Seqs.Associate(head, ParseRecords(a[1..], parse).value, ParseRecords(b, parse).value);
    }
  }

  /** A first line that is blank or parses puts its record, if any, ahead
      of the records of the rest. */
  lemma ParseRecordsStep(lines: seq<string>, parse: string -> Option<GitHubRepository>)
    requires |lines| > 0 && (IsBlank(lines[0]) || parse(lines[0]).Some?)
    requires ParseRecords(lines[1..], parse).Ok?
    ensures ParseRecords(lines, parse) ==
      Ok((if IsBlank(lines[0]) then [] else [parse(lines[0]).value]) + ParseRecords(lines[1..], parse).value)
  {
    TrimBlankLine(lines[0]);
    var rest := ParseRecords(lines[1..], parse).value;
    if IsBlank(lines[0]) {
      assert ParseRecords(lines, parse) == ParseRecords(lines[1..], parse);
      assert [] + rest == rest;
    } else {
      assert ParseRecords(lines, parse) == Ok([parse(lines[0]).value] + rest);
    }
  }

  /** The first line contributes its record, if any, ahead of the rest. */
  lemma ParseRecordsFirst(lines: seq<string>, parse: string -> Option<GitHubRepository>)
    requires |lines| > 0 && ParseRecords(lines, parse).Ok?
    ensures ParseRecords(lines[1..], parse).Ok?
    ensures ParseRecords(lines, parse).value ==
      (if IsBlank(lines[0]) then [] else [parse(lines[0]).value]) + ParseRecords(lines[1..], parse).value
  {
    TrimBlankLine(lines[0]);
  }

  /** A blank line gives no record, and any other line that parses gives
      exactly one. */
  lemma ParseRecordsSingle(line: string, parse: string -> Option<GitHubRepository>)
    requires IsBlank(line) || parse(line).Some?
    ensures ParseRecords([line], parse) == Ok(if IsBlank(line) then [] else [parse(line).value])
  {
    assert [line][1..] == [];
    TrimBlankLine(line);
    assert ParseRecords([line][1..], parse) == Ok([]);
    assert !IsBlank(line) ==> [parse(line).value] + [] == [parse(line).value];
  }

  lemma TrimBlankLine(line: string)
    ensures Trim(line) == "" <==> IsBlank(line)
  {
  }

  /** How the first line contributes to both properties. */
  lemma RecordsCons(lines: seq<string>, parse: string -> Option<GitHubRepository>)
    requires |lines| > 0
    ensures AllRecordsParse(lines, parse) <==>
      (IsBlank(lines[0]) || parse(lines[0]).Some?) && AllRecordsParse(lines[1..], parse)
    ensures forall repo :: HasRecord(lines, parse, repo) <==>
      (!IsBlank(lines[0]) && parse(lines[0]) == Some(repo)) || HasRecord(lines[1..], parse, repo)
  {
    assert forall k :: 1 <= k < |lines| ==> lines[k] == lines[1..][k - 1];
    forall repo | HasRecord(lines[1..], parse, repo)
      ensures HasRecord(lines, parse, repo)
    {
      var k :| 0 <= k < |lines[1..]| && !IsBlank(lines[1..][k]) && parse(lines[1..][k]) == Some(repo);
      assert lines[k + 1] == lines[1..][k];
    }
  }

  /** `fetch_user_repositories`. */
  function FetchUserRepositories(gh: GhView): (r: Result<seq<GitHubRepository>>)
    ensures gh.fetch.SpawnFailed? ==> r == Err(SpawnError)
    ensures gh.fetch.Exited? && !gh.fetch.success ==> r == Err(ApiError)
    ensures gh.fetch.Exited? && gh.fetch.success ==> r == ParseRecords(Lines(gh.fetch.stdout), gh.parseRepository)
  {
    match gh.fetch
    case SpawnFailed => Err(SpawnError)
    case Exited(success, stdout) =>
      if !success then Err(ApiError) else ParseRecords(Lines(stdout), gh.parseRepository)
  }

  /** `get_clone_path`: ~/Documents/git/<name>. */
  function ClonePath(home: Option<Path>, name: string): (r: Result<Path>)
    ensures r.Ok? <==> home.Some?
    ensures r.Ok? ==> r.value == home.value + CloneRoot + [name]
  {
    if home.None? then Err(HomeError) else Ok(Join(Join(home.value, CloneRoot), [name]))
  }

  /** `parse_github_timestamp`: no text gives no time; text that is not a
      date-time is an error. */
  function ParseGitHubTimestamp(ts: Option<string>, parse: string -> Option<Instant>): (r: Result<Option<Instant>>)
    ensures ts.None? ==> r == Ok(None)
    ensures ts.Some? ==> (r.Ok? <==> parse(ts.value).Some?)
    ensures ts.Some? && r.Ok? ==> r.value == parse(ts.value)
  {
    match ts
    case None => Ok(None)
    case Some(t) =>
      match parse(t)
      case None => Err(TimestampError)
      case Some(i) => Ok(Some(i))
  }

  /** The time of a repository: `pushed_at` when present, otherwise
      `updated_at`, otherwise none. */
  function PushedOrUpdated(gh: GhView, repo: GitHubRepository): Option<Instant> {
    if repo.pushedAt.Some? then gh.parseTimestamp(repo.pushedAt.value)
    else if repo.updatedAt.Some? then gh.parseTimestamp(repo.updatedAt.value)
    else None
  }

  /** The timestamp that is used parses: `pushed_at` when present (an
      unparsable one is an error even when `updated_at` would parse),
      otherwise `updated_at` when present. */
  predicate TimestampsParse(gh: GhView, repo: GitHubRepository) {
    && (repo.pushedAt.Some? ==> gh.parseTimestamp(repo.pushedAt.value).Some?)
    && (repo.pushedAt.None? && repo.updatedAt.Some? ==> gh.parseTimestamp(repo.updatedAt.value).Some?)
  }

  /** `repository_to_project`. */
  function RepositoryToProject(gh: GhView, repo: GitHubRepository): (r: Result<Option<Project>>)
    ensures repo.archived ==> r == Ok(None)
    ensures !repo.archived && gh.home.None? ==> r == Err(HomeError)
    ensures r.Ok? && !repo.archived ==> r.value.Some?
    ensures r.Ok? && r.value.Some? ==> var p := r.value.value;
      && p.source == GitHub && UrlsConsistent(p)
      && p.name == repo.name && p.githubUrl == Some(repo.htmlUrl)
      && p.path == gh.home.value + CloneRoot + [repo.name]
      && p.lastModified == PushedOrUpdated(gh, repo)
    ensures !repo.archived && gh.home.Some? ==> (r.Ok? <==> TimestampsParse(gh, repo))
    ensures r.Err? ==> r.error in {HomeError, TimestampError}
  {
    if repo.archived then Ok(None)
    else
      var path :- ClonePath(gh.home, repo.name);
      var lastModified :- ParseGitHubTimestamp(repo.pushedAt.Or(repo.updatedAt), gh.parseTimestamp);
      var p := NewGitHub(repo.name, path, repo.htmlUrl);
      Ok(Some(if lastModified.Some? then WithLastModified(p, lastModified.value) else p))
  }

  /** The loop of `scan` over the repositories, stopping at the first error. */
  function ProjectsOf(gh: GhView, repos: seq<GitHubRepository>): (r: Result<ProjectList>)
    ensures r.Ok? <==> forall k :: 0 <= k < |repos| ==> RepositoryToProject(gh, repos[k]).Ok?
    ensures r.Ok? ==> |r.value| <= |repos|
    ensures r.Ok? ==> forall p :: p in r.value <==>
      exists k :: 0 <= k < |repos| && RepositoryToProject(gh, repos[k]) == Ok(Some(p))
  {
    if |repos| == 0 then Ok([])
    else
      assert forall k :: 1 <= k < |repos| ==> repos[k] == repos[1..][k - 1];
      var first :- RepositoryToProject(gh, repos[0]);
      var rest :- ProjectsOf(gh, repos[1..]);
      Ok((if first.Some? then [first.value] else []) + rest)
  }

  /** Repositories are converted one by one: when both parts convert, the
      projects of a concatenation are those of the first part followed by
      those of the second. */
  lemma {:induction false} ProjectsOfAppend(gh: GhView, a: seq<GitHubRepository>, b: seq<GitHubRepository>)
    requires ProjectsOf(gh, a).Ok? && ProjectsOf(gh, b).Ok?
    ensures ProjectsOf(gh, a + b) == Ok(ProjectsOf(gh, a).value + ProjectsOf(gh, b).value)
  {
    if |a| == 0 {
      assert a + b == b;
      assert ProjectsOf(gh, a).value == [];
      assert [] + ProjectsOf(gh, b).value == ProjectsOf(gh, b).value;
    } else {
      Seqs.HeadOfAppend(a, b);
      var first := RepositoryToProject(gh, a[0]).value;
      var head := if first.Some? then [first.value] else [];
      assert ProjectsOf(gh, a[1..]).Ok? && ProjectsOf(gh, a).value == head + ProjectsOf(gh, a[1..]).value;
      ProjectsOfAppend(gh, a[1..], b);
      assert ProjectsOf(gh, a + b).value == head + ProjectsOf(gh, a[1..] + b).value;
      Seqs.Associate(head, ProjectsOf(gh, a[1..]).value, ProjectsOf(gh, b).value);
    }
  }

  /** One repository gives its project unless it is archived. */
  lemma ProjectsOfSingle(gh: GhView, repo: GitHubRepository)
    requires RepositoryToProject(gh, repo).Ok?
    ensures ProjectsOf(gh, [repo]) == Ok(if repo.archived then [] else [RepositoryToProject(gh, repo).value.value])
  {
    assert [repo][1..] == [];
    assert ProjectsOf(gh, [repo][1..]) == Ok([]);
    assert !repo.archived ==> [RepositoryToProject(gh, repo).value.value] + [] == [RepositoryToProject(gh, repo).value.value];
  }

  /** `GitHubScanner::scan`. */
  function Scan(config: Configuration.Config, gh: GhView): (r: Result<ProjectList>)
    ensures config.githubUsername.None? ==> r == Ok([])
    ensures config.githubUsername.Some? && !gh.installed ==> r == Ok([])
    ensures config.githubUsername.Some? && gh.installed && gh.authenticated == Ok(false) ==> r == Ok([])
    ensures r.Ok? ==> Sorting.SortedBy(r.value, KeyOf, KeyBefore)
    ensures r.Ok? ==> forall p :: p in r.value ==> p.source == GitHub && UrlsConsistent(p)
    ensures config.githubUsername.Some? && gh.installed && gh.authenticated.Err? ==>
      r == Err(gh.authenticated.error)
    ensures config.githubUsername.Some? && gh.installed && gh.authenticated == Ok(true) ==>
      && (FetchUserRepositories(gh).Err? ==> r == Err(FetchUserRepositories(gh).error))
      && (FetchUserRepositories(gh).Ok? && ProjectsOf(gh, FetchUserRepositories(gh).value).Err? ==>
            r == Err(ProjectsOf(gh, FetchUserRepositories(gh).value).error))
      && (r.Ok? <==> FetchUserRepositories(gh).Ok? && ProjectsOf(gh, FetchUserRepositories(gh).value).Ok?)
    ensures r.Ok? && config.githubUsername.Some? && gh.installed && gh.authenticated == Ok(true) ==>
      && FetchUserRepositories(gh).Ok?
      && ProjectsOf(gh, FetchUserRepositories(gh).value).Ok?
      && multiset(r.value) == multiset(ProjectsOf(gh, FetchUserRepositories(gh).value).value)
  {
    if config.githubUsername.None? || !gh.installed then Ok([])
    else
      var proceed :- gh.authenticated;
      if !proceed then Ok([])
      else
        var repos :- FetchUserRepositories(gh);
        var l :- ProjectsOf(gh, repos);
        GitHubProjectsOf(gh, repos, l);
        var r := SortByLastModified(l);
        assert forall p :: p in r ==> p in l by {
          forall p | p in r
            ensures p in l
          {
            assert p in multiset(r);
          }
        }
        Ok(r)
  }

  lemma GitHubProjectsOf(gh: GhView, repos: seq<GitHubRepository>, l: ProjectList)
    requires ProjectsOf(gh, repos) == Ok(l)
    ensures forall p :: p in l ==> p.source == GitHub && UrlsConsistent(p)
  {
    forall p | p in l
      ensures p.source == GitHub && UrlsConsistent(p)
    {
      var k :| 0 <= k < |repos| && RepositoryToProject(gh, repos[k]) == Ok(Some(p));
    }
  }

  /** `pushed_at` wins over `updated_at`: a repository whose `pushed_at`
      parses is timed by it, whatever `updated_at` holds. */
  lemma PushedAtTakesPrecedence(gh: GhView, repo: GitHubRepository, t: Instant)
    requires !repo.archived && gh.home.Some?
    requires repo.pushedAt.Some? && gh.parseTimestamp(repo.pushedAt.value) == Some(t)
    ensures RepositoryToProject(gh, repo).Ok?
    ensures RepositoryToProject(gh, repo).value.value.lastModified == Some(t)
  {
  }

  /** Without `pushed_at`, the time comes from `updated_at`; without either
      the project has no time. */
  lemma UpdatedAtIsTheFallback(gh: GhView, repo: GitHubRepository)
    requires !repo.archived && gh.home.Some? && repo.pushedAt.None?
    ensures repo.updatedAt.None? ==> RepositoryToProject(gh, repo) == Ok(Some(NewGitHub(repo.name, gh.home.value + CloneRoot + [repo.name], repo.htmlUrl)))
    ensures repo.updatedAt.Some? && gh.parseTimestamp(repo.updatedAt.value).Some? ==>
      RepositoryToProject(gh, repo).Ok? &&
      RepositoryToProject(gh, repo).value.value.lastModified == gh.parseTimestamp(repo.updatedAt.value)
  {
  }

  /** An archived repository never shows up in the scan. */
  lemma ArchivedNeverListed(gh: GhView, repos: seq<GitHubRepository>, p: Project)
    requires ProjectsOf(gh, repos).Ok? && p in ProjectsOf(gh, repos).value
    ensures exists k :: 0 <= k < |repos| && !repos[k].archived && repos[k].name == p.name
  {
    var k :| 0 <= k < |repos| && RepositoryToProject(gh, repos[k]) == Ok(Some(p));
  }
}

=== FILE: gitlab.dfy ===
/** The GitLab scanner (`src/scanner/gitlab.rs`): list the user's projects
    with the `glab` command-line tool as one JSON array and report every
    project that is not archived as a GitLab project to be cloned under
    ~/gitlab/<user>. The configuration has no GitLab user name, so the
    scan takes it as a parameter; the tool's outcome, the JSON parser and
    the RFC 3339 `date-time` parser (section 5.6 of RFC 3339) are given as
    a `GlabView` value. */
module GitLabScanner {
  import opened Wrappers
  import opened Text
  import opened Paths
  import opened Models

  /** The fields of one array element as `serde_json::Value` lookups see
      them: `None` when the field is absent or of another JSON type. */
  datatype RepositoryJson = RepositoryJson(
    name: Option<string>,
    webUrl: Option<string>,
    archived: Option<bool>,
    lastActivityAt: Option<string>)

  /** How the `glab` call ended; an exit's output is `None` when it is not UTF-8. */
  datatype ListOutcome = SpawnFailed | Exited(success: bool, stdout: Option<string>)

  datatype GlabView = GlabView(
    canConnect: bool,
    list: ListOutcome,
    parseArray: string -> Option<seq<RepositoryJson>>,
    parseTimestamp: string -> Option<Instant>,
    home: Option<Path>,
    now: Instant)

  const TmpDir: Path := ["/", "tmp"]
  const NameError: string := "Repository name not found"
  const UrlError: string := "Repository web_url not found"
  const SpawnError: string := "Failed to execute glab command"
  const CommandError: string := "glab command failed"
  const Utf8Error: string := "Failed to parse glab output as UTF-8"
  const JsonError: string := "Failed to parse glab JSON output"

  /** `get_clone_path`: (home or /tmp)/gitlab/<user>/<name>. */
  function ClonePath(home: Option<Path>, username: string, name: string): (r: Path)
    ensures r == home.GetOr(TmpDir) + ["gitlab", username, name]
  {
    Join(Join(Join(home.GetOr(TmpDir), ["gitlab"]), [username]), [name])
  }

  /** `repository_to_project`: the name and URL are required; a missing or
      unreadable activity time becomes the current time. */
  function RepositoryToProject(view: GlabView, repo: RepositoryJson, username: string): (r: Result<Project>)
    ensures r.Ok? <==> repo.name.Some? && repo.webUrl.Some?
    ensures repo.name.None? ==> r == Err(NameError)
    ensures repo.name.Some? && repo.webUrl.None? ==> r == Err(UrlError)
    ensures r.Ok? ==> var p := r.value;
      && p.source == GitLab && UrlsConsistent(p)
      && p.name == repo.name.value && p.gitlabUrl == repo.webUrl
      && p.path == ClonePath(view.home, username, repo.name.value)
      && p.lastModified.Some?
      && (repo.lastActivityAt.Some? && view.parseTimestamp(repo.lastActivityAt.value).Some? ==>
            p.lastModified == view.parseTimestamp(repo.lastActivityAt.value))
      && (repo.lastActivityAt.None? ==> p.lastModified == Some(view.now))
      && (repo.lastActivityAt.Some? && view.parseTimestamp(repo.lastActivityAt.value).None? ==>
            p.lastModified == Some(view.now))
  {
    var name :- repo.name.ToResult(NameError);
    var url :- repo.webUrl.ToResult(UrlError);
    var parsed := if repo.lastActivityAt.Some? then view.parseTimestamp(repo.lastActivityAt.value) else None;
    Ok(WithLastModified(NewGitLab(name, ClonePath(view.home, username, name), url), parsed.GetOr(view.now)))
  }

  /** `archived` counts only when it is a JSON `true`. */
  predicate IsArchived(repo: RepositoryJson) {
    repo.archived.GetOr(false)
  }

  /** The loop of `scan`: archived projects are skipped, and so is every
      project that fails to convert (with a warning); the rest keep their order. */
  function Convert(view: GlabView, repos: seq<RepositoryJson>, username: string): (r: ProjectList)
    ensures |r| <= |repos|
    ensures forall p :: p in r <==>
      exists k :: 0 <= k < |repos| && !IsArchived(repos[k]) && RepositoryToProject(view, repos[k], username) == Ok(p)
  {
    if |repos| == 0 then []
    else
      assert forall k :: 1 <= k < |repos| ==> repos[k] == repos[1..][k - 1];
      var first := RepositoryToProject(view, repos[0], username);
      (if !IsArchived(repos[0]) && first.Ok? then [first.value] else []) + Convert(view, repos[1..], username)
  }

  /** `GitLabScanner::scan`. The result is left in the tool's order. */
  function Scan(gitlabUsername: Option<string>, view: GlabView): (r: Result<ProjectList>)
    ensures gitlabUsername.None? || !view.canConnect ==> r == Ok([])
    ensures gitlabUsername.Some? && view.canConnect && view.list.SpawnFailed? ==> r == Err(SpawnError)
    ensures gitlabUsername.Some? && view.canConnect && view.list.Exited? && !view.list.success ==> r == Err(CommandError)
    ensures (gitlabUsername.Some? && view.canConnect && view.list.Exited? && view.list.success
      && view.list.stdout.None?) ==> r == Err(Utf8Error)
    ensures (gitlabUsername.Some? && view.canConnect && view.list.Exited? && view.list.success
      && view.list.stdout.Some? && IsBlank(view.list.stdout.value)) ==> r == Ok([])
    ensures r.Ok? ==> forall p :: p in r.value ==> p.source == GitLab && UrlsConsistent(p) && p.lastModified.Some?
    ensures (gitlabUsername.Some? && view.canConnect && view.list.Exited? && view.list.success
      && view.list.stdout.Some? && !IsBlank(view.list.stdout.value)) ==>
        (r.Ok? <==> view.parseArray(view.list.stdout.value).Some?)
        && (r.Err? ==> r == Err(JsonError))
        && (r.Ok? ==> r.value == Convert(view, view.parseArray(view.list.stdout.value).value, gitlabUsername.value))
  {
    if gitlabUsername.None? || !view.canConnect then Ok([])
    else match view.list
      case SpawnFailed => Err(SpawnError)
      case Exited(success, stdout) =>
        if !success then Err(CommandError)
        else if stdout.None? then Err(Utf8Error)
        else if Trim(stdout.value) == "" then Ok([])
        else
          var repos :- view.parseArray(stdout.value).ToResult(JsonError);
          Ok(Convert(view, repos, gitlabUsername.value))
  }

  /** Each project is converted on its own: a project that fails to
      convert does not affect what the others contribute. */
  lemma {:induction false} ConvertIsElementwise(view: GlabView, a: seq<RepositoryJson>, b: seq<RepositoryJson>, username: string)
    ensures Convert(view, a + b, username) == Convert(view, a, username) + Convert(view, b, username)
  {
    if |a| == 0 {
      assert a + b == b;
    } else {
      assert (a + b)[0] == a[0] && (a + b)[1..] == a[1..] + b;
      ConvertIsElementwise(view, a[1..], b, username);
    }
  }
}

=== FILE: local.dfy ===
/** The local scanner (`src/scanner/local.rs`): walk every configured
    directory to depth 3 and report each non-hidden directory holding a
    `.git` entry as a local project. The directory walk, the `.git` probe,
    the last commit time and the directory modification time are read from
    a `LocalFs` value. */
module LocalScanner {
  import opened Wrappers
  import opened Paths
  import opened Models
  import Seqs
  import Configuration
  import Sorting

  /** One item of the walk: a path with its depth below the walk's root
      (the root itself has depth 0), or an entry the walker could not read. */
  datatype WalkEntry = Entry(path: Path, depth: nat, isDir: bool) | Unreadable

  /** What the scanner observes of the file system. `walk(base)` lists the
      tree under `base` in walk order, root first. */
  datatype LocalFs = LocalFs(
    pathExists: Path -> bool,
    walk: Path -> seq<WalkEntry>,
    hasGit: Path -> bool,
    lastCommitTime: Path -> Option<Instant>,
    modifiedTime: Path -> Option<Instant>)

  const MaxDepth: nat := 3
  const UnknownName: string := "unknown"
  const EntryError: string := "Failed to read directory entry"

  /** `is_hidden_directory`: the file name starts with a dot. */
  predicate IsHiddenDirectory(path: Path) {
    var name := FileName(path);
    name.Some? && |name.value| > 0 && name.value[0] == '.'
  }

  /** `is_project_directory`: a `.git` entry exists inside, whatever else does. */
  predicate IsProjectDirectory(fs: LocalFs, path: Path) {
    fs.hasGit(path)
  }

  /** `get_project_timestamp`: the last commit, else the directory's modification time. */
  function ProjectTimestamp(fs: LocalFs, path: Path): (r: Option<Instant>)
    ensures fs.lastCommitTime(path).Some? ==> r == fs.lastCommitTime(path)
    ensures fs.lastCommitTime(path).None? ==> r == fs.modifiedTime(path)
  {
    fs.lastCommitTime(path).Or(fs.modifiedTime(path))
  }

  /** The project reported for a project directory. */
  function ProjectAt(fs: LocalFs, path: Path): (r: Project)
    ensures r.source == Local && r.path == path && UrlsConsistent(r)
    ensures r.name == FileName(path).GetOr(UnknownName)
    ensures r.lastModified == ProjectTimestamp(fs, path)
  {
    var p := NewLocal(FileName(path).GetOr(UnknownName), path);
    match ProjectTimestamp(fs, path)
    case Some(t) => WithLastModified(p, t)
    case None => p
  }

  /** The walk entries that become projects. A hidden directory is skipped
      on its own; the entries below it are still looked at. */
  predicate Selected(fs: LocalFs, e: WalkEntry) {
    e.Entry? && e.depth <= MaxDepth && e.isDir && !IsHiddenDirectory(e.path) && IsProjectDirectory(fs, e.path)
  }

  /** The loop of `scan_directory` over the walk, stopping at the first unreadable entry. */
  function ScanEntries(fs: LocalFs, entries: seq<WalkEntry>): (r: Result<ProjectList>)
    ensures r.Ok? <==> forall k :: 0 <= k < |entries| ==> entries[k].Entry?
    ensures r.Err? ==> r.error == EntryError
    ensures r.Ok? ==> |r.value| <= |entries|
    ensures r.Ok? ==> forall p :: p in r.value <==>
      exists k :: 0 <= k < |entries| && Selected(fs, entries[k]) && p == ProjectAt(fs, entries[k].path)
  {
    if |entries| == 0 then Ok([])
    else if entries[0].Unreadable? then Err(EntryError)
    else
      var rest := ScanEntries(fs, entries[1..]);
      assert forall k :: 1 <= k < |entries| ==> entries[k] == entries[1..][k - 1];
      if rest.Err? then rest
      else if Selected(fs, entries[0]) then Ok([ProjectAt(fs, entries[0].path)] + rest.value)
      else Ok(rest.value)
  }

  /** The walk is taken entry by entry: when both parts can be read, the
      projects of a concatenation are those of the first part followed by
      those of the second. */
  lemma {:induction false} ScanEntriesAppend(fs: LocalFs, a: seq<WalkEntry>, b: seq<WalkEntry>)
    requires ScanEntries(fs, a).Ok? && ScanEntries(fs, b).Ok?
    ensures ScanEntries(fs, a + b) == Ok(ScanEntries(fs, a).value + ScanEntries(fs, b).value)
  {
    if |a| == 0 {
      assert a + b == b;
      assert ScanEntries(fs, a).value == [];
      assert [] + ScanEntries(fs, b).value == ScanEntries(fs, b).value;
    } else {
      assert (a + b)[0] == a[0] && (a + b)[1..] == a[1..] + b;
      var head := if Selected(fs, a[0]) then [ProjectAt(fs, a[0].path)] else [];
      assert ScanEntries(fs, a[1..]).Ok? && ScanEntries(fs, a).value == head + ScanEntries(fs, a[1..]).value;
      ScanEntriesAppend(fs, a[1..], b);
      assert ScanEntries(fs, a + b).value == head + ScanEntries(fs, a[1..] + b).value;
      Seqs.Associate(head, ScanEntries(fs, a[1..]).value, ScanEntries(fs, b).value);
    }
  }

  /** A readable entry gives one project when it is selected and none otherwise. */
  lemma ScanEntriesSingle(fs: LocalFs, e: WalkEntry)
    requires e.Entry?
    ensures ScanEntries(fs, [e]) == Ok(if Selected(fs, e) then [ProjectAt(fs, e.path)] else [])
  {
    assert [e][1..] == [];
    assert ScanEntries(fs, [e][1..]) == Ok([]);
    assert [ProjectAt(fs, e.path)] + [] == [ProjectAt(fs, e.path)];
  }

  /** `scan_directory`: nothing for a missing directory, otherwise the
      selected entries of its walk. */
  function ScanDirectory(fs: LocalFs, base: Path): (r: Result<ProjectList>)
    ensures !fs.pathExists(base) ==> r == Ok([])
    ensures fs.pathExists(base) ==> r == ScanEntries(fs, fs.walk(base))
    ensures r.Err? ==> r.error == EntryError
    ensures r.Ok? ==> forall p :: p in r.value ==> p.source == Local && UrlsConsistent(p)
    ensures fs.pathExists(base) ==> (r.Ok? <==> forall e :: e in fs.walk(base) ==> e.Entry?)
  {
    if !fs.pathExists(base) then Ok([]) else ScanEntries(fs, fs.walk(base))
  }

  /** `par_iter().map(scan_directory).collect()`: the per-directory lists in
      configuration order, or an error when any directory fails. */
  function ScanDirectories(fs: LocalFs, dirs: seq<Path>): (r: Result<seq<ProjectList>>)
    ensures r.Ok? <==> forall k :: 0 <= k < |dirs| ==> ScanDirectory(fs, dirs[k]).Ok?
    ensures r.Ok? ==> |r.value| == |dirs| && forall k :: 0 <= k < |dirs| ==> r.value[k] == ScanDirectory(fs, dirs[k]).value
  {
    if |dirs| == 0 then Ok([])
    else
      var rest := ScanDirectories(fs, dirs[1..]);
      assert forall k :: 1 <= k < |dirs| ==> dirs[k] == dirs[1..][k - 1];
      match ScanDirectory(fs, dirs[0])
      case Err(e) => Err(e)
      case Ok(first) =>
        if rest.Err? then Err(rest.error) else Ok([first] + rest.value)
  }

  /** `LocalScanner::scan`: the lists of all directories, joined in
      configuration order and sorted by recency. */
  function Scan(config: Configuration.Config, fs: LocalFs): (r: Result<ProjectList>)
    ensures r.Ok? <==> forall d :: d in config.projectDirs ==> ScanDirectory(fs, d).Ok?
    ensures r.Ok? ==> Sorting.SortedBy(r.value, KeyOf, KeyBefore)
    ensures r.Ok? ==> multiset(r.value) == multiset(Seqs.Concat(ScanDirectories(fs, config.projectDirs).value))
  {
    var lists :- ScanDirectories(fs, config.projectDirs);
    Ok(SortByLastModified(Seqs.Concat(lists)))
  }

  /** Every project the scan reports is a local one, found in one of the configured directories. */
  lemma ScanFindsLocalProjects(config: Configuration.Config, fs: LocalFs, p: Project)
    requires Scan(config, fs).Ok? && p in Scan(config, fs).value
    ensures p.source == Local && UrlsConsistent(p)
    ensures exists k :: 0 <= k < |config.projectDirs| && p in ScanDirectory(fs, config.projectDirs[k]).value
  {
    var lists := ScanDirectories(fs, config.projectDirs).value;
    assert p in multiset(Scan(config, fs).value);
    Seqs.InConcat(lists, p);
  }
}

=== FILE: manager.dfy ===
/** The cache-or-scan policy of `project_manager`: a valid cache answers on
    its own; otherwise every scanner runs and the fresh list is saved before
    it is returned. */
module ProjectManager {
  import opened Wrappers
  import opened Paths
  import opened Models
  import Configuration
  import Cache
  import ScanManager

  const CacheDirError: string := "Failed to determine cache directory"
  const CacheDirCreateError: string := "Failed to create cache directory"

  /** What `Cache::new` finds: the platform cache directory, if the platform
      has one, whether it exists already, and whether creating it works. */
  datatype CacheDirView = CacheDirView(dir: Option<Path>, dirExists: bool, createOk: bool)

  /** `Cache::new`: the cache lives in the platform cache directory, created
      when missing, and takes its TTL from the configuration. */
  function NewCache(config: Configuration.Config, view: CacheDirView): (r: Result<Cache.Cache>)
    ensures view.dir.None? ==> r == Err(CacheDirError)
    ensures view.dir.Some? && !view.dirExists && !view.createOk ==> r == Err(CacheDirCreateError)
    ensures r.Ok? <==> view.dir.Some? && (view.dirExists || view.createOk)
    ensures r.Ok? ==> r.value.dir == view.dir.value && r.value.ttlSeconds == config.cacheTtlSeconds
  {
    if view.dir.None? then Err(CacheDirError)
    else if !view.dirExists && !view.createOk then Err(CacheDirCreateError)
    else Ok(Cache.Cache(view.dir.value, config.cacheTtlSeconds))
  }

  /** The time stamp the projects cache file gets from the attempt that succeeds. */
  function SavedAt(attempt: nat -> Attempt): int
    requires Cache.SuccessfulAttempt(attempt).Some?
  {
    attempt(Cache.SuccessfulAttempt(attempt).value).secs
  }

  type Attempt = Cache.Attempt

  /** What a fresh scan promises: it fails exactly when the cache cannot be
      set up or all three writes fail; when it succeeds it returns the
      aggregated scan and has saved exactly that list, so that loading while
      the saved file is younger than the TTL gives it back. */
  ghost predicate FreshOutcome(config: Configuration.Config, view: CacheDirView, outs: seq<ScanManager.Outcome>,
    attempt: nat -> Attempt, store: Cache.Store, store': Cache.Store, r: Result<ProjectList>)
  {
    && (r.Ok? <==> NewCache(config, view).Ok? && Cache.SuccessfulAttempt(attempt).Some?)
    && (NewCache(config, view).Err? ==> r == Err(NewCache(config, view).error) && store' == store)
    && (r.Ok? ==> r.value == ScanManager.ScanResult(outs))
    && (r.Ok? ==> var path := Cache.ProjectsCachePath(NewCache(config, view).value);
          path in store' && store'[path].mtime == SavedAt(attempt))
    && (r.Ok? ==> forall clock :: 0 <= SavedAt(attempt) <= clock < SavedAt(attempt) + config.cacheTtlSeconds ==>
          Cache.LoadProjects(NewCache(config, view).value, store', clock) == Ok(Some(r.value)))
  }

  /** `get_projects_fresh`: scan everything, save the list, return it. A
      failed save fails the call. */
  method GetProjectsFresh(config: Configuration.Config, view: CacheDirView, store: Cache.Store,
    outs: seq<ScanManager.Outcome>, pid: nat, attempt: nat -> Attempt)
    returns (store': Cache.Store, r: Result<ProjectList>)
    ensures FreshOutcome(config, view, outs, attempt, store, store', r)
  {
    var cache := NewCache(config, view);
    if cache.Err? {
      return store, Err(cache.error);
    }
    var scanned, _ := ScanManager.ScanAll(outs);
    var l := scanned.value;
    var saved, tries, backoffs;
    store', saved, tries, backoffs := Cache.SaveProjects(cache.value, store, l, pid, attempt);
    if saved.Err? {
      r := Err(saved.error);
    } else {
      assert attempt(tries - 1).secs == SavedAt(attempt);
      r := Ok(l);
    }
  }

  /** What `get_projects_with_cache` does after looking at the cache. */
  datatype Decision = Fail(error: string) | UseCached(projects: ProjectList) | ScanFresh

  /** The decision of `get_projects_with_cache`: the load happens at
      `loadClock` and the second validity check at `checkClock`. A load error
      is final; the cached list is used only when it was loaded and the cache
      is still valid at the second check. */
  function Decide(config: Configuration.Config, view: CacheDirView, store: Cache.Store, loadClock: int, checkClock: int)
    : (d: Decision)
    ensures NewCache(config, view).Err? ==> d == Fail(NewCache(config, view).error)
    ensures NewCache(config, view).Ok? && Cache.LoadProjects(NewCache(config, view).value, store, loadClock).Err? ==>
      d == Fail(Cache.LoadProjects(NewCache(config, view).value, store, loadClock).error)
    ensures d.UseCached? <==> (
      && NewCache(config, view).Ok?
      && Cache.LoadProjects(NewCache(config, view).value, store, loadClock).Ok?
      && Cache.LoadProjects(NewCache(config, view).value, store, loadClock).value.Some?
      && Cache.IsCacheValid(store, Cache.ProjectsCachePath(NewCache(config, view).value), checkClock, config.cacheTtlSeconds))
    ensures d.UseCached? ==>
      Cache.LoadProjects(NewCache(config, view).value, store, loadClock) == Ok(Some(d.projects))
    ensures d.ScanFresh? <==> (
      && NewCache(config, view).Ok?
      && Cache.LoadProjects(NewCache(config, view).value, store, loadClock).Ok?
      && (|| Cache.LoadProjects(NewCache(config, view).value, store, loadClock).value.None?
          || !Cache.IsCacheValid(store, Cache.ProjectsCachePath(NewCache(config, view).value), checkClock, config.cacheTtlSeconds)))
  {
    match NewCache(config, view)
    case Err(e) => Fail(e)
    case Ok(cache) =>
      match Cache.LoadProjects(cache, store, loadClock)
      case Err(e) => Fail(e)
      case Ok(cached) =>
        var shouldScan := cached.None? || !Cache.IsCacheValid(store, Cache.ProjectsCachePath(cache), checkClock, cache.ttlSeconds);
        if cached.Some? && !shouldScan then UseCached(cached.value) else ScanFresh
  }

  /** `get_projects_with_cache`. A cached answer leaves the store alone and
      involves no scan and no save; a miss or a stale cache gives exactly what
      a fresh scan gives. */
  method GetProjectsWithCache(config: Configuration.Config, view: CacheDirView, store: Cache.Store,
    loadClock: int, checkClock: int, outs: seq<ScanManager.Outcome>, pid: nat, attempt: nat -> Attempt)
    returns (store': Cache.Store, r: Result<ProjectList>)
    ensures Decide(config, view, store, loadClock, checkClock).Fail? ==>
      r == Err(Decide(config, view, store, loadClock, checkClock).error) && store' == store
    ensures Decide(config, view, store, loadClock, checkClock).UseCached? ==>
      r == Ok(Decide(config, view, store, loadClock, checkClock).projects) && store' == store
    ensures Decide(config, view, store, loadClock, checkClock).ScanFresh? ==>
      FreshOutcome(config, view, outs, attempt, store, store', r)
  {
    match Decide(config, view, store, loadClock, checkClock) {
      case Fail(e) =>
        store', r := store, Err(e);
      case UseCached(l) =>
        store', r := store, Ok(l);
      case ScanFresh =>
        store', r := GetProjectsFresh(config, view, store, outs, pid, attempt);
    }
  }

  /** After a fresh scan succeeds, a later run whose load and second check
      both fall while the saved file is younger than the TTL answers from the
      cache, with the very list the scan returned. */
  lemma CachedAfterFresh(config: Configuration.Config, view: CacheDirView, outs: seq<ScanManager.Outcome>,
    attempt: nat -> Attempt, store: Cache.Store, store': Cache.Store, l: ProjectList, loadClock: int, checkClock: int)
    requires FreshOutcome(config, view, outs, attempt, store, store', Ok(l))
    requires 0 <= SavedAt(attempt) <= loadClock <= checkClock < SavedAt(attempt) + config.cacheTtlSeconds
    ensures Decide(config, view, store', loadClock, checkClock) == UseCached(l)
  {
    var cache := NewCache(config, view).value;
    assert Cache.LoadProjects(cache, store', checkClock) == Ok(Some(l));
    assert Cache.LoadProjects(cache, store', loadClock) == Ok(Some(l));
  }

  /** Once the TTL has passed since the save, the second check finds the
      cache stale and the run scans again. */
  lemma StaleAfterTtl(config: Configuration.Config, view: CacheDirView, outs: seq<ScanManager.Outcome>,
    attempt: nat -> Attempt, store: Cache.Store, store': Cache.Store, l: ProjectList, loadClock: int, checkClock: int)
    requires FreshOutcome(config, view, outs, attempt, store, store', Ok(l))
    requires 0 <= SavedAt(attempt) <= loadClock < SavedAt(attempt) + config.cacheTtlSeconds <= checkClock
    ensures Decide(config, view, store', loadClock, checkClock) == ScanFresh
  {
    var cache := NewCache(config, view).value;
    var path := Cache.ProjectsCachePath(cache);
    assert Cache.LoadProjects(cache, store', loadClock) == Ok(Some(l));
    Cache.ValidityWindow(store', path, SavedAt(attempt), checkClock, config.cacheTtlSeconds);
  }
}

=== FILE: models.dfy ===
/** The project catalogue: a `Project` record, the list that holds the
    projects every scanner found, and the three list operations the rest of
    the program relies on — recency ordering, filtering by source and the
    removal of GitHub entries that a local clone already covers. */
module Models {
  import opened Wrappers
  import opened Text
  import opened Paths
  import Sorting
  import Seqs

  /** A point in time (`DateTime<Utc>`) on one linear scale. */
  type Instant = int

  datatype Source = Local | Cursor | GitHub | GitLab

  datatype Project = Project(
    name: string,
    path: Path,
    lastModified: Option<Instant>,
    source: Source,
    githubUrl: Option<string>,
    gitlabUrl: Option<string>)

  type ProjectList = seq<Project>

  /** A hosting URL is present exactly for projects of that host. */
  predicate UrlsConsistent(p: Project) {
    && (p.githubUrl.Some? <==> p.source == GitHub)
    && (p.gitlabUrl.Some? <==> p.source == GitLab)
  }

  function NewLocal(name: string, path: Path): (r: Project)
    ensures r.name == name && r.path == path && r.source == Local
    ensures r.lastModified == None && UrlsConsistent(r)
  {
    Project(name, path, None, Local, None, None)
  }

  function NewCursor(name: string, path: Path): (r: Project)
    ensures r.name == name && r.path == path && r.source == Cursor
    ensures r.lastModified == None && UrlsConsistent(r)
  {
    Project(name, path, None, Cursor, None, None)
  }

  function NewGitHub(name: string, path: Path, url: string): (r: Project)
    ensures r.name == name && r.path == path && r.source == GitHub
    ensures r.githubUrl == Some(url) && r.lastModified == None && UrlsConsistent(r)
  {
    Project(name, path, None, GitHub, Some(url), None)
  }

  function NewGitLab(name: string, path: Path, url: string): (r: Project)
    ensures r.name == name && r.path == path && r.source == GitLab
    ensures r.gitlabUrl == Some(url) && r.lastModified == None && UrlsConsistent(r)
  {
    Project(name, path, None, GitLab, None, Some(url))
  }

  /** Stamp a modification time; every other field is kept. */
  function WithLastModified(p: Project, t: Instant): (r: Project)
    ensures r.lastModified == Some(t)
    ensures r.name == p.name && r.path == p.path && r.source == p.source
    ensures r.githubUrl == p.githubUrl && r.gitlabUrl == p.gitlabUrl
    ensures UrlsConsistent(r) <==> UrlsConsistent(p)
  {
    p.(lastModified := Some(t))
  }

  function AddProject(l: ProjectList, p: Project): (r: ProjectList)
    ensures |r| == |l| + 1 && r[..|l|] == l && r[|l|] == p
  {
    l + [p]
  }

  function Len(l: ProjectList): nat {
    |l|
  }

  predicate IsEmpty(l: ProjectList) {
    |l| == 0
  }

  /* ---------------- Ordering by recency ---------------- */

  /** What the sort comparator looks at: the time when there is one,
      otherwise the name. */
  datatype SortKey = Timed(at: Instant) | Untimed(name: string)

  function KeyOf(p: Project): SortKey {
    match p.lastModified
    case Some(t) => Timed(t)
    case None => Untimed(p.name)
  }

  /** Newer before older, timed before untimed, untimed by name. */
  predicate KeyBefore(a: SortKey, b: SortKey) {
    match (a, b)
    case (Timed(x), Timed(y)) => x > y
    case (Timed(_), Untimed(_)) => true
    case (Untimed(_), Timed(_)) => false
    case (Untimed(m), Untimed(n)) => LexLess(m, n)
  }

  function CompareInts(a: int, b: int): Ordering {
    if a < b then Less else if a > b then Greater else Equal
  }

  /** The comparator closure passed to `sort_by`, case for case. */
  function Compare(a: Project, b: Project): Ordering {
    match (a.lastModified, b.lastModified)
    case (Some(at), Some(bt)) => CompareInts(bt, at)
    case (Some(_), None) => Less
    case (None, Some(_)) => Greater
    case (None, None) => CompareStrings(a.name, b.name)
  }

  /** The comparator orders projects exactly as `KeyBefore` orders their keys,
      and calls two projects equal exactly when their keys coincide. */
  lemma CompareIsKeyOrder(a: Project, b: Project)
    ensures Compare(a, b) == Less <==> KeyBefore(KeyOf(a), KeyOf(b))
    ensures Compare(a, b) == Greater <==> KeyBefore(KeyOf(b), KeyOf(a))
    ensures Compare(a, b) == Equal <==> KeyOf(a) == KeyOf(b)
  {
    if a.lastModified.None? && b.lastModified.None? {
      CompareStringsProperties(a.name, b.name);
      CompareStringsProperties(b.name, a.name);
    }
  }

  lemma CompareStringsIrreflexive(s: string)
    ensures !LexLess(s, s)
  {
    CompareStringsProperties(s, s);
  }

  /** `KeyBefore` is a strict total order, so the sort is well defined. */
  lemma KeyBeforeIsStrictTotalOrder()
    ensures Sorting.StrictTotalOrder(KeyBefore)
  {
    forall a: SortKey
      ensures !KeyBefore(a, a)
    {
      if a.Untimed? {
        CompareStringsIrreflexive(a.name);
      }
    }
    forall a: SortKey, b: SortKey, c: SortKey | KeyBefore(a, b) && KeyBefore(b, c)
      ensures KeyBefore(a, c)
    {
      if a.Untimed? {
        LexLessTransitive(a.name, b.name, c.name);
      }
    }
    forall a: SortKey, b: SortKey | a != b
      ensures KeyBefore(a, b) || KeyBefore(b, a)
    {
      if a.Untimed? && b.Untimed? {
        CompareStringsProperties(a.name, b.name);
        CompareStringsProperties(b.name, a.name);
      }
    }
  }

  /** `sort_by_last_modified`: a stable sort under the comparator. */
  function SortByLastModified(l: ProjectList): (r: ProjectList)
    ensures multiset(r) == multiset(l)
    ensures Sorting.SortedBy(r, KeyOf, KeyBefore)
  {
    KeyBeforeIsStrictTotalOrder();
    Sorting.SortBySorted(l, KeyOf, KeyBefore);
    Sorting.SortBy(l, KeyOf, KeyBefore)
  }

  /** What the order means for projects: all timed projects come first,
      newest first; the untimed ones follow in name order. */
  lemma SortByLastModifiedOrder(l: ProjectList)
    ensures var r := SortByLastModified(l);
      forall i, j | 0 <= i < j < |r| ::
        && (r[j].lastModified.Some? ==> r[i].lastModified.Some?)
        && (r[i].lastModified.Some? && r[j].lastModified.Some? ==>
              r[i].lastModified.value >= r[j].lastModified.value)
        && (r[i].lastModified.None? && r[j].lastModified.None? ==>
              !LexLess(r[j].name, r[i].name))
  {
    var r := SortByLastModified(l);
    forall i, j | 0 <= i < j < |r|
      ensures r[j].lastModified.Some? ==> r[i].lastModified.Some?
      ensures r[i].lastModified.Some? && r[j].lastModified.Some? ==>
              r[i].lastModified.value >= r[j].lastModified.value
      ensures r[i].lastModified.None? && r[j].lastModified.None? ==>
              !LexLess(r[j].name, r[i].name)
    {
      assert !KeyBefore(KeyOf(r[j]), KeyOf(r[i]));
    }
  }

  /** Projects that compare equal keep their relative order. */
  lemma SortByLastModifiedStable(l: ProjectList, k: SortKey)
    ensures Sorting.WithKey(SortByLastModified(l), k, KeyOf) == Sorting.WithKey(l, k, KeyOf)
  {
    KeyBeforeIsStrictTotalOrder();
    Sorting.SortByStable(l, k, KeyOf, KeyBefore);
  }

  /** A list already in order is left as it is. */
  lemma SortByLastModifiedIdempotent(l: ProjectList)
    ensures SortByLastModified(SortByLastModified(l)) == SortByLastModified(l)
  {
    Sorting.SortBySortedIsIdentity(SortByLastModified(l), KeyOf, KeyBefore);
  }

  /* ---------------- Filtering by source ---------------- */

  /** `filter_by_source`: the projects of one source, in list order. */
  function FilterBySource(l: ProjectList, s: Source): (r: ProjectList)
    ensures forall p :: p in r <==> p in l && p.source == s
    ensures |r| <= |l|
  {
    if |l| == 0 then []
    else
      var init, last := l[..|l| - 1], l[|l| - 1];
      assert l == init + [last];
      FilterBySource(init, s) + (if last.source == s then [last] else [])
  }

  lemma {:induction false} FilterBySourceAppend(a: ProjectList, b: ProjectList, s: Source)
    ensures FilterBySource(a + b, s) == FilterBySource(a, s) + FilterBySource(b, s)
    decreases |b|
  {
    if |b| == 0 {
      assert a + b == a;
    } else {
      var init, last := b[..|b| - 1], b[|b| - 1];
      var tail := if last.source == s then [last] else [];
      assert FilterBySource(a + b, s) == FilterBySource(a + init, s) + tail by {
        assert (a + b)[..|a + b| - 1] == a + init;
        assert (a + b)[|a + b| - 1] == last;
      }
      assert FilterBySource(a + init, s) == FilterBySource(a, s) + FilterBySource(init, s) by {
        FilterBySourceAppend(a, init, s);
      }
      assert FilterBySource(b, s) == FilterBySource(init, s) + tail;
      Seqs.Associate(FilterBySource(a, s), FilterBySource(init, s), tail);
    }
  }

  /** Every project belongs to exactly one of the four filters. */
  lemma {:induction false} FilterBySourcePartition(l: ProjectList)
    ensures |FilterBySource(l, Local)| + |FilterBySource(l, Cursor)|
          + |FilterBySource(l, GitHub)| + |FilterBySource(l, GitLab)| == |l|
  {
    if |l| > 0 {
      FilterBySourcePartition(l[..|l| - 1]);
    }
  }

  /* ---------------- Deduplication ---------------- */

  /** Paths of the local projects in the list. */
  function LocalPaths(l: ProjectList): set<Path> {
    set p | p in l && p.source == Local :: p.path
  }

  /** A GitHub entry whose clone is already listed as a local project. */
  predicate Shadowed(p: Project, locals: set<Path>) {
    p.source == GitHub && p.path in locals
  }

  function RemoveShadowed(l: ProjectList, locals: set<Path>): (r: ProjectList)
    ensures forall p :: p in r <==> p in l && !Shadowed(p, locals)
    ensures forall p :: multiset(r)[p] == if Shadowed(p, locals) then 0 else multiset(l)[p]
    ensures |r| <= |l|
  {
    if |l| == 0 then []
    else
      var init, last := l[..|l| - 1], l[|l| - 1];
      assert l == init + [last];
      RemoveShadowed(init, locals) + (if Shadowed(last, locals) then [] else [last])
  }

  /** `deduplicate`: drop every GitHub project whose path is the path of a
      local project. Cursor and GitLab entries are never dropped. */
  function Deduplicate(l: ProjectList): (r: ProjectList)
    ensures forall p :: p in r <==>
      p in l && !(p.source == GitHub && exists q :: q in l && q.source == Local && q.path == p.path)
    ensures forall p, q :: p in r && q in r && p.source == GitHub && q.source == Local ==> p.path != q.path
    ensures forall p :: multiset(r)[p] == if Shadowed(p, LocalPaths(l)) then 0 else multiset(l)[p]
  {
    RemoveShadowed(l, LocalPaths(l))
  }

  /** Removal works entry by entry: a list's survivors are its parts'
      survivors, in the same order. */
  lemma {:induction false} RemoveShadowedAppend(a: ProjectList, b: ProjectList, locals: set<Path>)
    ensures RemoveShadowed(a + b, locals) == RemoveShadowed(a, locals) + RemoveShadowed(b, locals)
    decreases |b|
  {
    if |b| == 0 {
      assert a + b == a;
    } else {
      var init, last := b[..|b| - 1], b[|b| - 1];
      var tail := if Shadowed(last, locals) then [] else [last];
      assert RemoveShadowed(a + b, locals) == RemoveShadowed(a + init, locals) + tail by {
        assert (a + b)[..|a + b| - 1] == a + init;
        assert (a + b)[|a + b| - 1] == last;
      }
      assert RemoveShadowed(a + init, locals) == RemoveShadowed(a, locals) + RemoveShadowed(init, locals) by {
        RemoveShadowedAppend(a, init, locals);
      }
      assert RemoveShadowed(b, locals) == RemoveShadowed(init, locals) + tail;
      Seqs.Associate(RemoveShadowed(a, locals), RemoveShadowed(init, locals), tail);
    }
  }

  /** A single entry survives exactly when it is not shadowed. */
  lemma RemoveShadowedSingle(p: Project, locals: set<Path>)
    ensures RemoveShadowed([p], locals) == if Shadowed(p, locals) then [] else [p]
  {
    assert [p][..0] == [];
  }

  /** Deduplication keeps the survivors in their original order: cutting the
      list anywhere, the result is the survivors of the first part followed
      by the survivors of the second. */
  lemma DeduplicateKeepsOrder(l: ProjectList, k: nat)
    requires k <= |l|
    ensures Deduplicate(l) == RemoveShadowed(l[..k], LocalPaths(l)) + RemoveShadowed(l[k..], LocalPaths(l))
  {
    assert l == l[..k] + l[k..];
    RemoveShadowedAppend(l[..k], l[k..], LocalPaths(l));
  }

  lemma {:induction false} RemoveShadowedKeepsOtherSources(l: ProjectList, locals: set<Path>, s: Source)
    requires s != GitHub
    ensures FilterBySource(RemoveShadowed(l, locals), s) == FilterBySource(l, s)
  {
    if |l| > 0 {
      var init, last := l[..|l| - 1], l[|l| - 1];
      RemoveShadowedKeepsOtherSources(init, locals, s);
      FilterBySourceAppend(RemoveShadowed(init, locals), if Shadowed(last, locals) then [] else [last], s);
    }
  }

  /** Deduplication leaves the Local, Cursor and GitLab entries, in order. */
  lemma DeduplicateKeepsOtherSources(l: ProjectList, s: Source)
    requires s != GitHub
    ensures FilterBySource(Deduplicate(l), s) == FilterBySource(l, s)
  {
    RemoveShadowedKeepsOtherSources(l, LocalPaths(l), s);
  }

  lemma {:induction false} RemoveShadowedUnchanged(l: ProjectList, locals: set<Path>)
    requires forall p :: p in l ==> !Shadowed(p, locals)
    ensures RemoveShadowed(l, locals) == l
  {
    if |l| > 0 {
      var init, last := l[..|l| - 1], l[|l| - 1];
      assert !Shadowed(last, locals) by {
        assert last in l;
      }
      assert RemoveShadowed(init, locals) == init by {
        forall p | p in init
          ensures !Shadowed(p, locals)
        {
          assert p in l;
        }
        RemoveShadowedUnchanged(init, locals);
      }
      assert init + [last] == l;
    }
  }

  /** Without a clash between a GitHub clone and a local project, nothing is removed. */
  lemma DeduplicateWithoutClash(l: ProjectList)
    requires forall p, q :: p in l && q in l && p.source == GitHub && q.source == Local ==> p.path != q.path
    ensures Deduplicate(l) == l
  {
    RemoveShadowedUnchanged(l, LocalPaths(l));
  }

  /** Running deduplication twice removes nothing more. */
  lemma DeduplicateIdempotent(l: ProjectList)
    ensures Deduplicate(Deduplicate(l)) == Deduplicate(l)
  {
    var r := Deduplicate(l);
    forall p, q | p in r && q in r && p.source == GitHub && q.source == Local
      ensures p.path != q.path
    {
    }
    DeduplicateWithoutClash(r);
  }
}

=== FILE: opener.dfy ===
/** `ProjectOpener`: clone a GitHub project that is not on disk yet, then
    start the configured editor on the project's directory. The commands
    are recorded rather than run; what running them does is a parameter. */
module Opener {
  import opened Wrappers
  import opened Text
  import opened Paths
  import opened Models
  import Configuration

  /** One argument of a command: a word, or a path passed as an OS string. */
  datatype Arg = Word(w: string) | PathArg(p: Path)

  /** A command the opener starts. */
  datatype Invocation = Invocation(program: string, args: seq<Arg>)

  /** What starting a program gives: it could not be started, or it ran
      (for a waited-on command: whether it exited successfully and its
      standard error). */
  datatype Launch = NotStarted | Ran(success: bool, stderr: string)

  /** What the opener finds and gets back from the operating system. */
  datatype System = System(
    pathExists: Path -> bool,
    mkdirOk: bool,
    gitClone: Launch,
    editor: Launch)

  const MissingUrlError: string := "GitHub project missing URL"
  const MkdirError: string := "Failed to create directory"
  const GitSpawnError: string := "Failed to execute git clone command"
  const GitFailedPrefix: string := "Git clone failed: "
  const EmptyEditorError: string := "Editor command is empty"
  const MissingPathError: string := "Project path does not exist"
  const LaunchError: string := "Failed to launch editor"
  const EditorSpawnError: string := "Failed to execute editor command"
  const EditorFailedPrefix: string := "Editor command failed: "

  /** `is_background_editor`: editors that detach on their own, so the
      opener does not wait for them. */
  predicate IsBackgroundEditor(editor: string) {
    editor in {"cursor", "code", "subl", "atom"}
  }

  /** Whether `open_project` clones first: only a GitHub project whose
      directory does not exist. */
  predicate ShouldClone(p: Project, sys: System) {
    p.source == GitHub && !sys.pathExists(p.path)
  }

  /** `git clone <url> <path>`. */
  function CloneCommand(url: string, path: Path): Invocation {
    Invocation("git", [Word("clone"), Word(url), PathArg(path)])
  }

  /** `clone_github_project`: the commands it starts and its outcome. */
  function CloneGitHubProject(p: Project, sys: System): (r: (seq<Invocation>, Result<()>))
    ensures p.githubUrl.None? ==> r == ([], Err(MissingUrlError))
    ensures r.0 != [] <==> p.githubUrl.Some? && (Parent(p.path).None? || sys.mkdirOk)
    ensures r.0 != [] ==> r.0 == [CloneCommand(p.githubUrl.value, p.path)]
    ensures r.1.Ok? <==> r.0 != [] && sys.gitClone.Ran? && sys.gitClone.success
    ensures r.0 != [] && sys.gitClone.Ran? && !sys.gitClone.success ==>
      r.1 == Err(GitFailedPrefix + sys.gitClone.stderr)
  {
    match p.githubUrl
    case None => ([], Err(MissingUrlError))
    case Some(url) =>
      if Parent(p.path).Some? && !sys.mkdirOk then ([], Err(MkdirError))
      else
        var cmds := [CloneCommand(url, p.path)];
        match sys.gitClone
        case NotStarted => (cmds, Err(GitSpawnError))
        case Ran(ok, stderr) => if ok then (cmds, Ok(())) else (cmds, Err(GitFailedPrefix + stderr))
  }

  /** The editor command line: the first word of the configured command is
      the program, the other words are its arguments, and the project path
      comes last. */
  function EditorCommand(editor: string, path: Path): (r: Invocation)
    requires !IsBlank(editor)
    ensures r.program == SplitWhitespace(editor)[0]
    ensures |r.args| == |SplitWhitespace(editor)|
    ensures forall k :: 0 <= k < |r.args| - 1 ==> r.args[k] == Word(SplitWhitespace(editor)[k + 1])
    ensures r.args[|r.args| - 1] == PathArg(path)
  {
    SplitEmptyIffTrimEmpty(editor);
    TrimBlank(editor);
    CommandOf(SplitWhitespace(editor), path)
  }

  /** The first word runs, with the remaining words and then the path as arguments. */
  function CommandOf(words: seq<string>, path: Path): (r: Invocation)
    requires |words| > 0
    ensures r.program == words[0] && |r.args| == |words|
    ensures forall k :: 0 <= k < |r.args| - 1 ==> r.args[k] == Word(words[k + 1])
    ensures r.args[|r.args| - 1] == PathArg(path)
  {
    Invocation(words[0], WordArgs(words[1..]) + [PathArg(path)])
  }

  /** Each word as a plain argument. */
  function WordArgs(words: seq<string>): (r: seq<Arg>)
    ensures |r| == |words| && forall k :: 0 <= k < |words| ==> r[k] == Word(words[k])
  {
    seq(|words|, k requires 0 <= k < |words| => Word(words[k]))
  }

  lemma TrimBlank(s: string)
    ensures Trim(s) == "" <==> IsBlank(s)
  {
  }

  /** `open_project_path`: the editor command it starts and its outcome. The
      blank-editor check comes before the path check. */
  function OpenProjectPath(path: Path, config: Configuration.Config, sys: System)
    : (r: (seq<Invocation>, Result<()>))
    ensures IsBlank(config.editorCommand) ==> r == ([], Err(EmptyEditorError))
    ensures !IsBlank(config.editorCommand) && !sys.pathExists(path) ==> r == ([], Err(MissingPathError))
    ensures r.0 != [] <==> !IsBlank(config.editorCommand) && sys.pathExists(path)
    ensures r.0 != [] ==> r.0 == [EditorCommand(config.editorCommand, path)]
    ensures r.0 != [] && IsBackgroundEditor(r.0[0].program) ==> (r.1.Ok? <==> sys.editor.Ran?)
    ensures r.0 != [] && !IsBackgroundEditor(r.0[0].program) ==>
      (r.1.Ok? <==> sys.editor.Ran? && sys.editor.success)
    ensures r.0 != [] && !IsBackgroundEditor(r.0[0].program) && sys.editor.Ran? && !sys.editor.success ==>
      r.1 == Err(EditorFailedPrefix + sys.editor.stderr)
  {
    if IsBlank(config.editorCommand) then ([], Err(EmptyEditorError))
    else if !sys.pathExists(path) then ([], Err(MissingPathError))
    else
      var cmd := EditorCommand(config.editorCommand, path);
      if IsBackgroundEditor(cmd.program) then
        ([cmd], if sys.editor.Ran? then Ok(()) else Err(LaunchError))
      else
        match sys.editor
        case NotStarted => ([cmd], Err(EditorSpawnError))
        case Ran(ok, stderr) => ([cmd], if ok then Ok(()) else Err(EditorFailedPrefix + stderr))
  }

  /** `open_project`: clone when needed, then open. A successful clone
      creates the project directory. */
  function OpenProject(p: Project, config: Configuration.Config, sys: System): (r: (seq<Invocation>, Result<()>))
    ensures !ShouldClone(p, sys) ==> r == OpenProjectPath(p.path, config, sys)
    ensures ShouldClone(p, sys) && CloneGitHubProject(p, sys).1.Err? ==> r == CloneGitHubProject(p, sys)
    ensures ShouldClone(p, sys) && CloneGitHubProject(p, sys).1.Ok? ==>
      r == (CloneGitHubProject(p, sys).0 + OpenProjectPath(p.path, config, sys.(pathExists := Exists(sys, p.path))).0,
            OpenProjectPath(p.path, config, sys.(pathExists := Exists(sys, p.path))).1)
  {
    if ShouldClone(p, sys) then
      var (cloned, c) := CloneGitHubProject(p, sys);
      if c.Err? then (cloned, c)
      else
        var (launched, o) := OpenProjectPath(p.path, config, sys.(pathExists := Exists(sys, p.path)));
        (cloned + launched, o)
    else OpenProjectPath(p.path, config, sys)
  }

  /** The file system after `path` has been created. */
  function Exists(sys: System, path: Path): Path -> bool {
    q => q == path || sys.pathExists(q)
  }

  /* ---------------- properties ---------------- */

  /** At most two commands are started. Two means a clone followed by the
      editor; that happens exactly for a GitHub project that is not on disk,
      has a URL and clones successfully, and then the editor opens the fresh
      clone right away. Any other project starts at most the editor. */
  lemma CommandsStarted(p: Project, config: Configuration.Config, sys: System)
    ensures |OpenProject(p, config, sys).0| <= 2
    ensures |OpenProject(p, config, sys).0| == 2 <==>
      ShouldClone(p, sys) && CloneGitHubProject(p, sys).1.Ok? && !IsBlank(config.editorCommand)
    ensures |OpenProject(p, config, sys).0| == 2 ==>
      OpenProject(p, config, sys).0 == [CloneCommand(p.githubUrl.value, p.path), EditorCommand(config.editorCommand, p.path)]
    ensures p.source != GitHub ==> |OpenProject(p, config, sys).0| <= 1
  {
    if ShouldClone(p, sys) && CloneGitHubProject(p, sys).1.Ok? {
      assert Exists(sys, p.path)(p.path);
    }
  }

  /** The editor program is a word of the configured command. */
  lemma EditorProgramIsAWord(editor: string, path: Path)
    requires !IsBlank(editor)
    ensures HasNoWhitespace(EditorCommand(editor, path).program)
  {
  }

  /** A project already on disk opens without cloning, and then exactly one
      command is started: the editor, on the project's path. */
  lemma ExistingProjectOpensDirectly(p: Project, config: Configuration.Config, sys: System)
    requires sys.pathExists(p.path) && !IsBlank(config.editorCommand)
    ensures OpenProject(p, config, sys).0 == [EditorCommand(config.editorCommand, p.path)]
  {
  }

  /** The editor command line loses no character of the configured command
      other than whitespace: program and word arguments, glued together,
      are the command with its whitespace removed. */
  lemma EditorCommandKeepsWords(editor: string, path: Path)
    requires !IsBlank(editor)
    ensures var cmd := EditorCommand(editor, path);
      cmd.program + Flatten(seq(|cmd.args| - 1, k requires 0 <= k < |cmd.args| - 1 => cmd.args[k].w))
        == RemoveWhitespace(editor)
  {
    var words := SplitWhitespace(editor);
    var cmd := EditorCommand(editor, path);
    var rest := seq(|cmd.args| - 1, k requires 0 <= k < |cmd.args| - 1 => cmd.args[k].w);
    assert rest == words[1..];
    calc {
      cmd.program + Flatten(rest);
      { FlattenCons(words); }
      Flatten(words);
      { SplitWhitespaceKeepsEveryCharacter(editor); }
      RemoveWhitespace(editor);
    }
  }

  lemma FlattenCons(words: seq<string>)
    requires |words| > 0
    ensures Flatten(words) == words[0] + Flatten(words[1..])
  {
  }
}

=== FILE: operations.dfy ===
/** The selection rules of `operations.rs`: opening a project by (part of)
    its name, and the fzf mode, which renders one line per project, pipes
    the lines to `fzf` and maps the line it prints back to a project. */
module Operations {
  import opened Wrappers
  import opened Text
  import opened Models
  import Seqs

  /* ---------------- by name ---------------- */

  /** The project's lower-cased name contains the lower-cased query. */
  predicate Matches(p: Project, query: string) {
    Contains(AsciiLower(p.name), AsciiLower(query))
  }

  /** `find` over the list: the first project that matches. */
  function FindByName(l: ProjectList, query: string): (r: Option<Project>)
    ensures r.Some? ==> r.value in l && Matches(r.value, query)
    ensures r.Some? ==> exists k :: 0 <= k < |l| && l[k] == r.value && forall j :: 0 <= j < k ==> !Matches(l[j], query)
    ensures r.None? <==> forall p :: p in l ==> !Matches(p, query)
  {
    var k := Seqs.FirstIndex(l, p => Matches(p, query));
    if k.Some? then Some(l[k.value]) else None
  }

  /** How `handle_open_project_by_name` ends before it opens anything. */
  datatype Lookup = LookupFailed(error: string) | Found(project: Project) | NotFound

  /** The exit status of the process when nothing matches. */
  const NotFoundExitCode: int := 1

  /** `handle_open_project_by_name`: look in the (possibly cached) list;
      only when nothing there matches, scan afresh and look again. Either
      list may have failed to load, which ends the call with that error. */
  function OpenByName(query: string, cached: Result<ProjectList>, rescanned: Result<ProjectList>): (r: Lookup)
    ensures cached.Err? ==> r == LookupFailed(cached.error)
    ensures cached.Ok? && FindByName(cached.value, query).Some? ==> r == Found(FindByName(cached.value, query).value)
    ensures cached.Ok? && FindByName(cached.value, query).None? ==>
      r == (if rescanned.Err? then LookupFailed(rescanned.error)
            else if FindByName(rescanned.value, query).Some? then Found(FindByName(rescanned.value, query).value)
            else NotFound)
    ensures r.Found? ==> ((cached.Ok? && r.project in cached.value) || (rescanned.Ok? && r.project in rescanned.value)) && Matches(r.project, query)
  {
    match cached
    case Err(e) => LookupFailed(e)
    case Ok(l) =>
      match FindByName(l, query)
      case Some(p) => Found(p)
      case None =>
        match rescanned
        case Err(e) => LookupFailed(e)
        case Ok(l2) =>
          match FindByName(l2, query)
          case Some(p) => Found(p)
          case None => NotFound
  }

  /** A match in the cached list settles it: the fresh scan is never consulted. */
  lemma CachedMatchSkipsFreshScan(query: string, l: ProjectList, rescan1: Result<ProjectList>, rescan2: Result<ProjectList>)
    requires exists p :: p in l && Matches(p, query)
    ensures OpenByName(query, Ok(l), rescan1) == OpenByName(query, Ok(l), rescan2)
  {
  }

  /** The empty query matches every name, so it picks the first project. */
  lemma EmptyQueryPicksFirst(l: ProjectList)
    requires |l| > 0
    ensures FindByName(l, "") == Some(l[0])
  {
    assert OccursAt(AsciiLower(l[0].name), AsciiLower(""), 0);
  }

  /** Matching ignores the case of ASCII letters in the query. */
  lemma QueryCaseIrrelevant(l: ProjectList, q1: string, q2: string)
    requires AsciiLower(q1) == AsciiLower(q2)
    ensures FindByName(l, q1) == FindByName(l, q2)
  {
    assert forall p :: Matches(p, q1) <==> Matches(p, q2);
    var r1, r2 := FindByName(l, q1), FindByName(l, q2);
    if r1.Some? && r2.Some? {
      var k1 :| 0 <= k1 < |l| && l[k1] == r1.value && forall j :: 0 <= j < k1 ==> !Matches(l[j], q1);
      var k2 :| 0 <= k2 < |l| && l[k2] == r2.value && forall j :: 0 <= j < k2 ==> !Matches(l[j], q2);
      assert k1 == k2;
    }
  }

  /* ---------------- fzf ---------------- */

  /** The marker in front of each fzf line: a folder for local projects, a
      target for editor workspaces, an octopus for GitHub, a fox for GitLab. */
  function SourceIndicator(s: Source): char {
    match s
    case Local => '\U{1F4C1}'
    case Cursor => '\U{1F3AF}'
    case GitHub => '\U{1F419}'
    case GitLab => '\U{1F98A}'
  }

  /** The line shown for a project: marker, a space, the name, and the
      formatted modification time in parentheses when there is one. The time
      format (`%Y-%m-%d %H:%M`) is a parameter. */
  function FzfLine(p: Project, format: Instant -> string): (r: string)
    ensures |r| >= 2 + |p.name| && r[0] == SourceIndicator(p.source) && r[1] == ' '
    ensures r[2..2 + |p.name|] == p.name
    ensures p.lastModified.None? ==> |r| == 2 + |p.name|
    ensures p.lastModified.Some? ==> r[2 + |p.name|..] == " (" + format(p.lastModified.value) + ")"
  {
    [SourceIndicator(p.source)] + " " + p.name
      + (if p.lastModified.Some? then " (" + format(p.lastModified.value) + ")" else "")
  }

  /** The lines piped to fzf, one per project, in list order. */
  function FzfInput(l: ProjectList, format: Instant -> string): (r: seq<string>)
    ensures |r| == |l| && forall k :: 0 <= k < |l| ==> r[k] == FzfLine(l[k], format)
  {
    seq(|l|, k requires 0 <= k < |l| => FzfLine(l[k], format))
  }

  /** The first project whose key is `target`. */
  function FirstWithKey(l: ProjectList, key: Project -> string, target: string): (r: Option<Project>)
    ensures r.Some? ==> exists k :: (0 <= k < |l| && l[k] == r.value
      && forall j :: 0 <= j < k ==> key(l[j]) != target)
    ensures r.Some? ==> r.value in l && key(r.value) == target
    ensures r.None? <==> forall k :: 0 <= k < |l| ==> key(l[k]) != target
  {
    var k := Seqs.FirstIndex(l, p => key(p) == target);
    if k.Some? then Some(l[k.value]) else None
  }

  /** The first project whose line is `target`. */
  function FirstWithLine(l: ProjectList, format: Instant -> string, target: string): Option<Project> {
    FirstWithKey(l, p => FzfLine(p, format), target)
  }

  /** The mapping back as written: the first project whose line equals the
      trimmed output of fzf. */
  function BackMapAsWritten(l: ProjectList, format: Instant -> string, output: string): (r: Option<Project>)
    ensures r.Some? ==> r.value in l && FzfLine(r.value, format) == Trim(output)
    ensures r.Some? ==> exists k :: (0 <= k < |l| && l[k] == r.value
      && forall j :: 0 <= j < k ==> FzfLine(l[j], format) != Trim(output))
    ensures r.None? <==> forall k :: 0 <= k < |l| ==> FzfLine(l[k], format) != Trim(output)
  {
    FirstWithLine(l, format, Trim(output))
  }

  /** The output of fzf without the line ending it adds after the chosen line. */
  function WithoutLineEnding(output: string): string {
    if |output| > 0 && output[|output| - 1] == '\n' then output[..|output| - 1] else output
  }

  /** The corrected mapping back: the first project whose line equals the
      output of fzf without its line ending, so that surrounding whitespace
      of the line itself is kept on both sides. */
  function BackMap(l: ProjectList, format: Instant -> string, output: string): (r: Option<Project>)
    ensures r.Some? ==> r.value in l && FzfLine(r.value, format) == WithoutLineEnding(output)
    ensures r.Some? ==> exists k :: (0 <= k < |l| && l[k] == r.value
      && forall j :: 0 <= j < k ==> FzfLine(l[j], format) != WithoutLineEnding(output))
    ensures r.None? <==> forall k :: 0 <= k < |l| ==> FzfLine(l[k], format) != WithoutLineEnding(output)
  {
    FirstWithLine(l, format, WithoutLineEnding(output))
  }

  /** A line starting with a non-whitespace character trims to the same
      text with or without the line ending fzf adds. */
  lemma TrimIgnoresNewline(s: string)
    requires |s| > 0 && !IsWhitespace(s[0])
    ensures Trim(s + "\n") == Trim(s)
  {
    assert TrimStart(s) == s;
    assert TrimStart(s + "\n") == s + "\n";
    assert (s + "\n")[..|s|] == s;
  }

  lemma IndicatorIsNotWhitespace(s: Source)
    ensures !IsWhitespace(SourceIndicator(s))
  {
  }

  /** Choosing line `k` in fzf (which prints it followed by a line ending)
      selects the first project showing that very line: the project on line
      `k` itself unless an earlier project shows the same line. */
  lemma SelectedLineRoundTrips(l: ProjectList, format: Instant -> string, k: nat)
    requires k < |l|
    ensures var r := BackMap(l, format, FzfLine(l[k], format) + "\n");
      && r.Some?
      && FzfLine(r.value, format) == FzfLine(l[k], format)
      && ((forall j :: 0 <= j < k ==> FzfLine(l[j], format) != FzfLine(l[k], format)) ==> r.value == l[k])
  {
    var line := FzfLine(l[k], format);
    DropsLineEnding(line);
    var r := BackMap(l, format, line + "\n");
    if forall j :: 0 <= j < k ==> FzfLine(l[j], format) != line {
      var m :| 0 <= m < |l| && l[m] == r.value
        && forall j :: 0 <= j < m ==> FzfLine(l[j], format) != line;
      assert m == k;
    }
  }

  /** The two mappings choose the same project whenever the chosen line has
      no surrounding whitespace, which is the case for every project with a
      modification time and every name that does not end in whitespace. */
  lemma BackMapsAgreeOnTrimmedLines(l: ProjectList, format: Instant -> string, k: nat)
    requires k < |l|
    requires Trim(FzfLine(l[k], format)) == FzfLine(l[k], format)
    ensures BackMap(l, format, FzfLine(l[k], format) + "\n") == BackMapAsWritten(l, format, FzfLine(l[k], format) + "\n")
    ensures BackMapAsWritten(l, format, FzfLine(l[k], format) + "\n").Some?
  {
    var line := FzfLine(l[k], format);
    TrimmedLineTrims(l[k], format);
    DropsLineEnding(line);
    ShownLineFound(l, format, k);
  }

  /** Every line shown has a first project showing it. */
  lemma ShownLineFound(l: ProjectList, format: Instant -> string, k: nat)
    requires k < |l|
    ensures FirstWithLine(l, format, FzfLine(l[k], format)).Some?
  {
    var key := p => FzfLine(p, format);
    assert key(l[k]) == FzfLine(l[k], format);
  }

  /** A line without surrounding whitespace is what trimming fzf's output gives back. */
  lemma TrimmedLineTrims(p: Project, format: Instant -> string)
    requires Trim(FzfLine(p, format)) == FzfLine(p, format)
    ensures Trim(FzfLine(p, format) + "\n") == FzfLine(p, format)
  {
    IndicatorIsNotWhitespace(p.source);
    TrimIgnoresNewline(FzfLine(p, format));
  }

  lemma DropsLineEnding(line: string)
    ensures WithoutLineEnding(line + "\n") == line
  {
    assert (line + "\n")[..|line|] == line;
  }

  /** As written, a project without a modification time whose name ends in
      whitespace can never be selected: fzf prints its line, the output is
      trimmed, and the trimmed text is no longer the project's line. */
  lemma TrailingWhitespaceNameUnselectable(l: ProjectList, format: Instant -> string, k: nat)
    requires k < |l| && l[k].lastModified.None?
    requires |l[k].name| > 0 && IsWhitespace(l[k].name[|l[k].name| - 1])
    ensures var r := BackMapAsWritten(l, format, FzfLine(l[k], format) + "\n");
      r.Some? ==> r.value != l[k]
  {
    var line := FzfLine(l[k], format);
    assert line[|line| - 1] == l[k].name[|l[k].name| - 1];
  }

  /** A one-project list that shows it: selecting the only line of a local
      project named "demo " fails to find any project as written, and finds
      it with both sides trimmed. */
  lemma TrailingSpaceCounterexample(format: Instant -> string)
    ensures var p := NewLocal("demo ", ["/", "home", "demo "]);
      && BackMapAsWritten([p], format, FzfLine(p, format) + "\n").None?
      && BackMap([p], format, FzfLine(p, format) + "\n") == Some(p)
  {
    var p := NewLocal("demo ", ["/", "home", "demo "]);
    var output := FzfLine(p, format) + "\n";
    assert BackMapAsWritten([p], format, output).None? by {
      assert IsWhitespace(p.name[|p.name| - 1]);
      TrailingWhitespaceNameUnselectable([p], format, 0);
    }
    assert BackMap([p], format, output) == Some(p) by {
      SelectedLineRoundTrips([p], format, 0);
    }
  }

  /** Two local projects whose names differ only by a trailing space. As
      written, choosing either line opens the project named "a"; the
      corrected mapping opens the project on the chosen line. */
  lemma TrimmedLinesCollide(format: Instant -> string)
    ensures var spaced := NewLocal("a ", ["/", "a "]);
      var plain := NewLocal("a", ["/", "a"]);
      var l := [spaced, plain];
      && BackMapAsWritten(l, format, FzfLine(spaced, format) + "\n") == Some(plain)
      && BackMap(l, format, FzfLine(spaced, format) + "\n") == Some(spaced)
      && BackMapAsWritten(l, format, FzfLine(plain, format) + "\n") == Some(plain)
      && BackMap(l, format, FzfLine(plain, format) + "\n") == Some(plain)
  {
    var spaced := NewLocal("a ", ["/", "a "]);
    var plain := NewLocal("a", ["/", "a"]);
    var l := [spaced, plain];
    SpacedLineLooksUpPlain(l, format);
    PairFindsOwnLines(spaced, plain, format);
    DropsLineEnding(FzfLine(plain, format));
  }

  /** Selecting either of two projects with different lines finds that project. */
  lemma PairFindsOwnLines(a: Project, b: Project, format: Instant -> string)
    requires FzfLine(a, format) != FzfLine(b, format)
    ensures BackMap([a, b], format, FzfLine(a, format) + "\n") == Some(a)
    ensures BackMap([a, b], format, FzfLine(b, format) + "\n") == Some(b)
  {
    SelectedLineRoundTrips([a, b], format, 0);
    SelectedLineRoundTrips([a, b], format, 1);
  }

  /** As written, the line of the local project "a " and that of the local
      project "a" are both looked up as the line of "a". */
  lemma SpacedLineLooksUpPlain(l: ProjectList, format: Instant -> string)
    ensures var lineS := FzfLine(NewLocal("a ", ["/", "a "]), format);
      var lineP := FzfLine(NewLocal("a", ["/", "a"]), format);
      && lineS != lineP
      && BackMapAsWritten(l, format, lineS + "\n") == FirstWithLine(l, format, lineP)
      && BackMapAsWritten(l, format, lineP + "\n") == FirstWithLine(l, format, lineP)
  {
    var lineS := FzfLine(NewLocal("a ", ["/", "a "]), format);
    var lineP := FzfLine(NewLocal("a", ["/", "a"]), format);
    SpacedLineTrimsToPlain(format);
    TrimmedLineTrims(NewLocal("a", ["/", "a"]), format);
    WrittenLookupTrims(l, format, lineS + "\n", lineP);
    WrittenLookupTrims(l, format, lineP + "\n", lineP);
  }

  /** As written, an output is looked up by its trimmed text. */
  lemma WrittenLookupTrims(l: ProjectList, format: Instant -> string, output: string, line: string)
    requires Trim(output) == line
    ensures BackMapAsWritten(l, format, output) == FirstWithLine(l, format, line)
  {
  }

  /** The lines of the two projects: the spaced one trims to the plain one,
      which has no surrounding whitespace. */
  lemma SpacedLineTrimsToPlain(format: Instant -> string)
    ensures var lineS := FzfLine(NewLocal("a ", ["/", "a "]), format);
      var lineP := FzfLine(NewLocal("a", ["/", "a"]), format);
      && Trim(lineS + "\n") == lineP && Trim(lineP) == lineP && lineS != lineP
  {
    var lineS := FzfLine(NewLocal("a ", ["/", "a "]), format);
    var lineP := FzfLine(NewLocal("a", ["/", "a"]), format);
    assert lineP == [SourceIndicator(Local), ' ', 'a'];
    assert lineS == lineP + " ";
    IndicatorIsNotWhitespace(Local);
    assert Trim(lineP) == lineP by {
      assert TrimStart(lineP) == lineP;
      assert TrimEnd(lineP) == lineP;
    }
    assert Trim(lineS + "\n") == lineP by {
      assert TrimStart(lineS + "\n") == lineS + "\n";
      assert (lineS + "\n")[..|lineS + "\n"| - 1] == lineS;
      assert lineS[..|lineS| - 1] == lineP;
      assert TrimEnd(lineS + "\n") == TrimEnd(lineS) == TrimEnd(lineP) == lineP;
    }
    assert |lineS| != |lineP|;
  }

  /** What the fzf process does: it cannot be started, the lines cannot be
      written to it or it cannot be waited on, or it exits with an output
      (`None` when the output is not UTF-8). */
  datatype FzfRun = SpawnFailed | WriteFailed | WaitFailed | Finished(success: bool, stdout: Option<string>)

  const FzfMissingError: string := "fzf binary not found. Please install fzf to use this mode."
  const SpawnError: string := "Failed to spawn fzf process"
  const WriteError: string := "Failed to write to fzf stdin"
  const WaitError: string := "Failed to wait for fzf process"
  const Utf8Error: string := "Failed to parse fzf output"
  const NoSelectionError: string := "Failed to find selected project"

  /** `handle_fzf_mode` up to opening: the lines prepared for fzf and the
      project to open, if any. The lines are prepared whenever fzf is
      installed and the list loads and is non-empty, even if fzf then fails
      to start. An empty list never starts fzf; a cancelled or blank
      selection opens nothing. */
  function FzfMode(installed: bool, projects: Result<ProjectList>, format: Instant -> string, run: FzfRun)
    : (r: (Option<seq<string>>, Result<Option<Project>>))
    ensures !installed ==> r == (None, Err(FzfMissingError))
    ensures installed && projects.Err? ==> r == (None, Err(projects.error))
    ensures r.0.Some? <==> installed && projects.Ok? && |projects.value| > 0
    ensures r.0.Some? ==> r.0.value == FzfInput(projects.value, format)
    ensures installed && projects.Ok? && |projects.value| == 0 ==> r == (None, Ok(None))
    ensures r.0.Some? && run.Finished? && !run.success ==> r.1 == Ok(None)
    ensures r.0.Some? && run.Finished? && run.success && run.stdout.Some? && IsBlank(run.stdout.value) ==> r.1 == Ok(None)
    ensures r.1.Ok? && r.1.value.Some? ==>
      && r.0.Some? && run.Finished? && run.stdout.Some?
      && r.1.value == BackMap(projects.value, format, run.stdout.value)
    ensures r.0.Some? && run.Finished? && run.success && run.stdout.Some? && !IsBlank(run.stdout.value) ==>
      (r.1 == Err(NoSelectionError) <==> BackMap(projects.value, format, run.stdout.value).None?)
  {
    if !installed then (None, Err(FzfMissingError))
    else
      match projects
      case Err(e) => (None, Err(e))
      case Ok(l) =>
        if |l| == 0 then (None, Ok(None))
        else
          var lines := FzfInput(l, format);
          var outcome :=
            match run
            case SpawnFailed => Err(SpawnError)
            case WriteFailed => Err(WriteError)
            case WaitFailed => Err(WaitError)
            case Finished(ok, stdout) =>
              if !ok then Ok(None)
              else if stdout.None? then Err(Utf8Error)
              else if Trim(stdout.value) == "" then Ok(None)
              else
                match BackMap(l, format, stdout.value)
                case None => Err(NoSelectionError)
                case Some(p) => Ok(Some(p));
          (Some(lines), outcome)
  }
}

=== FILE: paths.dfy ===
/** File-system paths as `std::path` sees them: a sequence of components.
    An absolute path starts with the root component "/"; a relative path may
    start with the current-directory component ".". Two paths are equal
    exactly when their component sequences are, as for Rust's `Path` equality. */
module Paths {
  import opened Wrappers
  import Text

  type Path = seq<string>

  const Root: string := "/"

  /** A component that names a file or directory (not root, "." or ".."). */
  predicate IsNormal(c: string) {
    c != Root && c != "." && c != ".."
  }

  /** `Path::file_name`: the last component when it is a normal one. */
  function FileName(p: Path): Option<string> {
    if |p| > 0 && IsNormal(p[|p| - 1]) then Some(p[|p| - 1]) else None
  }

  /** `Path::join` with a relative path given as components. */
  function Join(p: Path, rel: seq<string>): Path {
    p + rel
  }

  /** `Path::with_file_name`: replace the file name, or append when there is none. */
  function WithFileName(p: Path, name: string): (r: Path)
    ensures |r| > 0 && r[|r| - 1] == name
    ensures r[..|r| - 1] == (if FileName(p).Some? then p[..|p| - 1] else p)
  {
    if FileName(p).Some? then p[..|p| - 1] + [name] else p + [name]
  }

  /** Components of a relative path text, split at "/". Empty pieces (from
      repeated or trailing separators) are dropped, and so is "." except as
      the very first piece when `atStart` holds. */
  function Pieces(s: string, atStart: bool): (r: Path)
    ensures forall k :: 0 <= k < |r| ==> |r[k]| > 0 && '/' !in r[k]
    decreases |s|
  {
    if |s| == 0 then []
    else
      var i := Text.IndexOf(s, '/');
      var piece := s[..i];
      var rest := if i < |s| then s[i + 1..] else "";
      var keep := piece != "" && (piece != "." || atStart);
      assert '/' !in piece by {
        assert forall k :: 0 <= k < i ==> s[k] != '/';
      }
      (if keep then [piece] else []) + Pieces(rest, false)
  }

  /** `PathBuf::from(s)` viewed through `components()`. */
  function Parse(s: string): (r: Path)
    ensures forall k :: 0 <= k < |r| ==> |r[k]| > 0
    ensures forall k :: 0 < k < |r| ==> '/' !in r[k]
    ensures |s| > 0 && s[0] == '/' <==> |r| > 0 && r[0] == Root
  {
    if |s| > 0 && s[0] == '/' then [Root] + Pieces(s[1..], false) else Pieces(s, true)
  }

  /** `Path::parent`: the path without its last component; the root and the
      empty path have none. */
  function Parent(p: Path): (r: Option<Path>)
    ensures r.None? <==> |p| == 0 || p == [Root]
    ensures r.Some? ==> r.value + [p[|p| - 1]] == p
  {
    if |p| == 0 || p == [Root] then None else Some(p[..|p| - 1])
  }
}

=== FILE: picker.dfy ===
/** The interactive picker of `tui.rs` without its drawing: the query typed
    so far, the at most twenty best matches, the highlighted row and the key
    transitions. The fuzzy matcher is a parameter: it scores a project name
    against the query, or rejects it. */
module Picker {
  import opened Wrappers
  import opened Models
  import Sorting

  /** `fuzzy_match(name, query)`: a score, or no match. */
  type Matcher = (string, string) -> Option<int>

  /** An entry of `filtered_projects`: a position in `projects` and its score. */
  datatype Scored = Scored(index: nat, score: int)

  datatype App = App(
    input: string,
    projects: seq<Project>,
    filtered: seq<Scored>,
    selected: nat,
    quit: bool,
    chosen: Option<Project>)

  /** How many rows the picker shows at most. */
  const MaxShown: nat := 20
  /** The score every project gets while the query is empty. */
  const EmptyQueryScore: int := 100

  /** Every row points at a project, there are at most twenty rows, and the
      highlight is on a row or at the top. */
  predicate WellFormed(app: App) {
    && |app.filtered| <= MaxShown
    && (forall k :: 0 <= k < |app.filtered| ==> app.filtered[k].index < |app.projects|)
    && (app.selected < |app.filtered| || app.selected == 0)
  }

  function ScoreOf(e: Scored): int {
    e.score
  }

  function Position(e: Scored): int {
    e.index
  }

  /** The comparator `b.1.cmp(&a.1)`: a higher score comes first. */
  predicate Higher(a: int, b: int) {
    a > b
  }

  lemma HigherIsStrictTotalOrder()
    ensures Sorting.StrictTotalOrder(Higher)
  {
  }

  /** The projects among the first `n` that the matcher accepts, with their
      scores, in list order. */
  function ScoresUpTo(projects: seq<Project>, query: string, m: Matcher, n: nat): (r: seq<Scored>)
    requires n <= |projects|
    ensures forall k :: 0 <= k < |r| ==>
      r[k].index < n && m(projects[r[k].index].name, query) == Some(r[k].score)
    ensures forall i, j :: 0 <= i < j < |r| ==> r[i].index < r[j].index
    ensures forall i :: 0 <= i < n && m(projects[i].name, query).Some? ==>
      Scored(i, m(projects[i].name, query).value) in r
  {
    if n == 0 then []
    else
      var init := ScoresUpTo(projects, query, m, n - 1);
      match m(projects[n - 1].name, query)
      case None => init
      case Some(s) => init + [Scored(n - 1, s)]
  }

  /** The `filter_map` step: every project the matcher accepts, in list order. */
  function Scores(projects: seq<Project>, query: string, m: Matcher): seq<Scored> {
    ScoresUpTo(projects, query, m, |projects|)
  }

  /** The first `min(n, 20)` positions, each with score 100. */
  function FirstRows(n: nat): (r: seq<Scored>)
    ensures |r| == (if n < MaxShown then n else MaxShown)
    ensures forall k :: 0 <= k < |r| ==> r[k] == Scored(k, EmptyQueryScore)
  {
    var len := if n < MaxShown then n else MaxShown;
    seq(len, k requires 0 <= k < len => Scored(k, EmptyQueryScore))
  }

  /** The first twenty entries (`take(20)`). */
  function Top(s: seq<Scored>): (r: seq<Scored>)
    ensures |r| == (if |s| <= MaxShown then |s| else MaxShown)
    ensures forall k :: 0 <= k < |r| ==> r[k] == s[k]
  {
    if |s| <= MaxShown then s else s[..MaxShown]
  }

  /** Entries sorted by descending score, equal scores in increasing position. */
  ghost predicate Ranked(s: seq<Scored>) {
    && (forall i, j :: 0 <= i < j < |s| ==> s[i].score >= s[j].score)
    && (forall i, j :: 0 <= i < j < |s| && s[i].score == s[j].score ==> s[i].index < s[j].index)
  }

  /** `sort_by` on the scores: the same entries, ranked. */
  lemma SortRanks(scored: seq<Scored>)
    requires forall i, j :: 0 <= i < j < |scored| ==> scored[i].index < scored[j].index
    ensures var sorted := Sorting.SortBy(scored, ScoreOf, Higher);
      && Ranked(sorted)
      && (forall e :: e in sorted <==> e in scored)
  {
    var sorted := Sorting.SortBy(scored, ScoreOf, Higher);
    assert Ranked(sorted) by {
      HigherIsStrictTotalOrder();
      Sorting.SortBySorted(scored, ScoreOf, Higher);
      Sorting.SortByTieOrder(scored, ScoreOf, Higher, Position);
    }
    SortKeepsEntries(scored);
  }

  lemma SortKeepsEntries(scored: seq<Scored>)
    ensures forall e :: e in Sorting.SortBy(scored, ScoreOf, Higher) <==> e in scored
  {
    var sorted := Sorting.SortBy(scored, ScoreOf, Higher);
    forall e
      ensures e in sorted <==> e in scored
    {
      if e in sorted {
        Sorting.InSeqFromMultiset(sorted, scored, e);
      }
      if e in scored {
        Sorting.InSeqFromMultiset(scored, sorted, e);
      }
    }
  }

  /** Cutting a ranked list keeps it ranked, and what is cut off ranks
      below everything kept: a lower score, or the same score and a later
      position. */
  lemma TopOfRanked(s: seq<Scored>, e: Scored)
    requires Ranked(s) && e in s
    ensures Ranked(Top(s))
    ensures e in Top(s) || (|Top(s)| == MaxShown && forall k :: 0 <= k < MaxShown ==> RanksBefore(Top(s)[k], e))
  {
    var p :| 0 <= p < |s| && s[p] == e;
    if p < |Top(s)| {
      assert Top(s)[p] == e;
    }
  }

  /** Every row is an accepted project with its score. */
  ghost predicate RowsAccepted(r: seq<Scored>, projects: seq<Project>, query: string, m: Matcher) {
    forall k :: 0 <= k < |r| ==> r[k].index < |projects| && m(projects[r[k].index].name, query) == Some(r[k].score)
  }

  /** `a` comes before `b` in the stable descending sort: a higher score,
      or the same score and an earlier position. */
  predicate RanksBefore(a: Scored, b: Scored) {
    a.score > b.score || (a.score == b.score && a.index < b.index)
  }

  /** Every accepted project is shown, unless twenty rows all rank before it. */
  ghost predicate RowsComplete(r: seq<Scored>, projects: seq<Project>, query: string, m: Matcher) {
    forall i :: 0 <= i < |projects| && m(projects[i].name, query).Some? ==>
      || Scored(i, m(projects[i].name, query).value) in r
      || (|r| == MaxShown && forall k :: 0 <= k < |r| ==> RanksBefore(r[k], Scored(i, m(projects[i].name, query).value)))
  }

  lemma TopRowsAccepted(projects: seq<Project>, query: string, m: Matcher)
    ensures RowsAccepted(Top(Sorting.SortBy(Scores(projects, query, m), ScoreOf, Higher)), projects, query, m)
  {
    var scored := Scores(projects, query, m);
    var sorted := Sorting.SortBy(scored, ScoreOf, Higher);
    var r := Top(sorted);
    forall k | 0 <= k < |r|
      ensures r[k].index < |projects| && m(projects[r[k].index].name, query) == Some(r[k].score)
    {
      Sorting.InSeqFromMultiset(sorted, scored, sorted[k]);
    }
  }

  lemma TopRowsRanked(projects: seq<Project>, query: string, m: Matcher)
    ensures Ranked(Top(Sorting.SortBy(Scores(projects, query, m), ScoreOf, Higher)))
  {
    var scored := Scores(projects, query, m);
    var sorted := Sorting.SortBy(scored, ScoreOf, Higher);
    SortRanks(scored);
    if |scored| > 0 {
      TopOfRanked(sorted, sorted[0]);
    }
  }

  lemma TopRowsComplete(projects: seq<Project>, query: string, m: Matcher)
    ensures RowsComplete(Top(Sorting.SortBy(Scores(projects, query, m), ScoreOf, Higher)), projects, query, m)
  {
    var scored := Scores(projects, query, m);
    var sorted := Sorting.SortBy(scored, ScoreOf, Higher);
    SortRanks(scored);
    forall i | 0 <= i < |projects| && m(projects[i].name, query).Some?
      ensures || Scored(i, m(projects[i].name, query).value) in Top(sorted)
              || (|Top(sorted)| == MaxShown
                  && forall k :: 0 <= k < |Top(sorted)| ==> RanksBefore(Top(sorted)[k], Scored(i, m(projects[i].name, query).value)))
    {
      TopOfRanked(sorted, Scored(i, m(projects[i].name, query).value));
    }
  }

  /** The rows of `update_filtered_projects` for a non-empty query: the
      accepted projects, stably sorted by descending score, cut to twenty.
      Only accepted projects appear, ranked by score with ties in list order,
      and an accepted project is missing only when twenty rows all rank
      before it: a higher score, or the same score and an earlier position. */
  function RankedRows(projects: seq<Project>, query: string, m: Matcher): (r: seq<Scored>)
    ensures |r| <= MaxShown
    ensures RowsAccepted(r, projects, query, m)
    ensures Ranked(r)
    ensures RowsComplete(r, projects, query, m)
  {
    TopRowsAccepted(projects, query, m);
    TopRowsRanked(projects, query, m);
    TopRowsComplete(projects, query, m);
    Top(Sorting.SortBy(Scores(projects, query, m), ScoreOf, Higher))
  }

  /** `update_filtered_projects`: recompute the rows for the current query
      and move the highlight to the top if its row is gone. */
  function UpdateFiltered(app: App, m: Matcher): (r: App)
    ensures WellFormed(r)
    ensures r == app.(filtered := r.filtered, selected := r.selected)
    ensures app.input == "" ==> r.filtered == FirstRows(|app.projects|)
    ensures app.input != "" ==> r.filtered == RankedRows(app.projects, app.input, m)
    ensures app.selected < |r.filtered| ==> r.selected == app.selected
    ensures app.selected >= |r.filtered| ==> r.selected == 0
  {
    var rows := if app.input == "" then FirstRows(|app.projects|) else RankedRows(app.projects, app.input, m);
    app.(filtered := rows, selected := if app.selected >= |rows| then 0 else app.selected)
  }

  /** `TuiApp::new`: no query, nothing chosen, the first twenty projects. */
  function New(projects: seq<Project>, m: Matcher): (r: App)
    ensures WellFormed(r) && r.projects == projects && r.input == "" && !r.quit && r.chosen.None?
    ensures |r.filtered| == (if |projects| < MaxShown then |projects| else MaxShown)
    ensures forall k :: 0 <= k < |r.filtered| ==> r.filtered[k] == Scored(k, EmptyQueryScore)
    ensures r.selected == 0
  {
    UpdateFiltered(App("", projects, [], 0, false, None), m)
  }

  /** `move_selection_up`. */
  function MoveUp(app: App): (r: App)
    ensures WellFormed(app) ==> WellFormed(r)
    ensures r == app.(selected := r.selected)
    ensures app.selected > 0 ==> r.selected + 1 == app.selected
    ensures app.selected == 0 ==> r == app
  {
    if app.selected > 0 then app.(selected := app.selected - 1) else app
  }

  /** `move_selection_down`: never past the last row. */
  function MoveDown(app: App): (r: App)
    ensures WellFormed(app) ==> WellFormed(r)
    ensures r == app.(selected := r.selected)
    ensures r.selected == app.selected || r.selected == app.selected + 1
    ensures r.selected < |app.filtered| || r.selected == app.selected
    ensures r.selected == app.selected + 1 <==> app.selected + 1 < |app.filtered|
  {
    if app.selected + 1 < |app.filtered| then app.(selected := app.selected + 1) else app
  }

  /** Moving down and back up returns to the same row whenever moving down was possible. */
  lemma DownThenUp(app: App)
    requires app.selected + 1 < |app.filtered|
    ensures MoveUp(MoveDown(app)) == app
  {
  }

  /** `get_selected_project`: the project on the highlighted row, if there is one. */
  function SelectedProject(app: App): (r: Option<Project>)
    ensures r.Some? <==> app.selected < |app.filtered| && app.filtered[app.selected].index < |app.projects|
    ensures r.Some? ==> r.value == app.projects[app.filtered[app.selected].index]
    ensures WellFormed(app) ==> (r.Some? <==> app.selected < |app.filtered|)
  {
    if app.selected < |app.filtered| && app.filtered[app.selected].index < |app.projects|
    then Some(app.projects[app.filtered[app.selected].index])
    else None
  }

  datatype KeyCode = Char(c: char) | Esc | Enter | Backspace | Up | Down | OtherKey

  /** An input event: a key press, or anything else (key releases, resizes, mouse). */
  datatype Event = Press(code: KeyCode) | Ignored

  /** The query without its last character (`String::pop`). */
  function Pop(s: string): (r: string)
    ensures s == "" ==> r == ""
    ensures s != "" ==> r + [s[|s| - 1]] == s
  {
    if s == "" then "" else s[..|s| - 1]
  }

  /** A typed character: appended to the query, rows recomputed, highlight on top. */
  function Typed(app: App, c: char, m: Matcher): (r: App)
    requires WellFormed(app)
    ensures WellFormed(r) && r.projects == app.projects && r.input == app.input + [c]
    ensures r.selected == 0 && r.quit == app.quit && r.chosen == app.chosen
  {
    UpdateFiltered(app.(input := app.input + [c]), m).(selected := 0)
  }

  /** Backspace: the last character removed (nothing when the query is empty),
      rows recomputed, highlight on top. */
  function Erased(app: App, m: Matcher): (r: App)
    requires WellFormed(app)
    ensures WellFormed(r) && r.projects == app.projects && r.input == Pop(app.input)
    ensures r.selected == 0 && r.quit == app.quit && r.chosen == app.chosen
    ensures 'q' in r.input ==> 'q' in app.input
  {
    UpdateFiltered(app.(input := Pop(app.input)), m).(selected := 0)
  }

  /** One pass of the event loop of `run_interactive`. `q` is matched before
      any other character, so it quits instead of being typed. */
  function HandleEvent(app: App, ev: Event, m: Matcher): (r: App)
    requires WellFormed(app)
    ensures WellFormed(r) && r.projects == app.projects
    ensures ev == Press(Char('q')) || ev == Press(Esc) ==> r == app.(quit := true)
    ensures ev == Press(Enter) ==>
      r == (if SelectedProject(app).Some? then app.(chosen := SelectedProject(app), quit := true) else app)
    ensures ev.Press? && ev.code.Char? && ev.code.c != 'q' ==>
      r.input == app.input + [ev.code.c] && r.selected == 0 && r.quit == app.quit && r.chosen == app.chosen
    ensures ev == Press(Backspace) ==> r.input == Pop(app.input) && r.selected == 0 && r.quit == app.quit
    ensures ev == Press(Up) ==> r == MoveUp(app)
    ensures ev == Press(Down) ==> r == MoveDown(app)
    ensures ev == Ignored || ev == Press(OtherKey) ==> r == app
    ensures r.quit != app.quit ==> ev == Press(Char('q')) || ev == Press(Esc) || ev == Press(Enter)
    ensures r.chosen != app.chosen ==> ev == Press(Enter) && r.quit && r.chosen == SelectedProject(app)
    ensures 'q' in r.input ==> 'q' in app.input
  {
    match ev
    case Ignored => app
    case Press(code) =>
      match code
      case Char(c) =>
        if c == 'q' then app.(quit := true) else Typed(app, c, m)
      case Esc => app.(quit := true)
      case Enter =>
        var p := SelectedProject(app);
        if p.Some? then app.(chosen := p, quit := true) else app
      case Backspace => Erased(app, m)
      case Up => MoveUp(app)
      case Down => MoveDown(app)
      case OtherKey => app
  }

  /** `run_interactive`: handle events until one of them quits. */
  function Run(app: App, events: seq<Event>, m: Matcher): (r: App)
    requires WellFormed(app)
    ensures WellFormed(r) && r.projects == app.projects
    decreases |events|
  {
    if |events| == 0 then app
    else
      var next := HandleEvent(app, events[0], m);
      if next.quit then next else Run(next, events[1..], m)
  }

  /** Whatever is typed, the query never contains `q`, and a project handed
      back is one of the listed projects, chosen with Enter and ending the loop. */
  lemma {:induction false} RunChoosesListedProject(app: App, events: seq<Event>, m: Matcher)
    requires WellFormed(app) && app.chosen.None? && !app.quit && 'q' !in app.input
    ensures var r := Run(app, events, m);
      && 'q' !in r.input
      && (r.chosen.Some? ==> r.quit && r.chosen.value in app.projects)
    decreases |events|
  {
    if |events| > 0 {
      var next := HandleEvent(app, events[0], m);
      if next.chosen.Some? {
        assert next.chosen == SelectedProject(app);
      }
      if !next.quit {
        RunChoosesListedProject(next, events[1..], m);
      }
    }
  }

  /** Esc and `q` end the loop with nothing chosen. */
  lemma QuitKeysChooseNothing(app: App, events: seq<Event>, m: Matcher)
    requires WellFormed(app) && app.chosen.None? && |events| > 0
    requires events[0] == Press(Esc) || events[0] == Press(Char('q'))
    ensures Run(app, events, m).quit && Run(app, events, m).chosen.None?
  {
  }
}

=== FILE: scan.dfy ===
/** `ScanManager`: runs the scanners one after the other, keeps the projects
    of those that succeed (a failure is only a warning), removes GitHub
    entries shadowed by a local clone and sorts the whole list by recency. */
module ScanManager {
  import opened Wrappers
  import opened Models
  import Configuration
  import LocalScanner
  import CursorScanner
  import GitHubScanner

  datatype ScannerKind = LocalKind | CursorKind | GitHubKind

  /** `ScanManager::new`: the scanners in the order they run. */
  const DefaultScanners: seq<ScannerKind> := [LocalKind, CursorKind, GitHubKind]

  /** `scanner_name`. */
  function ScannerName(k: ScannerKind): string {
    match k
    case LocalKind => "local"
    case CursorKind => "cursor"
    case GitHubKind => "github"
  }

  /** What one scanner reported, with the name it reports under. */
  datatype Outcome = Outcome(scanner: string, result: Result<ProjectList>)

  /** Everything the three default scanners look at. */
  datatype Sources = Sources(
    local: LocalScanner.LocalFs,
    cursor: CursorScanner.CursorFs,
    github: GitHubScanner.GhView)

  function RunScanner(k: ScannerKind, config: Configuration.Config, src: Sources): Result<ProjectList> {
    match k
    case LocalKind => LocalScanner.Scan(config, src.local)
    case CursorKind => CursorScanner.Scan(src.cursor)
    case GitHubKind => GitHubScanner.Scan(config, src.github)
  }

  /** The outcomes of the default scanners, in order. */
  function RunDefaultScanners(config: Configuration.Config, src: Sources): (outs: seq<Outcome>)
    ensures |outs| == |DefaultScanners|
    ensures forall i :: 0 <= i < |outs| ==>
      outs[i] == Outcome(ScannerName(DefaultScanners[i]), RunScanner(DefaultScanners[i], config, src))
  {
    seq(|DefaultScanners|, i requires 0 <= i < |DefaultScanners| =>
      Outcome(ScannerName(DefaultScanners[i]), RunScanner(DefaultScanners[i], config, src)))
  }

  /* ---------------- reference definitions ---------------- */

  /** The projects of the successful scanners, concatenated in scanner order. */
  function Successes(outs: seq<Outcome>): ProjectList {
    if |outs| == 0 then []
    else
      var last := outs[|outs| - 1];
      Successes(outs[..|outs| - 1]) + (if last.result.Ok? then last.result.value else [])
  }

  /** One warning per failing scanner, in scanner order. */
  function Warnings(outs: seq<Outcome>): seq<string> {
    if |outs| == 0 then []
    else
      var last := outs[|outs| - 1];
      Warnings(outs[..|outs| - 1])
        + (if last.result.Err? then ["Warning: " + last.scanner + " scanner failed: " + last.result.error] else [])
  }

  /** The total number of projects the successful scanners report. */
  function SuccessCount(outs: seq<Outcome>): nat {
    if |outs| == 0 then 0
    else
      var last := outs[|outs| - 1];
      SuccessCount(outs[..|outs| - 1]) + (if last.result.Ok? then |last.result.value| else 0)
  }

  /** `scan_all`'s list: deduplicated first, then sorted. */
  function ScanResult(outs: seq<Outcome>): ProjectList {
    SortByLastModified(Deduplicate(Successes(outs)))
  }

  /* ---------------- the loop ---------------- */

  /** `scan_all`: one pass over the scanners, copying each successful
      scanner's projects onto the end of the aggregate and warning about each
      failure. The call never fails. */
  method ScanAll(outs: seq<Outcome>) returns (r: Result<ProjectList>, warnings: seq<string>)
    ensures r.Ok?
    ensures r.value == ScanResult(outs)
    ensures warnings == Warnings(outs)
  {
    var all: ProjectList := [];
    warnings := [];
    var i := 0;
    while i < |outs|
      invariant 0 <= i <= |outs|
      invariant all == Successes(outs[..i])
      invariant warnings == Warnings(outs[..i])
    {
      assert outs[..i + 1][..i] == outs[..i];
      match outs[i].result {
        case Ok(projects) =>
          var j := 0;
          while j < |projects|
            invariant 0 <= j <= |projects|
            invariant all == Successes(outs[..i]) + projects[..j]
          {
            all := AddProject(all, projects[j]);
            assert projects[..j + 1] == projects[..j] + [projects[j]];
            j := j + 1;
          }
          assert projects[..j] == projects;
        case Err(e) =>
          warnings := warnings + ["Warning: " + outs[i].scanner + " scanner failed: " + e];
      }
      i := i + 1;
    }
    assert outs[..i] == outs;
    all := Deduplicate(all);
    all := SortByLastModified(all);
    r := Ok(all);
  }

  /** `scan_all` over the default scanners. */
  method ScanDefault(config: Configuration.Config, src: Sources) returns (r: Result<ProjectList>, warnings: seq<string>)
    ensures r == Ok(ScanResult(RunDefaultScanners(config, src)))
    ensures forall p :: p in r.value ==> p.source != GitLab
  {
    r, warnings := ScanAll(RunDefaultScanners(config, src));
    forall p | p in r.value
      ensures p.source != GitLab
    {
      DefaultScanFindsNoGitLab(config, src, p);
    }
  }

  /* ---------------- properties ---------------- */

  lemma {:induction false} SuccessesAppend(a: seq<Outcome>, b: seq<Outcome>)
    ensures Successes(a + b) == Successes(a) + Successes(b)
    decreases |b|
  {
    if |b| == 0 {
      assert a + b == a;
    } else {
      assert (a + b)[..|a + b| - 1] == a + b[..|b| - 1];
      SuccessesAppend(a, b[..|b| - 1]);
    }
  }

  lemma {:induction false} WarningsAppend(a: seq<Outcome>, b: seq<Outcome>)
    ensures Warnings(a + b) == Warnings(a) + Warnings(b)
    decreases |b|
  {
    if |b| == 0 {
      assert a + b == a;
    } else {
      assert (a + b)[..|a + b| - 1] == a + b[..|b| - 1];
      WarningsAppend(a, b[..|b| - 1]);
    }
  }

  lemma SingleOutcome(o: Outcome)
    ensures Successes([o]) == (if o.result.Ok? then o.result.value else [])
    ensures Warnings([o]) == (if o.result.Err? then ["Warning: " + o.scanner + " scanner failed: " + o.result.error] else [])
  {
    assert [o][..0] == [];
  }

  /** A failing scanner contributes no projects and leaves the contributions
      of the others as they were; it adds exactly one warning. */
  lemma FailingScannerIsIgnored(before: seq<Outcome>, o: Outcome, after: seq<Outcome>)
    requires o.result.Err?
    ensures Successes(before + [o] + after) == Successes(before + after)
    ensures ScanResult(before + [o] + after) == ScanResult(before + after)
    ensures Warnings(before + [o] + after)
         == Warnings(before) + ["Warning: " + o.scanner + " scanner failed: " + o.result.error] + Warnings(after)
  {
    SuccessesAppend(before + [o], after);
    SuccessesAppend(before, [o]);
    SuccessesAppend(before, after);
    WarningsAppend(before + [o], after);
    WarningsAppend(before, [o]);
    SingleOutcome(o);
  }

  /** A project is in the aggregate exactly when some successful scanner reported it. */
  lemma {:induction false} InSuccesses(outs: seq<Outcome>, p: Project)
    ensures p in Successes(outs) <==>
      exists i :: 0 <= i < |outs| && outs[i].result.Ok? && p in outs[i].result.value
  {
    if |outs| > 0 {
      var init := outs[..|outs| - 1];
      InSuccesses(init, p);
      if p in Successes(init) {
        var i :| 0 <= i < |init| && init[i].result.Ok? && p in init[i].result.value;
        assert outs[i] == init[i];
      }
      if exists i :: 0 <= i < |outs| && outs[i].result.Ok? && p in outs[i].result.value {
        var i :| 0 <= i < |outs| && outs[i].result.Ok? && p in outs[i].result.value;
        if i < |outs| - 1 {
          assert init[i] == outs[i];
        }
      }
    }
  }

  /** The final list holds exactly the reported projects that are not GitHub
      entries at the path of a reported local project. */
  lemma InScanResult(outs: seq<Outcome>, p: Project)
    ensures p in ScanResult(outs) <==>
      && (exists i :: 0 <= i < |outs| && outs[i].result.Ok? && p in outs[i].result.value)
      && !(p.source == GitHub && exists q :: q in Successes(outs) && q.source == Local && q.path == p.path)
  {
    InSuccesses(outs, p);
    var d := Deduplicate(Successes(outs));
    assert p in ScanResult(outs) <==> p in d by {
      assert multiset(ScanResult(outs)) == multiset(d);
      if p in d {
        assert p in multiset(d);
      }
      if p in ScanResult(outs) {
        assert p in multiset(ScanResult(outs));
      }
    }
  }

  lemma {:induction false} SuccessCountIsLength(outs: seq<Outcome>)
    ensures |Successes(outs)| == SuccessCount(outs)
  {
    if |outs| > 0 {
      SuccessCountIsLength(outs[..|outs| - 1]);
    }
  }

  /** With no GitHub entry at the path of a local one, nothing is removed: the
      result is a reordering of the successful scanners' projects, as many as
      they reported in total. */
  lemma ScanResultWithoutClash(outs: seq<Outcome>)
    requires var l := Successes(outs);
      forall p, q :: p in l && q in l && p.source == GitHub && q.source == Local ==> p.path != q.path
    ensures multiset(ScanResult(outs)) == multiset(Successes(outs))
    ensures |ScanResult(outs)| == SuccessCount(outs)
  {
    DeduplicateWithoutClash(Successes(outs));
    SuccessCountIsLength(outs);
    assert |ScanResult(outs)| == |multiset(ScanResult(outs))|;
  }

  /** None of the default scanners reports GitLab projects, so none reaches the result. */
  lemma DefaultScanFindsNoGitLab(config: Configuration.Config, src: Sources, p: Project)
    requires p in ScanResult(RunDefaultScanners(config, src))
    ensures p.source != GitLab
  {
    var outs := RunDefaultScanners(config, src);
    assert exists i :: 0 <= i < |outs| && outs[i].result.Ok? && p in outs[i].result.value by {
      InScanResult(outs, p);
    }
    var i :| 0 <= i < |outs| && outs[i].result.Ok? && p in outs[i].result.value;
    ScannerReportsOwnSource(DefaultScanners[i], config, src, p);
  }

  /** Each scanner reports projects of its own source only. */
  lemma ScannerReportsOwnSource(k: ScannerKind, config: Configuration.Config, src: Sources, p: Project)
    requires RunScanner(k, config, src).Ok? && p in RunScanner(k, config, src).value
    ensures k == LocalKind ==> p.source == Local
    ensures k == CursorKind ==> p.source == Cursor
    ensures k == GitHubKind ==> p.source == GitHub
  {
    if k == LocalKind {
      LocalScanner.ScanFindsLocalProjects(config, src.local, p);
    }
  }
}

=== FILE: seqs.dfy ===
/** Sequence helpers standing in for `Iterator::position` and `Vec::remove`. */
module Seqs {
  import opened Wrappers

  /** `iter().position(p)`: the index of the first element satisfying `p`. */
  function FirstIndex<T>(s: seq<T>, p: T -> bool): (r: Option<nat>)
    ensures r.Some? ==> r.value < |s| && p(s[r.value])
    ensures r.Some? ==> forall j :: 0 <= j < r.value ==> !p(s[j])
    ensures r.None? <==> forall j :: 0 <= j < |s| ==> !p(s[j])
  {
    if |s| == 0 then None
    else if p(s[0]) then Some(0)
    else
      var t := FirstIndex(s[1..], p);
      assert forall j :: 1 <= j < |s| ==> s[j] == s[1..][j - 1];
      if t.Some? then Some(t.value + 1) else None
  }

  /** `Vec::remove(i)`: the sequence without its `i`-th element. */
  function RemoveAt<T>(s: seq<T>, i: nat): (r: seq<T>)
    requires i < |s|
    ensures |r| == |s| - 1
    ensures forall j :: 0 <= j < i ==> r[j] == s[j]
    ensures forall j :: i <= j < |r| ==> r[j] == s[j + 1]
    ensures multiset(r) + multiset{s[i]} == multiset(s)
  {
    assert s == s[..i] + [s[i]] + s[i + 1..];
    s[..i] + s[i + 1..]
  }

  /** No element occurs twice. */
  predicate Distinct<T(==)>(s: seq<T>) {
    forall i, j :: 0 <= i < j < |s| ==> s[i] != s[j]
  }

  /** The first occurrence of `x` in a sequence that ends with its only occurrence is that last position. */
  lemma FirstIndexOfAppended<T>(s: seq<T>, x: T)
    requires x !in s
    ensures FirstIndex(s + [x], y => y == x) == Some(|s|)
  {
    assert (s + [x])[|s|] == x;
    assert forall j :: 0 <= j < |s| ==> (s + [x])[j] == s[j];
  }

  /** All the sequences, one after the other. */
  function Concat<T>(ss: seq<seq<T>>): seq<T> {
    if |ss| == 0 then [] else ss[0] + Concat(ss[1..])
  }

  /** An element is in the concatenation exactly when it is in one of the parts. */
  lemma {:induction false} InConcat<T>(ss: seq<seq<T>>, x: T)
    ensures x in Concat(ss) <==> exists i :: 0 <= i < |ss| && x in ss[i]
  {
    if |ss| > 0 {
      InConcat(ss[1..], x);
      if x in Concat(ss[1..]) {
        var i :| 0 <= i < |ss[1..]| && x in ss[1..][i];
        assert x in ss[i + 1];
      }
      if exists i :: 0 <= i < |ss| && x in ss[i] {
        var i :| 0 <= i < |ss| && x in ss[i];
        if i > 0 {
          assert x in ss[1..][i - 1];
        }
      }
    }
  }

  lemma {:induction false} ConcatAppend<T>(a: seq<seq<T>>, b: seq<seq<T>>)
    ensures Concat(a + b) == Concat(a) + Concat(b)
  {
    if |a| == 0 {
      assert a + b == b;
    } else {
      assert (a + b)[1..] == a[1..] + b;
      ConcatAppend(a[1..], b);
    }
  }

  /** Taking a non-empty sequence apart at its head commutes with appending. */
  lemma HeadOfAppend<T>(a: seq<T>, b: seq<T>)
    requires |a| > 0
    ensures (a + b)[0] == a[0] && (a + b)[1..] == a[1..] + b
  {
  }

  /** Concatenation is associative. */
  lemma Associate<T>(a: seq<T>, b: seq<T>, c: seq<T>)
    ensures a + (b + c) == a + b + c
  {
  }

  lemma Associate3<T>(a: seq<T>, b: seq<T>, c: seq<T>, d: seq<T>)
    ensures a + (b + (c + d)) == a + (b + c) + d
  {
  }
}

=== FILE: sorting.dfy ===
/** A stable sort by key, the model of Rust's `slice::sort_by` with a
    comparator that only looks at one key per element. It is written as an
    insertion sort that places each element after every element whose key is
    not greater; any stable sort with the same comparator produces the same
    sequence, so the choice of algorithm is not observable. */
module Sorting {

  /** `lt` is irreflexive, transitive and total on distinct keys. */
  ghost predicate StrictTotalOrder<K(!new)>(lt: (K, K) -> bool) {
    && (forall a :: !lt(a, a))
    && (forall a, b, c :: lt(a, b) && lt(b, c) ==> lt(a, c))
    && (forall a, b :: a != b ==> lt(a, b) || lt(b, a))
  }

  /** No element's key is strictly smaller than the key of an element before it. */
  ghost predicate SortedBy<T, K>(s: seq<T>, key: T -> K, lt: (K, K) -> bool) {
    forall i, j :: 0 <= i < j < |s| ==> !lt(key(s[j]), key(s[i]))
  }

  /** The subsequence of `s` whose key is `k`: the order the sort must keep. */
  function WithKey<T, K(==)>(s: seq<T>, k: K, key: T -> K): seq<T> {
    if |s| == 0 then []
    else WithKey(s[..|s| - 1], k, key) + (if key(s[|s| - 1]) == k then [s[|s| - 1]] else [])
  }

  /** Insert `x` after the last element whose key is not greater than `x`'s. */
  function Insert<T, K>(s: seq<T>, x: T, key: T -> K, lt: (K, K) -> bool): (r: seq<T>)
    ensures multiset(r) == multiset(s) + multiset{x}
    ensures |r| == |s| + 1
    decreases |s|
  {
    if |s| == 0 || !lt(key(x), key(s[|s| - 1])) then s + [x]
    else
      assert s == s[..|s| - 1] + [s[|s| - 1]];
      Insert(s[..|s| - 1], x, key, lt) + [s[|s| - 1]]
  }

  /** Stable sort of `s` by `key` under `lt`. */
  function SortBy<T, K>(s: seq<T>, key: T -> K, lt: (K, K) -> bool): (r: seq<T>)
    ensures multiset(r) == multiset(s)
    ensures |r| == |s|
  {
    if |s| == 0 then []
    else
      assert s == s[..|s| - 1] + [s[|s| - 1]];
      Insert(SortBy(s[..|s| - 1], key, lt), s[|s| - 1], key, lt)
  }

  /** Under an irreflexive order, related keys are distinct. */
  lemma LessIsNotEqual<K>(u: K, v: K, lt: (K, K) -> bool)
    requires forall a :: !lt(a, a)
    requires lt(u, v)
    ensures u != v
  {
  }

  lemma InSeqFromMultiset<T>(s: seq<T>, t: seq<T>, e: T)
    requires multiset(s) == multiset(t) && e in s
    ensures e in t
  {
    assert e in multiset(s);
  }

  lemma {:induction false} InsertSorted<T, K(!new)>(s: seq<T>, x: T, key: T -> K, lt: (K, K) -> bool)
    requires StrictTotalOrder(lt)
    requires SortedBy(s, key, lt)
    ensures SortedBy(Insert(s, x, key, lt), key, lt)
    decreases |s|
  {
    if |s| == 0 || !lt(key(x), key(s[|s| - 1])) {
      forall e | e in s
        ensures !lt(key(x), key(e))
      {
        var m :| 0 <= m < |s| && s[m] == e;
        if m < |s| - 1 {
          NotLessTrans(key(s[m]), key(s[|s| - 1]), key(x), lt);
        }
      }
      SortedAppend(s, x, key, lt);
    } else {
      var init, last := s[..|s| - 1], s[|s| - 1];
      assert SortedBy(init, key, lt) by {
        forall i, j | 0 <= i < j < |init|
          ensures !lt(key(init[j]), key(init[i]))
        {
          assert init[i] == s[i] && init[j] == s[j];
        }
      }
      InsertSorted(init, x, key, lt);
      var r' := Insert(init, x, key, lt);
      forall e | e in r'
        ensures !lt(key(last), key(e))
      {
        assert e in multiset(r');
        if e != x {
          assert e in init;
          var m :| 0 <= m < |init| && init[m] == e;
          assert s[m] == e;
        }
      }
      SortedAppend(r', last, key, lt);
    }
  }

  /** Not-less is transitive under a strict total order. */
  lemma NotLessTrans<K(!new)>(a: K, b: K, c: K, lt: (K, K) -> bool)
    requires StrictTotalOrder(lt)
    requires !lt(b, a) && !lt(c, b)
    ensures !lt(c, a)
  {
  }

  /** Appending an element no smaller than any present keeps the order. */
  lemma SortedAppend<T, K>(s: seq<T>, x: T, key: T -> K, lt: (K, K) -> bool)
    requires SortedBy(s, key, lt)
    requires forall e :: e in s ==> !lt(key(x), key(e))
    ensures SortedBy(s + [x], key, lt)
  {
    var r := s + [x];
    forall i, j | 0 <= i < j < |r|
      ensures !lt(key(r[j]), key(r[i]))
    {
      assert r[i] == s[i];
      if j < |s| {
        assert r[j] == s[j];
      } else {
        assert s[i] in s;
      }
    }
  }

  /** The sort's output is ordered by key whenever `lt` is a strict total order. */
  lemma {:induction false} SortBySorted<T, K(!new)>(s: seq<T>, key: T -> K, lt: (K, K) -> bool)
    requires StrictTotalOrder(lt)
    ensures SortedBy(SortBy(s, key, lt), key, lt)
  {
    if |s| > 0 {
      SortBySorted(s[..|s| - 1], key, lt);
      InsertSorted(SortBy(s[..|s| - 1], key, lt), s[|s| - 1], key, lt);
    }
  }

  lemma {:induction false} WithKeyAppend<T, K>(a: seq<T>, b: seq<T>, k: K, key: T -> K)
    ensures WithKey(a + b, k, key) == WithKey(a, k, key) + WithKey(b, k, key)
    decreases |b|
  {
    if |b| == 0 {
      assert a + b == a;
    } else {
      assert (a + b)[..|a + b| - 1] == a + b[..|b| - 1];
      WithKeyAppend(a, b[..|b| - 1], k, key);
    }
  }

  lemma {:induction false} InsertStable<T, K>(s: seq<T>, x: T, k: K, key: T -> K, lt: (K, K) -> bool)
    requires forall a :: !lt(a, a)
    ensures WithKey(Insert(s, x, key, lt), k, key)
         == WithKey(s, k, key) + (if key(x) == k then [x] else [])
    decreases |s|
  {
    if |s| == 0 || !lt(key(x), key(s[|s| - 1])) {
      assert Insert(s, x, key, lt) == s + [x];
      WithKeyAppend(s, [x], k, key);
      WithKeySingle(x, k, key);
    } else {
      InsertStable(s[..|s| - 1], x, k, key, lt);
      InsertStableStep(s, x, k, key, lt);
    }
  }

  lemma AppendCommutesWithEmpty<T>(a: seq<T>, b: seq<T>, c: seq<T>)
    requires b == [] || c == []
    ensures a + b + c == a + c + b
  {
  }

  lemma WithKeySingle<T, K>(x: T, k: K, key: T -> K)
    ensures WithKey([x], k, key) == (if key(x) == k then [x] else [])
  {
    assert [x][..0] == [];
  }

  /** The step of `InsertStable` where `x` moves in front of the last element. */
  lemma InsertStableStep<T, K>(s: seq<T>, x: T, k: K, key: T -> K, lt: (K, K) -> bool)
    requires forall a :: !lt(a, a)
    requires |s| > 0 && lt(key(x), key(s[|s| - 1]))
    requires WithKey(Insert(s[..|s| - 1], x, key, lt), k, key)
          == WithKey(s[..|s| - 1], k, key) + (if key(x) == k then [x] else [])
    ensures WithKey(Insert(s, x, key, lt), k, key)
         == WithKey(s, k, key) + (if key(x) == k then [x] else [])
  {
    var init, last := s[..|s| - 1], s[|s| - 1];
    var ins := Insert(init, x, key, lt);
    var xs: seq<T> := if key(x) == k then [x] else [];
    var ls: seq<T> := if key(last) == k then [last] else [];
    assert Insert(s, x, key, lt) == ins + [last];
    WithKeySingle(last, k, key);
    WithKeyAppend(ins, [last], k, key);
    LessIsNotEqual(key(x), key(last), lt);
    assert WithKey(Insert(s, x, key, lt), k, key) == WithKey(init, k, key) + xs + ls;
    assert WithKey(s, k, key) == WithKey(init, k, key) + ls;
    AppendCommutesWithEmpty(WithKey(init, k, key), xs, ls);
  }

  /** Stability: for every key, the elements with that key come out in the
      order they went in. */
  lemma {:induction false} SortByStable<T, K>(s: seq<T>, k: K, key: T -> K, lt: (K, K) -> bool)
    requires forall a :: !lt(a, a)
    ensures WithKey(SortBy(s, key, lt), k, key) == WithKey(s, k, key)
  {
    if |s| > 0 {
      SortByStable(s[..|s| - 1], k, key, lt);
      InsertStable(SortBy(s[..|s| - 1], key, lt), s[|s| - 1], k, key, lt);
    }
  }

  /** Sorting an already sorted sequence changes nothing. */
  lemma {:induction false} SortBySortedIsIdentity<T, K>(s: seq<T>, key: T -> K, lt: (K, K) -> bool)
    requires SortedBy(s, key, lt)
    ensures SortBy(s, key, lt) == s
  {
    if |s| > 0 {
      var init := s[..|s| - 1];
      assert SortedBy(init, key, lt) by {
        forall i, j | 0 <= i < j < |init|
          ensures !lt(key(init[j]), key(init[i]))
        {
          assert init[i] == s[i] && init[j] == s[j];
        }
      }
      var last := s[|s| - 1];
      assert SortBy(s, key, lt) == Insert(init, last, key, lt) by {
        SortBySortedIsIdentity(init, key, lt);
      }
      assert Insert(init, last, key, lt) == init + [last] by {
        if |init| > 0 {
          assert !lt(key(last), key(s[|s| - 2]));
        }
      }
      assert init + [last] == s;
    }
  }

  /** Elements with equal keys appear in increasing `rank`. */
  ghost predicate TiesByRank<T, K>(s: seq<T>, key: T -> K, rank: T -> int) {
    forall i, j :: 0 <= i < j < |s| && key(s[i]) == key(s[j]) ==> rank(s[i]) < rank(s[j])
  }

  lemma {:induction false} InsertTieOrder<T, K>(s: seq<T>, x: T, key: T -> K, lt: (K, K) -> bool, rank: T -> int)
    requires forall a :: !lt(a, a)
    requires TiesByRank(s, key, rank)
    requires forall e :: e in s ==> rank(e) < rank(x)
    ensures TiesByRank(Insert(s, x, key, lt), key, rank)
    decreases |s|
  {
    var r := Insert(s, x, key, lt);
    if |s| == 0 || !lt(key(x), key(s[|s| - 1])) {
      forall i, j | 0 <= i < j < |r| && key(r[i]) == key(r[j])
        ensures rank(r[i]) < rank(r[j])
      {
        if j == |s| {
          assert r[i] in s;
        } else {
          assert r[i] == s[i] && r[j] == s[j];
        }
      }
    } else {
      var init, last := s[..|s| - 1], s[|s| - 1];
      assert TiesByRank(init, key, rank) by {
        forall i, j | 0 <= i < j < |init| && key(init[i]) == key(init[j])
          ensures rank(init[i]) < rank(init[j])
        {
          assert init[i] == s[i] && init[j] == s[j];
        }
      }
      forall e | e in init
        ensures rank(e) < rank(x)
      {
        assert e in s;
      }
      InsertTieOrder(init, x, key, lt, rank);
      var r' := Insert(init, x, key, lt);
      assert r == r' + [last];
      LessIsNotEqual(key(x), key(last), lt);
      forall i, j | 0 <= i < j < |r| && key(r[i]) == key(r[j])
        ensures rank(r[i]) < rank(r[j])
      {
        if j == |r| - 1 {
          var e := r'[i];
          assert e in multiset(r');
          if e != x {
            assert e in init;
            var m :| 0 <= m < |init| && init[m] == e;
            assert s[m] == e && s[|s| - 1] == last;
          }
        } else {
          assert r[i] == r'[i] && r[j] == r'[j];
        }
      }
    }
  }

  /** When the input is in strictly increasing `rank`, elements with equal
      keys leave the sort in increasing `rank`: the sort is stable. */
  lemma {:induction false} SortByTieOrder<T, K>(s: seq<T>, key: T -> K, lt: (K, K) -> bool, rank: T -> int)
    requires forall a :: !lt(a, a)
    requires forall i, j :: 0 <= i < j < |s| ==> rank(s[i]) < rank(s[j])
    ensures TiesByRank(SortBy(s, key, lt), key, rank)
  {
    if |s| > 0 {
      var init, last := s[..|s| - 1], s[|s| - 1];
      SortByTieOrder(init, key, lt, rank);
      var r' := SortBy(init, key, lt);
      forall e | e in r'
        ensures rank(e) < rank(last)
      {
        InSeqFromMultiset(r', init, e);
        var m :| 0 <= m < |init| && init[m] == e;
        assert s[m] == e;
      }
      InsertTieOrder(r', last, key, lt, rank);
    }
  }
}

=== FILE: text.dfy ===
/** String helpers standing in for the parts of Rust's `str` API the program
    relies on: `char::is_whitespace`, `trim`, `split_whitespace`, `lines`,
    ASCII `to_lowercase`, `contains`, `Ord for String` and decimal
    formatting of integers. Strings are `seq<char>` of Unicode scalar values. */
module Text {

  /** Rust's `Ordering`. */
  datatype Ordering = Less | Equal | Greater

  /** Rust's `char::is_whitespace`: the Unicode White_Space property. */
  predicate IsWhitespace(c: char) {
    || ('\U{0009}' <= c <= '\U{000D}')
    || c == ' '
    || c == '\U{0085}'
    || c == '\U{00A0}'
    || c == '\U{1680}'
    || ('\U{2000}' <= c <= '\U{200A}')
    || c == '\U{2028}'
    || c == '\U{2029}'
    || c == '\U{202F}'
    || c == '\U{205F}'
    || c == '\U{3000}'
  }

  /** Every character of `s` is whitespace (vacuously true of ""). */
  predicate IsBlank(s: string) {
    forall i :: 0 <= i < |s| ==> IsWhitespace(s[i])
  }

  /** No character of `s` is whitespace. */
  predicate HasNoWhitespace(s: string) {
    forall i :: 0 <= i < |s| ==> !IsWhitespace(s[i])
  }

  /** `trim_start`: the suffix left after the longest whitespace prefix. */
  function TrimStart(s: string): (r: string)
    ensures |r| <= |s| && r == s[|s| - |r|..]
    ensures IsBlank(s[..|s| - |r|])
    ensures |r| > 0 ==> !IsWhitespace(r[0])
  {
    if |s| > 0 && IsWhitespace(s[0]) then TrimStart(s[1..]) else s
  }

  /** `trim_end`: the prefix left after the longest whitespace suffix. */
  function TrimEnd(s: string): (r: string)
    ensures |r| <= |s| && r == s[..|r|]
    ensures IsBlank(s[|r|..])
    ensures |r| > 0 ==> !IsWhitespace(r[|r| - 1])
  {
    if |s| > 0 && IsWhitespace(s[|s| - 1]) then TrimEnd(s[..|s| - 1]) else s
  }

  /** `s[i..i + |r|]` is `r`. */
  predicate OccursAt(s: string, r: string, i: int) {
    0 <= i <= |s| - |r| && s[i..i + |r|] == r
  }

  /** `trim`: both ends stripped of whitespace. */
  function Trim(s: string): (r: string)
    ensures r == "" <==> IsBlank(s)
    ensures |r| > 0 ==> !IsWhitespace(r[0]) && !IsWhitespace(r[|r| - 1])
    ensures exists i :: OccursAt(s, r, i)
  {
    var t := TrimStart(s);
    var r := TrimEnd(t);
    TrimParts(s, t, r);
    r
  }

  lemma TrimParts(s: string, t: string, r: string)
    requires t == TrimStart(s) && r == TrimEnd(t)
    ensures r == "" <==> IsBlank(s)
    ensures OccursAt(s, r, |s| - |t|)
  {
    var k := |s| - |t|;
    SliceOfSuffix(s, k, t, r);
    if r == "" {
      assert IsBlank(t) by {
        assert t[|r|..] == t;
      }
      BlankConcat(s[..k], t);
      SplitAt(s, k);
    } else {
      assert !IsWhitespace(s[k]);
    }
  }

  lemma SliceOfSuffix(s: string, k: nat, t: string, r: string)
    requires k <= |s| && t == s[k..] && |r| <= |t| && r == t[..|r|]
    ensures OccursAt(s, r, k)
    ensures |r| > 0 ==> s[k] == r[0]
  {
  }

  lemma BlankConcat(a: string, b: string)
    requires IsBlank(a) && IsBlank(b)
    ensures IsBlank(a + b)
  {
    forall i | 0 <= i < |a + b|
      ensures IsWhitespace((a + b)[i])
    {
      if i < |a| {
        assert (a + b)[i] == a[i];
      } else {
        assert (a + b)[i] == b[i - |a|];
      }
    }
  }

  /** Length of the leading run of non-whitespace characters of `t`. */
  function WordLength(t: string): (n: nat)
    ensures n <= |t|
    ensures HasNoWhitespace(t[..n])
    ensures n < |t| ==> IsWhitespace(t[n])
  {
    if |t| == 0 || IsWhitespace(t[0]) then 0 else 1 + WordLength(t[1..])
  }

  /** A word of `split_whitespace`: non-empty and free of whitespace. */
  predicate IsWord(w: string) {
    |w| > 0 && HasNoWhitespace(w)
  }

  /** `split_whitespace`: the maximal runs of non-whitespace characters, in order. */
  function SplitWhitespace(s: string): (r: seq<string>)
    ensures forall k :: 0 <= k < |r| ==> IsWord(r[k])
    decreases |s|
  {
    var t := TrimStart(s);
    if |t| == 0 then []
    else
      var n := WordLength(t);
      FirstWord(s, t, n);
      var rest := SplitWhitespace(t[n..]);
      WordsCons(t[..n], rest);
      [t[..n]] + rest
  }

  lemma FirstWord(s: string, t: string, n: nat)
    requires t == TrimStart(s) && |t| > 0 && n == WordLength(t)
    ensures 0 < n <= |t| <= |s| && IsWord(t[..n])
  {
    assert !IsWhitespace(t[0]);
  }

  lemma WordsCons(w: string, rest: seq<string>)
    requires IsWord(w) && forall k :: 0 <= k < |rest| ==> IsWord(rest[k])
    ensures forall k :: 0 <= k < |[w] + rest| ==> IsWord(([w] + rest)[k])
  {
    forall k | 0 <= k < |[w] + rest|
      ensures IsWord(([w] + rest)[k])
    {
      if k > 0 {
        assert ([w] + rest)[k] == rest[k - 1];
      }
    }
  }

  /** Independent reference for `SplitWhitespace`: `s` with every whitespace character deleted. */
  function RemoveWhitespace(s: string): string {
    if |s| == 0 then ""
    else (if IsWhitespace(s[0]) then "" else [s[0]]) + RemoveWhitespace(s[1..])
  }

  function Flatten(words: seq<string>): string {
    if |words| == 0 then "" else words[0] + Flatten(words[1..])
  }

  lemma {:induction false} RemoveWhitespaceAppend(a: string, b: string)
    ensures RemoveWhitespace(a + b) == RemoveWhitespace(a) + RemoveWhitespace(b)
    decreases |a|
  {
    if |a| == 0 {
      assert a + b == b;
    } else {
      assert (a + b)[1..] == a[1..] + b;
      RemoveWhitespaceAppend(a[1..], b);
    }
  }

  lemma {:induction false} RemoveWhitespaceOfBlank(s: string)
    requires IsBlank(s)
    ensures RemoveWhitespace(s) == ""
    decreases |s|
  {
    if |s| > 0 {
      RemoveWhitespaceOfBlank(s[1..]);
    }
  }

  lemma {:induction false} RemoveWhitespaceOfWord(s: string)
    requires HasNoWhitespace(s)
    ensures RemoveWhitespace(s) == s
    decreases |s|
  {
    if |s| > 0 {
      RemoveWhitespaceOfWord(s[1..]);
    }
  }

  /** The words of `split_whitespace`, glued back together, are exactly the
      non-whitespace characters of the input, in order: no character is lost,
      duplicated or reordered. */
  lemma {:induction false} SplitWhitespaceKeepsEveryCharacter(s: string)
    ensures Flatten(SplitWhitespace(s)) == RemoveWhitespace(s)
    decreases |s|
  {
    var t := TrimStart(s);
    var k := |s| - |t|;
    assert RemoveWhitespace(s) == RemoveWhitespace(t) by {
      SplitAt(s, k);
      RemoveWhitespaceAppend(s[..k], t);
      RemoveWhitespaceOfBlank(s[..k]);
    }
    if |t| > 0 {
      var n := WordLength(t);
      FirstWord(s, t, n);
      var w, rest := t[..n], t[n..];
      assert RemoveWhitespace(t) == w + RemoveWhitespace(rest) by {
        SplitAt(t, n);
        RemoveWhitespaceAppend(w, rest);
        RemoveWhitespaceOfWord(w);
      }
      assert Flatten(SplitWhitespace(s)) == w + Flatten(SplitWhitespace(rest)) by {
        assert SplitWhitespace(s) == [w] + SplitWhitespace(rest);
      }
      SplitWhitespaceKeepsEveryCharacter(rest);
    }
  }

  lemma SplitAt<T>(t: seq<T>, n: nat)
    requires n <= |t|
    ensures t == t[..n] + t[n..]
  {
  }

  /** The two emptiness tests the program uses on a command line agree:
      `split_whitespace` yields nothing exactly when `trim` yields "". */
  lemma {:induction false} SplitEmptyIffTrimEmpty(s: string)
    ensures SplitWhitespace(s) == [] <==> Trim(s) == ""
  {
    var t := TrimStart(s);
    if |t| == 0 {
      assert s == s[..|s|] + t;
      assert IsBlank(s);
    } else {
      assert !IsWhitespace(s[|s| - |t|]);
      assert !IsBlank(s);
    }
  }

  /** `Ord for String`: lexicographic by character. UTF-8 byte order and
      code-point order coincide, so comparing scalar values agrees with Rust. */
  function CompareStrings(a: string, b: string): Ordering
    decreases |a|
  {
    if |a| == 0 && |b| == 0 then Equal
    else if |a| == 0 then Less
    else if |b| == 0 then Greater
    else if a[0] < b[0] then Less
    else if b[0] < a[0] then Greater
    else CompareStrings(a[1..], b[1..])
  }

  predicate LexLess(a: string, b: string) {
    CompareStrings(a, b) == Less
  }

  /** String comparison is a strict total order whose ties are exactly equal strings. */
  lemma {:induction false} CompareStringsProperties(a: string, b: string)
    ensures CompareStrings(a, b) == Equal <==> a == b
    ensures CompareStrings(a, b) == Less <==> CompareStrings(b, a) == Greater
    decreases |a|
  {
    if |a| > 0 && |b| > 0 && a[0] == b[0] {
      CompareStringsProperties(a[1..], b[1..]);
      if a[1..] == b[1..] {
        assert a == [a[0]] + a[1..] && b == [b[0]] + b[1..];
      }
    }
  }

  lemma {:induction false} LexLessTransitive(a: string, b: string, c: string)
    requires LexLess(a, b) && LexLess(b, c)
    ensures LexLess(a, c)
    decreases |a|
  {
    if |a| > 0 && |b| > 0 && |c| > 0 && a[0] == b[0] && b[0] == c[0] {
      LexLessTransitive(a[1..], b[1..], c[1..]);
    }
  }

  function LowerChar(c: char): char {
    if 'A' <= c <= 'Z' then (c as int + 32) as char else c
  }

  /** `to_lowercase` restricted to ASCII letters. */
  function AsciiLower(s: string): (r: string)
    ensures |r| == |s|
    ensures forall i :: 0 <= i < |s| ==> r[i] == LowerChar(s[i])
  {
    seq(|s|, i requires 0 <= i < |s| => LowerChar(s[i]))
  }

  /** `str::contains` for a string pattern: `needle` occurs in `hay` at some offset. */
  predicate Contains(hay: string, needle: string) {
    exists i | 0 <= i <= |hay| - |needle| :: OccursAt(hay, needle, i)
  }

  /** Index of the first `c` in `s`, or `|s|` when there is none. */
  function IndexOf(s: string, c: char): (i: nat)
    ensures i <= |s|
    ensures i < |s| ==> s[i] == c
    ensures forall k :: 0 <= k < i ==> s[k] != c
  {
    if |s| == 0 then 0
    else if s[0] == c then 0
    else 1 + IndexOf(s[1..], c)
  }

  predicate EndsWithCr(s: string) {
    |s| > 0 && s[|s| - 1] == '\r'
  }

  /** `str::lines`: split at "\n", dropping a "\r" that precedes the "\n";
      a final line ending does not start a new (empty) line, and a trailing
      "\r" without "\n" stays in the last line. */
  function Lines(s: string): (r: seq<string>)
    ensures forall k :: 0 <= k < |r| ==> '\n' !in r[k]
    decreases |s|
  {
    if |s| == 0 then []
    else
      var i := IndexOf(s, '\n');
      if i == |s| then [s]
      else
        var line := if EndsWithCr(s[..i]) then s[..i - 1] else s[..i];
        [line] + Lines(s[i + 1..])
  }

  /** The inverse of `Lines`: each line followed by "\n". */
  function JoinLines(ls: seq<string>): string {
    if |ls| == 0 then "" else ls[0] + "\n" + JoinLines(ls[1..])
  }

  /** Splitting the text that `JoinLines` produced gives the lines back,
      provided no line holds a newline or ends with a carriage return. */
  lemma {:induction false} LinesOfJoinLines(ls: seq<string>)
    requires forall k :: 0 <= k < |ls| ==> '\n' !in ls[k] && !EndsWithCr(ls[k])
    ensures Lines(JoinLines(ls)) == ls
  {
    if |ls| > 0 {
      var s := JoinLines(ls);
      var l := ls[0];
      assert s == l + "\n" + JoinLines(ls[1..]);
      var i := IndexOf(s, '\n');
      assert s[|l|] == '\n';
      assert forall k :: 0 <= k < |l| ==> s[k] == l[k];
      assert i == |l|;
      assert s[..i] == l;
      assert s[i + 1..] == JoinLines(ls[1..]);
      LinesOfJoinLines(ls[1..]);
    }
  }

  function DigitChar(d: nat): char
    requires d < 10
  {
    ('0' as int + d) as char
  }

  predicate IsDigit(c: char) {
    '0' <= c <= '9'
  }

  /** Decimal rendering of a natural number, as `format!("{}", n)` does. */
  function NatToString(n: nat): (r: string)
    ensures |r| > 0
    ensures forall i :: 0 <= i < |r| ==> IsDigit(r[i])
  {
    if n < 10 then [DigitChar(n)] else NatToString(n / 10) + [DigitChar(n % 10)]
  }

  /** Value of a string of decimal digits: the partner of `NatToString`. */
  function DecimalValue(s: string): nat
    requires forall i :: 0 <= i < |s| ==> IsDigit(s[i])
  {
    if |s| == 0 then 0
    else
      assert IsDigit(s[|s| - 1]);
      DecimalValue(s[..|s| - 1]) * 10 + (s[|s| - 1] as int - '0' as int)
  }

  lemma {:induction false} DecimalRoundTrip(n: nat)
    ensures DecimalValue(NatToString(n)) == n
  {
    if n >= 10 {
      var r := NatToString(n);
      assert r[..|r| - 1] == NatToString(n / 10);
      DecimalRoundTrip(n / 10);
    }
  }

  /** Different numbers render differently. */
  lemma NatToStringInjective(m: nat, n: nat)
    requires NatToString(m) == NatToString(n)
    ensures m == n
  {
    DecimalRoundTrip(m);
    DecimalRoundTrip(n);
  }
}

=== FILE: wrappers.dfy ===
/** Option and Result, the two failure-compatible wrappers the model uses
    for Rust's `Option<T>` and `anyhow::Result<T>`. Errors carry the
    message text of the source's `bail!`/`context` calls. */
module Wrappers {

  datatype Option<+T> = None | Some(value: T) {

    predicate IsFailure() {
      None?
    }

    function PropagateFailure<U>(): Option<U>
      requires None?
    {
      None
    }

    function Extract(): T
      requires Some?
    {
      value
    }

    /** Rust's `unwrap_or`. */
    function GetOr(default: T): T {
      match this
      case Some(v) => v
      case None => default
    }

    /** Rust's `or`: this value if present, otherwise `other`. */
    function Or(other: Option<T>): Option<T> {
      if Some? then this else other
    }

    /** Rust's `context`/`ok_or`: a missing value becomes the error `e`. */
    function ToResult(e: string): Result<T> {
      match this
      case Some(v) => Ok(v)
      case None => Err(e)
    }
  }

  datatype Result<+T> = Ok(value: T) | Err(error: string) {

    predicate IsFailure() {
      Err?
    }

    function PropagateFailure<U>(): Result<U>
      requires Err?
    {
      Err(error)
    }

    function Extract(): T
      requires Ok?
    {
      value
    }
  }
}
